=== FILE: README.md ===
# NetWarden, modelled in Dafny

NetWarden is a macOS menu-bar watchdog for gamers. While "gaming mode" is on, it does three things:

- It stops or kills background processes that compete for the network.
- It switches off the system's automatic updates.
- It shows which processes use the network right now.

This project models the core of that program as pure Dafny functions over immutable data and proves properties of them. The core is:

- **the usage sampler** (`NetworkMonitorService`). It parses `nettop` output into cumulative byte counters per process, derives rates against the previous tick, drops usages at or below 64 bytes per second and sorts the rest, largest first.
- **the process catalog** (`ProcessCatalog`). It holds the seven default rules, the descriptions, and the protected Riot, League and Vanguard names and tokens.
- **the enforcement watchdog** (`ProcessControlService`). It covers `setEnabled`, `updateRules`, the one-second `enforce` pass with its three-second cooldown per process and action, and `resumePaused`.
- **the update throttle** (`SystemThrottleManager`). `enable` backs up six `defaults` settings and switches them off. `disable` restores them from the backup file.
- **the app model** (`AppModel`). It covers:
  - rule editing: add, remove, toggle, change action;
  - gaming mode and its automatic variant;
  - recommendations;
  - the action log capped at 100 entries;
  - the log preview: the last 120 lines holding the filter's token;
  - loading rules, with a fallback to the defaults.
- **the records** in `Models.swift`.

Files:

| file | what it holds |
|---|---|
| `optional.dfy` | `Option` |
| `strings.dfy` | Foundation's string operations, as the code uses them. Covers: trimming whitespace and newlines; ASCII lower-casing; `contains`; `split` with and without empty pieces; `components(separatedBy:)`; `lastIndex(of:)`; `Int(_:)` on 64-bit integers. |
| `models.dfy` | `RuleAction`, `LogViewFilter`, `ProcessRule`, `ProcessUsage`, `RecommendationItem`, `ActionLog` |
| `commands.dfy` | the shell commands the program runs, and a `Runner` standing for the shell |
| `applogger.dfy` | the shape of a log line, which the log preview filters |
| `catalog.dfy` | `ProcessCatalog` |
| `monitor.dfy` | `NetworkMonitorService` |
| `defaults.dfy` | a model of the `defaults` database, against which the throttle's round trip is stated |
| `throttle.dfy` | `SystemThrottleManager` |
| `control.dfy` | `ProcessControlService` |
| `appmodel.dfy` | `AppModel`, every event it handles, and the requests it makes of the store and the watchdog |

How the outside world is represented:

- **The shell.** A shell command is a `Runner`: a function from the command line to what the command prints. An empty string stands for a failed command, as `runIgnoringFailure` turns failures into "".
- **The clock.** Time is a `real` number of seconds, passed in as `now`.
- **Dictionary order.** The order in which a Swift dictionary is enumerated is an `order` parameter, which may be any enumeration of its keys.
- **UUIDs.** The `UUID()` a new rule gets is a `newId` parameter.
- **`isGameProcess`.** `handleAutoGamingMode` calls `ProcessCatalog.isGameProcess`, but `ProcessCatalog.swift` does not define it. It is an `isGame` predicate parameter.
- **The app's requests.** Each `AppModel` operation returns the new state plus the requests it makes, in order: save the rules, hand them to the watchdog, switch the watchdog.

Three facts about the code shape the model:

- **Resuming keeps no journal.** `resumePaused` sends SIGCONT to the process of every enabled pause rule, whether or not it was ever stopped (ProcessControlService.swift:85-90). `ProcessControl.ResumeCommands` models exactly that.
- **`recoverIfNeeded` is not defined.** `AppModel.start` calls `control.recoverIfNeeded()` (AppModel.swift:27), which ProcessControlService.swift does not define. It is not part of this model.
- **The window's gaming-mode switch.** Both toggles call `setGamingMode` (DashboardView.swift:38-42, PopoverView.swift:18-22). `AppModel.Handle` and `AppModel.Replay` take a `corrected` flag. Without it the switch is `setGamingMode`, as written. With it the switch is the corrected `AppModel.SwitchByHand` described under "Findings". The safety and synchronisation results hold either way.

## Model

| member | source | states |
|---|---|---|
| `Strings.Trim` | Sources/NetWarden/NetworkMonitorService.swift:66 | Trimming leaves no whitespace or newline at either end. It is empty exactly when the input is all whitespace. Otherwise it is the text between the maximal whitespace prefix and the maximal whitespace suffix. It changes nothing in an already-trimmed string. |
| `Strings.TrimIdempotent` | Sources/NetWarden/AppModel.swift:80 | Trimming twice is trimming once. |
| `Strings.TrimDropsLineBreak` | Sources/NetWarden/ProcessControlService.swift:64 | A trimmed output followed by the newline a command prints trims back to itself. |
| `Strings.Lower` | Sources/NetWarden/ProcessCatalog.swift:55 | Lower-casing keeps the length and maps every character on its own. |
| `Strings.Contains` | Sources/NetWarden/ProcessCatalog.swift:56 | `contains` holds exactly when the needle occurs at some position. |
| `Strings.OccursInContext` | Sources/NetWarden/ProcessCatalog.swift:56 | A substring stays a substring when text is added on either side. |
| `Strings.LastIndexOf` | Sources/NetWarden/NetworkMonitorService.swift:82 | `lastIndex(of:)` is absent exactly when the character is absent. Otherwise it points at that character, with no later occurrence. |
| `Strings.LastIndexOfIsLast` | Sources/NetWarden/NetworkMonitorService.swift:82 | Any position holding the character with none after it is the position `lastIndex(of:)` gives. |
| `Strings.Split` | Sources/NetWarden/NetworkMonitorService.swift:63 | Splitting keeping empty pieces gives at least one piece, and no piece holds the separator. |
| `Strings.SplitJoin` | Sources/NetWarden/NetworkMonitorService.swift:63 | Splitting the joined pieces gives the pieces back. |
| `Strings.JoinSplit` | Sources/NetWarden/NetworkMonitorService.swift:63 | Joining the pieces of a split gives the text back. |
| `Strings.SplitNonEmpty` | Sources/NetWarden/NetworkMonitorService.swift:59 | Splitting without empty pieces gives only non-empty pieces free of the separator. |
| `Strings.SplitNonEmptyParts` | Sources/NetWarden/NetworkMonitorService.swift:59 | A piece is kept exactly when it is a non-empty piece of the split that keeps empty pieces. |
| `Strings.NonEmptyAppend` | Sources/NetWarden/AppModel.swift:149 | Dropping the empty pieces of two runs of pieces joined is dropping them from each. |
| `Strings.SplitNonEmptyAppended` | Sources/NetWarden/AppModel.swift:148-149 | A line appended after a separator becomes the last piece, after the earlier pieces. |
| `Strings.Components` | Sources/NetWarden/SystemThrottleManager.swift:56 | `components(separatedBy:)` always gives at least one piece. |
| `Strings.ComponentsRejoin` | Sources/NetWarden/SystemThrottleManager.swift:56 | The pieces joined back with the separator give the text back. |
| `Strings.ComponentsClear` | Sources/NetWarden/SystemThrottleManager.swift:56 | No piece contains the separator. |
| `Strings.ComponentsOfPair` | Sources/NetWarden/SystemThrottleManager.swift:56-57 | A composite of two separator-free parts splits back into exactly those two parts. |
| `Strings.ShowNatRoundTrip` | Sources/NetWarden/NetworkMonitorService.swift:69-70 | Reading back the decimal digits of a number gives the number. |
| `Strings.ParseInt` | Sources/NetWarden/NetworkMonitorService.swift:85 | `Int(_:)` reads digits, with an optional `+` or `-`, as their value, and gives nothing when that value leaves the 64-bit range. It gives nothing for the empty text, a lone sign, any later non-digit, or a first character that is neither sign nor digit. |
| `Strings.ParseShowInt` | Sources/NetWarden/NetworkMonitorService.swift:85 | Every 64-bit integer written in decimal reads back as itself. |
| `Models.ActionFromRawValue` | Sources/NetWarden/Models.swift:3-6 | A raw value decodes only to the action that has that raw value. |
| `Models.ActionRawValueRoundTrip` | Sources/NetWarden/Models.swift:3-14 | Every action's raw value decodes back to it. The two actions have different titles. |
| `Models.ReasonTextDistinct` | Sources/NetWarden/AppModel.swift:209-220 | The four recommendation reason texts differ, so the reason can be modelled by which one it is. |
| `Models.FilterToken` | Sources/NetWarden/Models.swift:33-35 | A filter's token is its title in square brackets. |
| `Models.NewRule` | Sources/NetWarden/Models.swift:45-51 | A new rule holds exactly the id, name, action and flags it was given. |
| `Models.NewRuleDefaults` | Sources/NetWarden/Models.swift:45 | By default a new rule is enabled and not a default rule. |
| `Models.UsageIdRoundTrip` | Sources/NetWarden/Models.swift:61 | A usage's id `name-pid` splits back into its name and pid. |
| `AppLogger.OneLine` | Sources/NetWarden/AppLogger.swift:53 | Replacing newlines with spaces keeps the length and leaves no newline. |
| `AppLogger.FilterTitlesAreLevelNames` | Sources/NetWarden/AppLogger.swift:4-9 | Every log level has exactly one view filter whose title is the level's name. |
| `AppLogger.LineCarriesFilterToken` | Sources/NetWarden/AppLogger.swift:54 | Every log line contains the token of its level's filter. |
| `AppLogger.LogLineFrame` | Sources/NetWarden/AppLogger.swift:53-54 | A log line starts with its timestamp and ends with its message on one line, with seven characters of framing around the level and the category. |
| `AppLogger.LineHasNoBreak` | Sources/NetWarden/AppLogger.swift:53-54 | A log line holds no newline whatever the message is. |
| `ProcessCatalog.Description` | Sources/NetWarden/ProcessCatalog.swift:49-51 | A listed process gets its description, and any other process the fallback text. |
| `ProcessCatalog.AnyTokenIn` | Sources/NetWarden/ProcessCatalog.swift:56 | The token search succeeds exactly when some token occurs in the lower-cased name. |
| `ProcessCatalog.IsProtected` | Sources/NetWarden/ProcessCatalog.swift:53-57 | A name is protected exactly when it is one of the exact names or its lower-cased form contains a protected token. |
| `ProcessCatalog.ExactNamesCarryToken` | Sources/NetWarden/ProcessCatalog.swift:28-47 | Every exact protected name also contains a protected token. |
| `ProcessCatalog.ProtectedIffToken` | Sources/NetWarden/ProcessCatalog.swift:53-57 | Protection is decided by the tokens alone: the exact-name list adds nothing. |
| `ProcessCatalog.ExactNamesProtected` | Sources/NetWarden/ProcessCatalog.swift:54 | Every exact name is protected. |
| `ProcessCatalog.ProtectionIgnoresCase` | Sources/NetWarden/ProcessCatalog.swift:55-56 | Two names that differ only in case are both protected or both not. |
| `ProcessCatalog.ProtectionSurvivesContext` | Sources/NetWarden/ProcessCatalog.swift:56 | A name that contains a protected name is protected. |
| `ProcessCatalog.NotProtectedWhen` | Sources/NetWarden/ProcessCatalog.swift:53-57 | A lower-case name without 'v', "riot" or "league" that is not an exact name is not protected. |
| `ProcessCatalog.DefaultNameNotProtected` | Sources/NetWarden/ProcessCatalog.swift:4-12 | No default rule names a protected process. |
| `ProcessCatalog.DefaultRulesFlags` | Sources/NetWarden/ProcessCatalog.swift:4-12 | There are seven default rules. Each is an enabled default pause rule, and their ids are distinct. |
| `ProcessCatalog.DefaultRulesDescribed` | Sources/NetWarden/ProcessCatalog.swift:4-26 | Every default rule's process has its own description rather than the fallback. |
| `NetworkMonitor.ParseCounter` | Sources/NetWarden/NetworkMonitorService.swift:69-70 | A byte column of digits, with an optional `+`, reads as its value. The empty text, a lone `+`, any later non-digit, or a first character that is neither `+` nor a digit reads as 0. |
| `NetworkMonitor.ParseCounterRoundTrip` | Sources/NetWarden/NetworkMonitorService.swift:69-70 | A byte column holding a number's digits reads as that number. |
| `NetworkMonitor.SplitProcess` | Sources/NetWarden/NetworkMonitorService.swift:81-86 | A field without a dot gives the whole field and pid -1. A pid other than -1 needs a dot. |
| `NetworkMonitor.SplitProcessAtLastDot` | Sources/NetWarden/NetworkMonitorService.swift:82-85 | With a dot, the name is the trimmed text before the last dot. The pid is the trimmed text after it, read as an integer, or -1 when that text is not a 64-bit integer. |
| `NetworkMonitor.SplitProcessRoundTrip` | Sources/NetWarden/NetworkMonitorService.swift:81-86 | `name.pid` splits back into the trimmed name and the pid. |
| `NetworkMonitor.ParseLine` | Sources/NetWarden/NetworkMonitorService.swift:60-75 | The header line is skipped. So is a line with five columns or fewer, an empty process column, both byte columns reading 0 (unreadable counts as 0), or a pid that is not positive. An accepted row takes its name and pid from the process column and its counters from columns four and five. |
| `NetworkMonitor.ParseLines` | Sources/NetWarden/NetworkMonitorService.swift:59-76 | Parsing yields at most one row per line, and every row has a positive pid and some traffic. |
| `NetworkMonitor.ParseOneLine` | Sources/NetWarden/NetworkMonitorService.swift:59-76 | A single line yields its own row, or nothing. |
| `NetworkMonitor.ParseLinesAppend` | Sources/NetWarden/NetworkMonitorService.swift:59-76 | Lines are parsed independently, in order: two runs of lines give the rows of the first, then those of the second. |
| `NetworkMonitor.Parse` | Sources/NetWarden/NetworkMonitorService.swift:56-79 | The output gives at most one row per non-empty line, each with a positive pid and some traffic. |
| `NetworkMonitor.ParsedRowsComeFromLines` | Sources/NetWarden/NetworkMonitorService.swift:56-79 | Every parsed row is the parse of one non-empty line of the output. |
| `NetworkMonitor.RenderedRowColumns` | Sources/NetWarden/NetworkMonitorService.swift:63 | A rendered row splits into its six columns. |
| `NetworkMonitor.ParseRenderedRow` | Sources/NetWarden/NetworkMonitorService.swift:56-86 | A well-formed `nettop` data row parses back into exactly the row it was rendered from. |
| `NetworkMonitor.Previous` | Sources/NetWarden/NetworkMonitorService.swift:38 | A pid never seen counts from zero. A known pid counts from its last totals. |
| `NetworkMonitor.Elapsed` | Sources/NetWarden/NetworkMonitorService.swift:33 | The rate interval is the time since the last tick, but never less than one second. |
| `NetworkMonitor.Rate` | Sources/NetWarden/NetworkMonitorService.swift:39-40 | A rate is never negative. It is the counter's growth per second, or 0 when the counter went backwards. |
| `NetworkMonitor.AbsorbKeepsLastTotals` | Sources/NetWarden/NetworkMonitorService.swift:41 | After a tick, a pid is known when it was known or was parsed. The last row for a pid decides its totals. An absent pid keeps its totals. |
| `NetworkMonitor.Derive` | Sources/NetWarden/NetworkMonitorService.swift:37-42 | Each row yields one usage, measured against the totals left by the earlier ticks and by the earlier rows of this tick. The totals left behind are those of all rows. |
| `NetworkMonitor.AboveFloor` | Sources/NetWarden/NetworkMonitorService.swift:43 | A usage is kept exactly when its combined rate is above 64 bytes per second, and nothing is added. |
| `NetworkMonitor.Insert` | Sources/NetWarden/NetworkMonitorService.swift:46 | Inserting into a sorted list keeps it sorted and adds exactly the one usage. |
| `NetworkMonitor.SortByTotal` | Sources/NetWarden/NetworkMonitorService.swift:46 | The sort is a permutation ordered by combined rate, largest first. |
| `NetworkMonitor.Collect` | Sources/NetWarden/NetworkMonitorService.swift:30-54 | A tick records its time and every parsed row's totals. The snapshot is sorted, no longer than the parse, and above the floor. Every usage in it is stamped with the tick's time and has non-negative rates. |
| `NetworkMonitor.SnapshotIsAboveFloor` | Sources/NetWarden/NetworkMonitorService.swift:37-46 | The snapshot is exactly the derived usages above the floor, with their multiplicities. |
| `NetworkMonitor.FirstRowAgainstPreviousTick` | Sources/NetWarden/NetworkMonitorService.swift:38-41 | A pid's first row in a tick is measured against the previous tick's totals. |
| `NetworkMonitor.RateAgainstPreviousTick` | Sources/NetWarden/NetworkMonitorService.swift:33-41 | The rates of a pid seen once in a tick are its counters' growth since the previous tick over the elapsed time. |
| `NetworkMonitor.FreshMonitorRatesFromZero` | Sources/NetWarden/NetworkMonitorService.swift:8-41 | A new sampler has seen no totals, so on its first tick a pid's rate is its whole counter over the time since the sampler was made. |
| `DefaultsDatabase.Apply` | Sources/NetWarden/SystemThrottleManager.swift:39-67 | A `defaults` write or delete changes its own address and no other. A boolean write stores the boolean. A delete removes the key. An untyped write stores the text, unless the text opens an array, a dictionary, data or a quoted string; then it stores the parsed value. |
| `DefaultsDatabase.ApplyAllAppend` | Sources/NetWarden/SystemThrottleManager.swift:39-44 | Running two command lists in turn is running their concatenation. |
| `DefaultsDatabase.LastWriteWins` | Sources/NetWarden/SystemThrottleManager.swift:55-69 | An address ends with what the last command changing it wrote. |
| `SystemThrottle.CompositeSplits` | Sources/NetWarden/SystemThrottleManager.swift:56-57 | A backup key `domain::key` splits back into its domain and key. |
| `SystemThrottle.CompositesDistinct` | Sources/NetWarden/SystemThrottleManager.swift:33 | Different settings get different backup keys. |
| `SystemThrottle.BackupValue` | Sources/NetWarden/SystemThrottleManager.swift:30-31 | The backup records a read's trimmed output, or the missing marker when that is empty. |
| `SystemThrottle.BackupCovers` | Sources/NetWarden/SystemThrottleManager.swift:27-32 | The backup holds, for every setting, the value recorded for it. |
| `SystemThrottle.Backup` | Sources/NetWarden/SystemThrottleManager.swift:27-32 | The backup holds no key other than the settings' keys. |
| `SystemThrottle.EnableCommandsSwitchOff` | Sources/NetWarden/SystemThrottleManager.swift:28-44 | After `enable`'s commands, every setting reads as boolean false. |
| `SystemThrottle.EnableCommandsElsewhere` | Sources/NetWarden/SystemThrottleManager.swift:28-44 | `enable`'s commands leave every other address alone. |
| `SystemThrottle.RestoreCommand` | Sources/NetWarden/SystemThrottleManager.swift:55-68 | An entry is restored exactly when its key has two parts. The restore then targets that domain and key and writes the value the backup text stands for. |
| `SystemThrottle.RestoreCommands` | Sources/NetWarden/SystemThrottleManager.swift:55-69 | Restoring issues at most one command per backup entry. |
| `SystemThrottle.Disable` | Sources/NetWarden/SystemThrottleManager.swift:47-73 | Without a readable backup nothing happens. Otherwise the file goes when its removal succeeds, and at most one command is issued per entry. |
| `SystemThrottle.BackupRestoresValue` | Sources/NetWarden/SystemThrottleManager.swift:30-67 | A value that survives the round trip is read, backed up and restored unchanged. Surviving means absent, a boolean, or a trimmed non-blank text that is not the missing marker, not a boolean spelling and not shaped like a structured property list. |
| `SystemThrottle.PlistTextComesBackParsed` | Sources/NetWarden/SystemThrottleManager.swift:30-67 | A text setting that opens an array, a dictionary, data or a quoted string does not survive: the untyped write at line 67 parses it, so "(a)" comes back as an array. |
| `SystemThrottle.TextSpellingTrueComesBackAsFlag` | Sources/NetWarden/SystemThrottleManager.swift:63-65 | A text setting "true" comes back as a boolean. |
| `SystemThrottle.BlankTextIsDeleted` | Sources/NetWarden/SystemThrottleManager.swift:31-62 | A blank text setting is taken for a missing one and deleted on restore. |
| `SystemThrottle.RestoreBackup` | Sources/NetWarden/SystemThrottleManager.swift:55-69 | Restoring a backup in any enumeration order sets each setting to the value its entry stands for, whatever happened in between. |
| `SystemThrottle.KeysDistinct` | Sources/NetWarden/SystemThrottleManager.swift:6-13 | The six throttled keys are pairwise different. |
| `SystemThrottle.SettingsWellFormed` | Sources/NetWarden/SystemThrottleManager.swift:6-13 | The six settings have colon-free names and six different addresses. |
| `SystemThrottle.Enable` | Sources/NetWarden/SystemThrottleManager.swift:25-45 | `enable` reads every setting, then switches every setting off. The backup is replaced only when it was saved. |
| `SystemThrottle.EnableSwitchesOff` | Sources/NetWarden/SystemThrottleManager.swift:25-45 | After `enable`, every throttled setting reads as off, and no other address changed. |
| `SystemThrottle.EnableRecordsReads` | Sources/NetWarden/SystemThrottleManager.swift:27-37 | The saved backup holds, for each setting, what reading it printed, trimmed, or the missing marker, and no other key. |
| `SystemThrottle.RestoreUndoesEnable` | Sources/NetWarden/SystemThrottleManager.swift:25-73 | `disable` after `enable` puts back every setting whose value survives the backup, in the sense of `SystemThrottle.BackupRestoresValue`. |
| `ProcessControl.KeySplits` | Sources/NetWarden/ProcessControlService.swift:76 | A cooldown key is the process name, the last colon, then the action's raw value. |
| `ProcessControl.CooldownKeyInjective` | Sources/NetWarden/ProcessControlService.swift:76 | Two cooldown keys are equal exactly when their processes and actions are. |
| `ProcessControl.AllowByCooldown` | Sources/NetWarden/ProcessControlService.swift:75-83 | An allowed call stamps its key with `now`. A denied call leaves the table alone. Allowed means not acted on within the last three seconds. |
| `ProcessControl.CooldownWindow` | Sources/NetWarden/ProcessControlService.swift:75-83 | After an allowed call, the same process and action are denied for three seconds and allowed from then on. Every other pair is answered as before. |
| `ProcessControl.IsRunning` | Sources/NetWarden/ProcessControlService.swift:71-73 | A process counts as running exactly when `pgrep` printed something besides whitespace. |
| `ProcessControl.Status` | Sources/NetWarden/ProcessControlService.swift:63-65 | A recorded result is never empty and has no surrounding whitespace. It is the trimmed output when that is not empty, and "applied" when it is. |
| `ProcessControl.EnforceRule` | Sources/NetWarden/ProcessControlService.swift:51-67 | A rule is acted on exactly when its process is unprotected, running and off cooldown. It is then stamped and reported with its status. Any signal sent is the rule's own signal, to an unprotected process. |
| `ProcessControl.ActiveRules` | Sources/NetWarden/ProcessControlService.swift:49 | The active rules are exactly the enabled ones. |
| `ProcessControl.ActiveRulesAppend` | Sources/NetWarden/ProcessControlService.swift:49 | Filtering keeps the order: the active rules of two lists joined are those of the first, then those of the second. |
| `ProcessControl.Enforce` | Sources/NetWarden/ProcessControlService.swift:48-69 | A pass reports at most one action per enabled rule, each stamped with the pass's time and with a non-empty result. |
| `ProcessControl.EnforceEachOnKey` | Sources/NetWarden/ProcessControlService.swift:50-68 | Within a pass, a cooldown key is acted on exactly when some rule for it is eligible, and only its own entry of the table changes. |
| `ProcessControl.EnforceActsExactly` | Sources/NetWarden/ProcessControlService.swift:48-69 | A pass acts on a process and action exactly when an enabled rule names them and they are eligible. It stamps them with `now` and leaves other entries alone. |
| `ProcessControl.EnforceOnce` | Sources/NetWarden/ProcessControlService.swift:48-69 | A pass acts on each process and action at most once, even when rules repeat. |
| `ProcessControl.EnforceSparesProtected` | Sources/NetWarden/ProcessControlService.swift:51-61 | A pass never signals a protected process and never sends SIGCONT. It sends SIGSTOP only to processes that enabled pause rules name. |
| `ProcessControl.EnforceEachReports` | Sources/NetWarden/ProcessControlService.swift:63-67 | Every reported action carries the pass's time and a non-empty result. |
| `ProcessControl.ResumeCommands` | Sources/NetWarden/ProcessControlService.swift:85-90 | Resuming sends only SIGCONT, and sends it to a name exactly when an enabled pause rule names it. |
| `ProcessControl.StoppedAreResumed` | Sources/NetWarden/ProcessControlService.swift:56-90 | Every process a pass stops is continued when resuming under the same rules. |
| `ProcessControl.SetEnabled` | Sources/NetWarden/ProcessControlService.swift:13-25 | Switching to the current mode changes nothing. Switching on throttles updates and starts the timer. Switching off stops the timer, restores the settings and then resumes. Rules and cooldowns are kept. |
| `ProcessControl.UpdateRules` | Sources/NetWarden/ProcessControlService.swift:27-30 | New rules replace the old ones. Nothing else changes, no command runs and nothing is reported. |
| `ProcessControl.TimerFires` | Sources/NetWarden/ProcessControlService.swift:32-40 | Without a timer nothing happens. A pass changes only the cooldown table. |
| `ProcessControl.ReplayKeepsTimer` | Sources/NetWarden/ProcessControlService.swift:13-46 | Through any run of events, the timer exists exactly while gaming mode is on. |
| `ProcessControl.FreshWatchdogIdle` | Sources/NetWarden/ProcessControlService.swift:8-11 | A newly created watchdog is off with no timer, so nothing happens until it is switched on. |
| `ProcessControl.OffMeansIdle` | Sources/NetWarden/ProcessControlService.swift:13-46 | With gaming mode off, the watchdog does nothing. |
| `ProcessControl.NoRepeatWithinCooldown` | Sources/NetWarden/ProcessControlService.swift:48-83 | Two passes less than three seconds apart never both act on the same process and action, even when the rules change in between. |
| `ProcessControl.ResumeLeavesSettings` | Sources/NetWarden/ProcessControlService.swift:85-90 | Resuming changes no `defaults` setting. |
| `ProcessControl.SwitchOnOffRestores` | Sources/NetWarden/ProcessControlService.swift:13-25 | Switching gaming mode on and then off puts back every surviving setting, whatever the rules and settings became in between. |
| `AppModel.HasRuleNamed` | Sources/NetWarden/AppModel.swift:87 | The duplicate test holds exactly when some rule has the name, ignoring case. |
| `AppModel.FirstIndexOf` | Sources/NetWarden/AppModel.swift:104 | Gives the first position holding the id, or nothing when no rule has it. |
| `AppModel.WithoutId` | Sources/NetWarden/AppModel.swift:97 | `removeAll` keeps exactly the rules with a different id. |
| `AppModel.AddRule` | Sources/NetWarden/AppModel.swift:79-93 | A rule is added exactly when the trimmed name is non-empty, unprotected and new ignoring case. It is then an enabled, non-default rule with the chosen action and a new id. The field is cleared and the list is saved and forwarded. A protected name is refused with a notice. Otherwise nothing changes. |
| `AppModel.RemoveRule` | Sources/NetWarden/AppModel.swift:95-101 | A default rule is never removed. Any other rule goes with every entry sharing its id, and the list is saved and forwarded. |
| `AppModel.ToggleRule` | Sources/NetWarden/AppModel.swift:103-109 | Only the first rule with the id gets the new flag. An unknown id changes nothing. |
| `AppModel.SetRuleAction` | Sources/NetWarden/AppModel.swift:111-122 | Only the first rule with the id gets the new action. Terminate is refused for a protected name. An unknown id changes nothing. |
| `AppModel.RemoveTakesOutOne` | Sources/NetWarden/AppModel.swift:97 | With distinct ids, removing a listed rule takes out exactly that entry and keeps the others in order. |
| `AppModel.RemoveKeepsDefaults` | Sources/NetWarden/AppModel.swift:95-97 | Removing never takes out a default rule. |
| `AppModel.ToggleBack` | Sources/NetWarden/AppModel.swift:103-109 | Switching a rule and switching it back restores the list. |
| `AppModel.AddKeepsRulesSafe` | Sources/NetWarden/AppModel.swift:82-88 | Adding never brings in a protected name. |
| `AppModel.AddKeepsIdsDistinct` | Sources/NetWarden/AppModel.swift:88 | Adding under an unused id keeps ids distinct. |
| `AppModel.AddedRule` | Sources/NetWarden/AppModel.swift:88 | An accepted add keeps the old rules and appends one rule with the new id and an unprotected name. |
| `AppModel.RemoveKeepsRulesSafe` | Sources/NetWarden/AppModel.swift:95-101 | Removing keeps protected names out, and keeps terminate away from protected names. |
| `AppModel.ToggleKeepsRulesSafe` | Sources/NetWarden/AppModel.swift:103-109 | Toggling keeps protected names out, keeps terminate away from them, and keeps ids distinct. |
| `AppModel.SetActionKeepsRulesSafe` | Sources/NetWarden/AppModel.swift:111-122 | Changing an action keeps protected names out and ids distinct. For a rule as the list shows it, it never gives a protected process terminate. |
| `AppModel.SetGamingMode` | Sources/NetWarden/AppModel.swift:58-62 | Records the mode and asks the watchdog to switch to it. |
| `AppModel.SetAutoGamingMode` | Sources/NetWarden/AppModel.swift:65-77 | Records the flag. Turning it off also switches off a mode the automatic rule owns, and only such a mode. |
| `AppModel.AnyGame` | Sources/NetWarden/AppModel.swift:190 | Holds exactly when some usage in the snapshot is a game. |
| `AppModel.HandleAutoGamingMode` | Sources/NetWarden/AppModel.swift:187-203 | With the automatic rule on, a game switches an off mode on and marks it as owned. Without a game, an owned mode is switched off. Otherwise, or with the rule off, nothing changes. |
| `AppModel.Recommend` | Sources/NetWarden/AppModel.swift:207-221 | The reasons are tried in order: protected; already ruled (ignoring case); above 300 000 bytes per second; medium. A protected process gets the warning note, and any other its description. |
| `AppModel.OnSnapshot` | Sources/NetWarden/AppModel.swift:32-37 | A snapshot is stored and the recommendations are rebuilt from it under the current rules. The rules stay. The only possible request is a switch to the new mode, and none is made while the automatic rule is off. |
| `AppModel.BuildRecommendations` | Sources/NetWarden/AppModel.swift:205-222 | One recommendation for each of the first eight usages, in order. |
| `AppModel.AddedIsRuled` | Sources/NetWarden/AppModel.swift:79-213 | Once a rule is added, its process is recommended as already ruled, in whatever case the sampler reports it. |
| `AppModel.OnAction` | Sources/NetWarden/AppModel.swift:39-44 | A reported action goes first, and the log is cut back to 100 entries. |
| `AppModel.LogKeepsNewest` | Sources/NetWarden/AppModel.swift:39-44 | After any run of reports, the log holds the newest 100 actions, newest first. |
| `AppModel.Matching` | Sources/NetWarden/AppModel.swift:151 | Keeps exactly the lines that contain the token. |
| `AppModel.Preview` | Sources/NetWarden/AppModel.swift:141-154 | An unreadable file shows nothing. Otherwise at most 120 non-empty lines are shown. Each holds the filter's token and is a line of the file. When no more than 120 lines match, all of them are shown. |
| `AppModel.PreviewIsTail` | Sources/NetWarden/AppModel.swift:148-153 | The preview is the tail of the file's matching lines: the newest 120 of them, or all when fewer match, in the file's order. |
| `AppModel.RefreshLogPreview` | Sources/NetWarden/AppModel.swift:141-154 | Only the preview changes, and it becomes the preview of the file under the current filter, which `AppModel.PreviewIsTail` fixes as the filtered tail. |
| `AppModel.SetLogFilter` | Sources/NetWarden/AppModel.swift:135-139 | Records the filter and shows the preview under it. |
| `AppModel.MatchingAppend` | Sources/NetWarden/AppModel.swift:151 | Filtering two runs of lines is filtering each. |
| `AppModel.NewestLineShown` | Sources/NetWarden/AppModel.swift:148-153 | A line the logger has just appended is the last line the preview shows under its level's filter. |
| `AppModel.LoadRules` | Sources/NetWarden/AppModel.swift:156-165 | A non-empty saved list is used as it is. Otherwise the defaults are used and saved. The list is never empty. |
| `AppModel.Start` | Sources/NetWarden/AppModel.swift:25-49 | Loads the rules, hands them to the watchdog and fills the preview. Nothing else changes. |
| `AppModel.StopLeavesFlagOn` | Sources/NetWarden/AppModel.swift:51-56 | Stopping switches the watchdog off and touches neither the store nor the watchdog's rules. The window's flag is left as it was, so from a mode that was on the two no longer agree. |
| `AppModel.DefaultsAreSafe` | Sources/NetWarden/AppModel.swift:161 | The default rules name no protected process and have distinct ids. |
| `AppModel.Handle` | Sources/NetWarden/AppModel.swift:58-122 | Every event makes its requests in one of three shapes: none, with rules and mode unchanged; save and forward the new rules, with the mode unchanged; switch to the new mode, with the rules unchanged. |
| `AppModel.Replay` | Sources/NetWarden/AppModel.swift:58-171 | After any run of events, rules that differ from the start were saved and forwarded, and a mode that differs was switched to. |
| `AppModel.ReplayKeepsNoneProtected` | Sources/NetWarden/AppModel.swift:79-122 | No run of events brings a protected name into the rules, with the window's switch as written or corrected. |
| `AppModel.NeverTerminatesProtected` | Sources/NetWarden/AppModel.swift:79-122 | Starting from the defaults or from a clean saved list, no run of events ever gives a protected process a terminate rule, with the switch as written or corrected. |
| `AppModel.DeliverAppend` | Sources/NetWarden/AppModel.swift:167-171 | Carrying out two lists of requests in turn is carrying out their concatenation. |
| `AppModel.ReplayKeepsSync` | Sources/NetWarden/AppModel.swift:167-171 | After any run of events, the store holds the model's rules, the watchdog enforces them, and the watchdog's mode is the model's. This holds with the switch as written or corrected. |
| `AppModel.StartSyncs` | Sources/NetWarden/AppModel.swift:25-49 | Starting brings the store and the watchdog in line with the model. |
| `AppModel.OnByHandStaysOn` | Sources/NetWarden/AppModel.swift:187-203 | A mode that is on and not owned by the automatic rule stays on, and is never asked to switch off, through any run of events without a switch-off by hand. |
| `AppModel.SwitchedOnByHandStaysOn` | Sources/NetWarden/AppModel.swift:187-203 | With the corrected switch, a mode switched on by hand stays on through any later run of events without a switch-off by hand. |
| `AppModel.SwitchedOnByHandCanEnd` | Sources/NetWarden/AppModel.swift:58-203 | With the switch as written, the automatic rule's mode for a running game, switched off and on again by hand, stays on after the two switches and is switched off by the next snapshot without a game, whose only request is the switch-off. |
| `AppModel.AutoRuleEndsHandSwitchedMode` | Sources/NetWarden/AppModel.swift:58-203 | As written, a mode the user switched off and on again by hand during a game is switched off by the automatic rule when the game closes. |
| `AppModel.SwitchByHand` | Sources/NetWarden/AppModel.swift:58-62 | The corrected switch records the mode, asks the watchdog to switch to it, and takes the mode away from the automatic rule. |
| `AppModel.HandSwitchedModeSurvivesGameEnd` | Sources/NetWarden/AppModel.swift:187-203 | With the corrected switch, the same run keeps the mode on after the game closes. |

## Left out

- Process launching, pipes and `zsh` are left out. Every command goes through the `Runner` function, and `Shell.run`'s logging is not modelled.
- Quoting of command arguments is not modelled. Commands are datatype values, so `'` inside a process name or a restored value is not modelled.
- Timers, dispatch queues and main-actor hops are left out. A timer firing is an event carrying its `now`, and each tick reads the clock once.
- The shell is fixed for the length of one tick. The model does not cover a process that starts or exits between `pgrep` and `pkill`.
- File I/O is left out:
  - A rules file that cannot be read or decoded is `None` in `LoadRules`.
  - Saving is the `SaveRules` request.
  - A backup that failed to save, or a removal that failed, is a `saved` or `removed` boolean.
  - The log file's text is an `Option<string>`.
- JSON encoding and decoding are not modelled.
- The log writer's queue, OSLog, rotation and the timestamp format are left out. A log line's timestamp is a parameter.
- ParseCounter (`NetworkMonitor.ParseCounter`) reads only decimal digits with an optional `+`. `Double(_:)` also accepts fractions, exponents, hexadecimal text such as "0x10" (16.0), `inf` and `nan`. Floating-point counters are not modelled.
- ParseCounter (`NetworkMonitor.ParseCounter`) reads a negative column such as "-5" as 0, where `Double("-5")` gives -5.0. Both are then dropped by the `bytesIn > 0 || bytesOut > 0` guard when the other column is not positive. A negative column next to a positive one is kept as 0 in the model and as a negative number in the source.
- Split, SplitNonEmpty and LastIndexOf (`Strings.Split`, `Strings.SplitNonEmpty`, `Strings.LastIndexOf`) work on Unicode scalars. Swift splits and searches `String` by grapheme cluster (NetworkMonitorService.swift:59, 63 and 82; AppModel.swift:149). So "\r\n" is one character there and splitting on "\n" does not break it, and a ',' or '.' followed by a combining mark is not matched. The model does split and match in those cases.
- Lower-casing is ASCII only. Foundation's Unicode case mapping is not modelled.
- The sampler's debug summary every fifth tick writes only to the log. It is left out.
- The auto flag's `UserDefaults` storage is left out. Its value at launch is the `autoFlag` parameter of `AppModel.Fresh`.
- The Russian notice texts and log messages are left out. Notices are the `Notice` datatype and recommendation reasons the `Reason` datatype.
- `openLogFile`, AppModel's `description(for:)` wrapper (AppModel.swift:124-126), the views, `main.swift` and the visual effects are left out. They show data and change no state.
- `ProcessControlService.recoverIfNeeded` and `ProcessCatalog.isGameProcess` are called but not defined in the source, so neither is modelled. `isGameProcess` is the `isGame` predicate parameter.
- Saved rules are used as loaded. As in the source, they are not checked against protection. `AppModel.NeverTerminatesProtected` therefore assumes a saved list names no protected process.
- `AppModel.Stop`: only the watchdog is switched off. The app's `isGamingModeEnabled` is left on, as in the source, and stopping the monitor and the log timer is not modelled.
- `ProcessControl.SetEnabled`: it assumes the backup file is read back in a given enumeration order of its dictionary. Swift's dictionary order is unspecified, and restoring order only matters for keys that collide, which the six settings do not.
- `SystemThrottle.RestoreUndoesEnable` (and `ProcessControl.SwitchOnOffRestores`, built on it): "every surviving setting" means a boolean, an absent key, or a text that survives in the sense of `SystemThrottle.BackupRestoresValue`. The source backs up whatever `defaults read` prints (SystemThrottleManager.swift:30-31). It writes back 1, 0, true and false with `-bool` (63-65), and everything else with an untyped `defaults write` (67), which parses the text as an old-style property list. So an integer 1 or 0 comes back as a boolean. A text, array or dictionary whose printed form opens with `(`, `{`, `<` or `"` comes back as a parsed value, as `SystemThrottle.PlistTextComesBackParsed` shows. Any other integer, real or date comes back as a string. Integers, reals and dates are not modelled.
- `DefaultsDatabase.ReadOutput`: a value an untyped write parsed is printed as the text it was parsed from. `defaults` prints its own layout of an array or a dictionary, which is not modelled. The model also does not take a parsed value apart, so a quoted text's string is not recovered. No proved property depends on either.
- `SystemThrottle.RestoreBackup`: it is stated only for values that survive the text round trip. A text setting spelling a boolean comes back as a boolean and a blank text is deleted, as `TextSpellingTrueComesBackAsFlag` and `BlankTextIsDeleted` show.

## Findings

| source | as written | input that shows it | evidently intended | confidence | as-written member | corrected member |
|---|---|---|---|---|---|---|
| Sources/NetWarden/AppModel.swift:58-203 | The window's switch calls `setGamingMode`, which leaves `autoManagedGamingMode` as it was. | With the automatic rule on, a game starts and the rule switches the mode on. The user switches it off and on by hand between two snapshots, which come every 2 s (NetworkMonitorService.swift:16); a snapshot in between, with the game still running, would switch the mode back on and mark it again (AppModel.swift:192-194). The game closes, and the rule switches the user's mode off. | A mode the user switched on by hand belongs to the user: the automatic rule should switch off only a mode it switched on. | medium, not executed | `AppModel.AutoRuleEndsHandSwitchedMode` | `AppModel.SwitchByHand` |

`AppModel.Handle` and `AppModel.Replay` model both switches, chosen by their `corrected` flag. With the switch as written, `AppModel.SwitchedOnByHandCanEnd` replays the run above through the event handler: switch off, switch on, then a snapshot without the game. With the corrected switch, `AppModel.SwitchedOnByHandStaysOn` proves that no run of events switches off a mode switched on by hand, and `AppModel.HandSwitchedModeSurvivesGameEnd` replays the run above.

=== FILE: applogger.dfy ===
/**
  The shape of the lines the logger appends to its file. Only the line shape
  is modelled: it is what the log viewer's level filter searches for.
 */
module AppLogger {
  import opened Strings
  import opened Models

  datatype LogLevel = Debug | Info | Warning | Error

  function LevelRawValue(l: LogLevel): string {
    match l
    case Debug => "DEBUG"
    case Info => "INFO"
    case Warning => "WARN"
    case Error => "ERROR"
  }

  /** The message with its line breaks turned into spaces, so that one call
      writes one line. */
  function OneLine(message: string): (r: string)
    ensures |r| == |message| && '\n' !in r
  {
    seq(|message|, i requires 0 <= i < |message| => if message[i] == '\n' then ' ' else message[i])
  }

  /** `<timestamp> [<LEVEL>] [<category>] <message>`. */
  function LogLine(timestamp: string, level: LogLevel, category: string, message: string): string {
    timestamp + " [" + LevelRawValue(level) + "] [" + category + "] " + OneLine(message)
  }

  /** The viewer's filter for the lines of one level. */
  function FilterFor(l: LogLevel): LogViewFilter {
    match l
    case Debug => DebugFilter
    case Info => InfoFilter
    case Warning => WarningFilter
    case Error => ErrorFilter
  }

  /** Each filter's title is the raw value of exactly one level, so the four
      filters and the four levels correspond one to one. */
  lemma FilterTitlesAreLevelNames(l: LogLevel, f: LogViewFilter)
    ensures FilterTitle(f) == LevelRawValue(l) <==> f == FilterFor(l)
  {
    assert |"DEBUG"| == |"ERROR"| == 5 && |"INFO"| == |"WARN"| == 4;
    assert "DEBUG"[0] != "ERROR"[0] && "INFO"[0] != "WARN"[0];
  }

  /** A line begins with its timestamp and ends with its message on one
      line; the level and category take seven characters of framing. */
  lemma LogLineFrame(timestamp: string, level: LogLevel, category: string, message: string)
    ensures var r := LogLine(timestamp, level, category, message);
      && timestamp <= r
      && |r| == |timestamp| + |LevelRawValue(level)| + |category| + |message| + 7
      && r[|r| - |message|..] == OneLine(message)
  {
  }

  /** Every line written at a level carries that level's filter token, so
      the viewer's filter for that level keeps it. */
  lemma LineCarriesFilterToken(timestamp: string, l: LogLevel, category: string, message: string)
    ensures Contains(LogLine(timestamp, l, category, message), FilterToken(FilterFor(l)))
  {
    var token := FilterToken(FilterFor(l));
    var rest := " [" + category + "] " + OneLine(message);
    var line := timestamp + " " + token + rest;
    assert FilterTitle(FilterFor(l)) == LevelRawValue(l);
    assert line == LogLine(timestamp, l, category, message);
    assert line[|timestamp| + 1..] == token + rest;
    assert token <= line[|timestamp| + 1..];
  }

  /** A line written with a timestamp and category free of line breaks stays
      one line of the file, whatever the message holds. */
  lemma LineHasNoBreak(timestamp: string, l: LogLevel, category: string, message: string)
    requires '\n' !in timestamp && '\n' !in category
    ensures '\n' !in LogLine(timestamp, l, category, message)
  {
  }
}

=== FILE: appmodel.dfy ===
/**
  The app model: the rule list the user edits, the gaming-mode switch and its
  automatic variant, the recommendations shown for the busiest processes, the
  action log and the filtered view of the log file. Every operation returns
  the new state together with the requests it makes of the rest of the app:
  saving the rules, handing them to the watchdog, switching the watchdog.
 */
module AppModel {
  import opened Optional
  import opened Strings
  import opened Models
  import opened ProcessCatalog
  import opened AppLogger

  // ---------------------------------------------------------------------------
  // State
  // ---------------------------------------------------------------------------

  /** The one-line notice the window shows after an operation. */
  datatype Notice =
    | NoNotice
    | ProtectedRefused
    | RuleAdded(name: string)
    | RuleRemoved(name: string)
    | RuleSwitched(name: string, enabled: bool)
    | TerminateRefused
    | ActionUpdated(name: string, action: RuleAction)
    | AutoModeSwitched(enabled: bool)
    | GameDetected
    | GameClosed

  /** What an operation asks of the rest of the app. */
  datatype Effect =
    | SaveRules(rules: seq<ProcessRule>)     // the rules store's `saveRules`
    | ForwardRules(rules: seq<ProcessRule>)  // the watchdog's `updateRules`
    | SwitchMode(enabled: bool)              // the watchdog's `setEnabled`

  datatype App = App(
    isGamingModeEnabled: bool,
    isAutoGamingModeEnabled: bool,
    autoManagedGamingMode: bool,
    usages: seq<ProcessUsage>,
    rules: seq<ProcessRule>,
    actionLogs: seq<ActionLog>,
    recommendations: seq<RecommendationItem>,
    newRuleName: string,
    newRuleAction: RuleAction,
    notice: Notice,
    logLevelFilter: LogViewFilter,
    logPreviewLines: seq<string>)

  /** A new model. The auto flag is the one remembered from the last run. */
  function Fresh(autoFlag: bool): App {
    App(false, autoFlag, false, [], [], [], [], "", Pause, NoNotice, InfoFilter, [])
  }

  /** An operation's outcome: the new state and its requests, in order. */
  datatype Change = Change(after: App, effects: seq<Effect>)

  /** `persistRules`: save the list, then hand it to the watchdog. */
  function Persist(rules: seq<ProcessRule>): seq<Effect> {
    [SaveRules(rules), ForwardRules(rules)]
  }

  function Min(a: int, b: int): int {
    if a <= b then a else b
  }

  // ---------------------------------------------------------------------------
  // Looking rules up
  // ---------------------------------------------------------------------------

  /** Some rule names `name`, ignoring case. */
  ghost predicate Named(rules: seq<ProcessRule>, name: string) {
    exists i :: 0 <= i < |rules| && SameIgnoringCase(rules[i].processName, name)
  }

  /** The duplicate test of `addRule` and `buildRecommendations`: a
      case-insensitive comparison against every rule's name. */
  function HasRuleNamed(rules: seq<ProcessRule>, name: string): (b: bool)
    ensures b <==> Named(rules, name)
    decreases |rules|
  {
    if rules == [] then false
    else if SameIgnoringCase(rules[0].processName, name) then true
    else
      assert forall i :: 1 <= i < |rules| ==> rules[i] == rules[1..][i - 1];
      HasRuleNamed(rules[1..], name)
  }

  /** `firstIndex(where: { $0.id == id })`. */
  function FirstIndexOf(rules: seq<ProcessRule>, id: RuleId): (r: Option<nat>)
    ensures r.None? <==> forall i :: 0 <= i < |rules| ==> rules[i].id != id
    ensures r.Some? ==> r.value < |rules| && rules[r.value].id == id
    ensures r.Some? ==> forall i :: 0 <= i < r.value ==> rules[i].id != id
    decreases |rules|
  {
    if rules == [] then None
    else if rules[0].id == id then Some(0)
    else
      assert forall i :: 1 <= i < |rules| ==> rules[i] == rules[1..][i - 1];
      match FirstIndexOf(rules[1..], id)
      case None => None
      case Some(k) => Some(k + 1)
  }

  /** `removeAll { $0.id == id }`. */
  function WithoutId(rules: seq<ProcessRule>, id: RuleId): (r: seq<ProcessRule>)
    ensures forall x :: x in r <==> x in rules && x.id != id
    ensures |r| <= |rules|
    decreases |rules|
  {
    if rules == [] then []
    else if rules[0].id == id then WithoutId(rules[1..], id)
    else [rules[0]] + WithoutId(rules[1..], id)
  }

  /** No two rules share an id. */
  ghost predicate IdsDistinct(rules: seq<ProcessRule>) {
    forall i, j :: 0 <= i < j < |rules| ==> rules[i].id != rules[j].id
  }

  /** No rule names a protected process. */
  ghost predicate NoneProtected(rules: seq<ProcessRule>) {
    forall i :: 0 <= i < |rules| ==> !IsProtected(rules[i].processName)
  }

  /** No rule would terminate a protected process. */
  ghost predicate NoProtectedTerminate(rules: seq<ProcessRule>) {
    forall i :: 0 <= i < |rules| && rules[i].action == Terminate ==> !IsProtected(rules[i].processName)
  }

  /** `rule` is a copy of what the list holds under its id, as the rows the
      window passes back are: the name stored under that id is its name. */
  ghost predicate Shown(rules: seq<ProcessRule>, rule: ProcessRule) {
    forall i :: 0 <= i < |rules| && rules[i].id == rule.id ==> rules[i].processName == rule.processName
  }

  // ---------------------------------------------------------------------------
  // Editing the rules
  // ---------------------------------------------------------------------------

  /** `addRule`, with `newId` standing for the `UUID()` the new rule gets.
      The typed name, trimmed, is added as an enabled, non-default rule with
      the chosen action unless it is empty, protected, or already the name of
      a rule when case is ignored. */
  function AddRule(app: App, newId: RuleId): (c: Change)
    ensures var name := Trim(app.newRuleName);
      |c.after.rules| == |app.rules| + 1 <==> name != [] && !IsProtected(name) && !Named(app.rules, name)
    ensures var name := Trim(app.newRuleName);
      |c.after.rules| == |app.rules| + 1 ==>
        && c.after.rules[..|app.rules|] == app.rules
        && c.after.rules[|app.rules|].id == newId
        && c.after.rules[|app.rules|].processName == name
        && c.after.rules[|app.rules|].action == app.newRuleAction
        && c.after.rules[|app.rules|].isEnabled
        && !c.after.rules[|app.rules|].isDefault
        && c.after.newRuleName == []
        && c.after.notice == RuleAdded(name)
        && c.effects == Persist(c.after.rules)
    ensures |c.after.rules| != |app.rules| + 1 ==>
      c.after.rules == app.rules && c.after.newRuleName == app.newRuleName && c.effects == []
    ensures var name := Trim(app.newRuleName);
      name != [] && IsProtected(name) ==> c.after.notice == ProtectedRefused
    ensures c.after.(rules := app.rules, newRuleName := app.newRuleName, notice := app.notice) == app
  {
    var name := Trim(app.newRuleName);
    if name == [] then Change(app, [])
    else if IsProtected(name) then Change(app.(notice := ProtectedRefused), [])
    else if HasRuleNamed(app.rules, name) then Change(app, [])
    else
      var rules := app.rules + [NewRule(newId, name, app.newRuleAction, true, false)];
      assert rules[..|app.rules|] == app.rules;
      Change(app.(rules := rules, newRuleName := "", notice := RuleAdded(name)), Persist(rules))
  }

  /** `removeRule`: a default rule is never removed; any other rule is
      removed together with every entry sharing its id. */
  function RemoveRule(app: App, rule: ProcessRule): (c: Change)
    ensures rule.isDefault ==> c == Change(app, [])
    ensures !rule.isDefault ==>
      && (forall x :: x in c.after.rules <==> x in app.rules && x.id != rule.id)
      && c.after.notice == RuleRemoved(rule.processName)
      && c.effects == Persist(c.after.rules)
    ensures c.after.(rules := app.rules, notice := app.notice) == app
  {
    if rule.isDefault then Change(app, [])
    else
      var rules := WithoutId(app.rules, rule.id);
      Change(app.(rules := rules, notice := RuleRemoved(rule.processName)), Persist(rules))
  }

  /** `toggleRule`: the first rule with the id gets the new enabled flag and
      nothing else changes; an unknown id changes nothing. */
  function ToggleRule(app: App, rule: ProcessRule, enabled: bool): (c: Change)
    ensures (forall i :: 0 <= i < |app.rules| ==> app.rules[i].id != rule.id) ==> c == Change(app, [])
    ensures FirstIndexOf(app.rules, rule.id).Some? ==>
      var k := FirstIndexOf(app.rules, rule.id).value;
      && |c.after.rules| == |app.rules|
      && c.after.rules[k] == app.rules[k].(isEnabled := enabled)
      && (forall i :: 0 <= i < |app.rules| && i != k ==> c.after.rules[i] == app.rules[i])
      && c.after.notice == RuleSwitched(rule.processName, enabled)
      && c.effects == Persist(c.after.rules)
    ensures c.after.(rules := app.rules, notice := app.notice) == app
  {
    match FirstIndexOf(app.rules, rule.id)
    case None => Change(app, [])
    case Some(k) =>
      var rules := app.rules[k := app.rules[k].(isEnabled := enabled)];
      Change(app.(rules := rules, notice := RuleSwitched(rule.processName, enabled)), Persist(rules))
  }

  /** `setRuleAction`: the first rule with the id gets the new action and
      nothing else changes, except that terminate is refused for a protected
      name; an unknown id changes nothing. */
  function SetRuleAction(app: App, rule: ProcessRule, action: RuleAction): (c: Change)
    ensures (forall i :: 0 <= i < |app.rules| ==> app.rules[i].id != rule.id) ==> c == Change(app, [])
    ensures FirstIndexOf(app.rules, rule.id).Some? && IsProtected(rule.processName) && action == Terminate ==>
      c == Change(app.(notice := TerminateRefused), [])
    ensures FirstIndexOf(app.rules, rule.id).Some? && !(IsProtected(rule.processName) && action == Terminate) ==>
      var k := FirstIndexOf(app.rules, rule.id).value;
      && |c.after.rules| == |app.rules|
      && c.after.rules[k] == app.rules[k].(action := action)
      && (forall i :: 0 <= i < |app.rules| && i != k ==> c.after.rules[i] == app.rules[i])
      && c.after.notice == ActionUpdated(rule.processName, action)
      && c.effects == Persist(c.after.rules)
    ensures c.after.(rules := app.rules, notice := app.notice) == app
  {
    match FirstIndexOf(app.rules, rule.id)
    case None => Change(app, [])
    case Some(k) =>
      if IsProtected(rule.processName) && action == Terminate then
        Change(app.(notice := TerminateRefused), [])
      else
        var rules := app.rules[k := app.rules[k].(action := action)];
        Change(app.(rules := rules, notice := ActionUpdated(rule.processName, action)), Persist(rules))
  }

  /** With distinct ids, removing a listed rule takes out exactly that entry
      and keeps the others in their order. */
  lemma {:induction false} RemoveTakesOutOne(rules: seq<ProcessRule>, k: nat)
    requires IdsDistinct(rules) && k < |rules|
    ensures WithoutId(rules, rules[k].id) == rules[..k] + rules[k + 1..]
    decreases |rules|
  {
    if k == 0 {
      NoIdNoChange(rules[1..], rules[0].id);
      assert rules[..0] + rules[1..] == rules[1..];
    } else {
      TailIdsDistinct(rules);
      RemoveTakesOutOne(rules[1..], k - 1);
      RemoveBehindHead(rules, k);
    }
  }

  lemma TailIdsDistinct(rules: seq<ProcessRule>)
    requires IdsDistinct(rules) && rules != []
    ensures IdsDistinct(rules[1..])
  {
    var tail := rules[1..];
    forall i, j | 0 <= i < j < |tail| ensures tail[i].id != tail[j].id {
      assert tail[i] == rules[i + 1] && tail[j] == rules[j + 1];
    }
  }

  /** Removing a later entry keeps the head in front of what removal leaves of
      the tail. */
  lemma RemoveBehindHead(rules: seq<ProcessRule>, k: nat)
    requires 0 < k < |rules| && rules[0].id != rules[k].id
    requires WithoutId(rules[1..], rules[1..][k - 1].id) == rules[1..][..k - 1] + rules[1..][k..]
    ensures WithoutId(rules, rules[k].id) == rules[..k] + rules[k + 1..]
  {
    assert rules[1..][k - 1] == rules[k];
    DropBehindHead(rules, k);
  }

  /** Dropping entry `k > 0` of a list is keeping its head in front of the
      tail with entry `k - 1` dropped. */
  lemma DropBehindHead<T>(xs: seq<T>, k: nat)
    requires 0 < k < |xs|
    ensures [xs[0]] + (xs[1..][..k - 1] + xs[1..][k..]) == xs[..k] + xs[k + 1..]
  {
    assert xs[..k] == [xs[0]] + xs[1..][..k - 1];
    assert xs[k + 1..] == xs[1..][k..];
  }

  /** Removing an id nobody has leaves the list as it is. */
  lemma {:induction false} NoIdNoChange(rules: seq<ProcessRule>, id: RuleId)
    requires forall i :: 0 <= i < |rules| ==> rules[i].id != id
    ensures WithoutId(rules, id) == rules
    decreases |rules|
  {
    if rules != [] {
      assert forall i :: 0 <= i < |rules[1..]| ==> rules[1..][i] == rules[i + 1];
      NoIdNoChange(rules[1..], id);
      assert rules == [rules[0]] + rules[1..];
    }
  }

  /** Removing a listed rule never takes out a default rule. */
  lemma RemoveKeepsDefaults(app: App, rule: ProcessRule)
    requires rule in app.rules && IdsDistinct(app.rules)
    ensures forall x :: x in app.rules && x.isDefault ==> x in RemoveRule(app, rule).after.rules
  {
    forall x | x in app.rules && x.isDefault
      ensures x in RemoveRule(app, rule).after.rules
    {
      if !rule.isDefault {
        var i :| 0 <= i < |app.rules| && app.rules[i] == x;
        var j :| 0 <= j < |app.rules| && app.rules[j] == rule;
        assert i != j;
      }
    }
  }

  /** Switching a rule and switching it back restores the list. */
  lemma ToggleBack(app: App, rule: ProcessRule, enabled: bool)
    requires FirstIndexOf(app.rules, rule.id).Some?
    ensures var k := FirstIndexOf(app.rules, rule.id).value;
      ToggleRule(ToggleRule(app, rule, enabled).after, rule, app.rules[k].isEnabled).after.rules == app.rules
  {
    var k := FirstIndexOf(app.rules, rule.id).value;
    var once := ToggleRule(app, rule, enabled).after;
    assert FirstIndexOf(once.rules, rule.id) == Some(k) by {
      assert forall i :: 0 <= i < k ==> once.rules[i] == app.rules[i];
    }
  }

  // ---------------------------------------------------------------------------
  // What the edits preserve
  // ---------------------------------------------------------------------------

  /** Adding a rule keeps protected names out of the list and terminate
      away from them: the one rule it adds has an unprotected name. */
  lemma AddKeepsRulesSafe(app: App, newId: RuleId)
    ensures NoneProtected(app.rules) ==> NoneProtected(AddRule(app, newId).after.rules)
    ensures NoProtectedTerminate(app.rules) ==> NoProtectedTerminate(AddRule(app, newId).after.rules)
  {
    var rules := AddRule(app, newId).after.rules;
    if |rules| == |app.rules| + 1 {
      AddedRule(app, newId);
      AppendedSafe(app.rules, rules);
    }
  }

  /** A list that extends a safe one by a rule with an unprotected name is safe. */
  lemma AppendedSafe(before: seq<ProcessRule>, rules: seq<ProcessRule>)
    requires |rules| == |before| + 1
    requires forall i :: 0 <= i < |before| ==> rules[i] == before[i]
    requires !IsProtected(rules[|before|].processName)
    ensures NoneProtected(before) ==> NoneProtected(rules)
    ensures NoProtectedTerminate(before) ==> NoProtectedTerminate(rules)
  {
    var last := rules[|before|];
    assert rules == before + [last];
  }

  /** Adding a rule under an unused id keeps ids distinct. */
  lemma AddKeepsIdsDistinct(app: App, newId: RuleId)
    requires IdsDistinct(app.rules)
    requires forall i :: 0 <= i < |app.rules| ==> app.rules[i].id != newId
    ensures IdsDistinct(AddRule(app, newId).after.rules)
  {
    var rules := AddRule(app, newId).after.rules;
    var n := |app.rules|;
    if |rules| == n + 1 {
      AddedRule(app, newId);
    }
  }

  /** The list after an accepted add, in terms free of the trimming: the old
      rules, then one rule with the new id and an unprotected name. */
  lemma AddedRule(app: App, newId: RuleId)
    requires |AddRule(app, newId).after.rules| == |app.rules| + 1
    ensures var rules := AddRule(app, newId).after.rules;
      && (forall i :: 0 <= i < |app.rules| ==> rules[i] == app.rules[i])
      && rules[|app.rules|].id == newId
      && !IsProtected(rules[|app.rules|].processName)
  {
    var rules := AddRule(app, newId).after.rules;
    var n := |app.rules|;
    assert forall i :: 0 <= i < n ==> rules[i] == rules[..n][i];
  }

  /** Removing keeps a subset of the rules, so it keeps every property of
      single rules. */
  lemma RemoveKeepsRulesSafe(app: App, rule: ProcessRule)
    ensures NoneProtected(app.rules) ==> NoneProtected(RemoveRule(app, rule).after.rules)
    ensures NoProtectedTerminate(app.rules) ==> NoProtectedTerminate(RemoveRule(app, rule).after.rules)
  {
    var rules := RemoveRule(app, rule).after.rules;
    forall i | 0 <= i < |rules|
      ensures exists j :: 0 <= j < |app.rules| && app.rules[j] == rules[i]
    {
      assert rules[i] in app.rules;
    }
  }

  /** Switching a rule on or off changes no name and no action. */
  lemma ToggleKeepsRulesSafe(app: App, rule: ProcessRule, enabled: bool)
    ensures NoneProtected(app.rules) ==> NoneProtected(ToggleRule(app, rule, enabled).after.rules)
    ensures NoProtectedTerminate(app.rules) ==> NoProtectedTerminate(ToggleRule(app, rule, enabled).after.rules)
    ensures IdsDistinct(app.rules) ==> IdsDistinct(ToggleRule(app, rule, enabled).after.rules)
  {
    var rules := ToggleRule(app, rule, enabled).after.rules;
    assert |rules| == |app.rules|;
    assert forall i :: 0 <= i < |rules| ==>
      rules[i].id == app.rules[i].id && rules[i].processName == app.rules[i].processName && rules[i].action == app.rules[i].action;
    SameIdsAndNames(app.rules, rules);
  }

  /** Changing an action changes no name, and the refusal keeps terminate
      away from protected names as long as the rule passed in is the one
      the list holds under its id. */
  lemma SetActionKeepsRulesSafe(app: App, rule: ProcessRule, action: RuleAction)
    ensures NoneProtected(app.rules) ==> NoneProtected(SetRuleAction(app, rule, action).after.rules)
    ensures NoProtectedTerminate(app.rules) && Shown(app.rules, rule) ==>
      NoProtectedTerminate(SetRuleAction(app, rule, action).after.rules)
    ensures IdsDistinct(app.rules) ==> IdsDistinct(SetRuleAction(app, rule, action).after.rules)
  {
    var rules := SetRuleAction(app, rule, action).after.rules;
    assert |rules| == |app.rules|;
    assert forall i :: 0 <= i < |rules| ==> rules[i].id == app.rules[i].id && rules[i].processName == app.rules[i].processName;
    SameIdsAndNames(app.rules, rules);
    if NoProtectedTerminate(app.rules) && Shown(app.rules, rule) {
      SetActionKeepsNoTerminate(app, rule, action);
    }
  }

  lemma SetActionKeepsNoTerminate(app: App, rule: ProcessRule, action: RuleAction)
    requires NoProtectedTerminate(app.rules) && Shown(app.rules, rule)
    ensures NoProtectedTerminate(SetRuleAction(app, rule, action).after.rules)
  {
    match FirstIndexOf(app.rules, rule.id)
    case None =>
    case Some(k) =>
      var rules := SetRuleAction(app, rule, action).after.rules;
      assert forall i :: 0 <= i < |rules| && i != k ==> rules[i] == app.rules[i];
  }

  /** Two lists with the same ids and names, entry by entry, are alike in
      having distinct ids and in naming no protected process. */
  lemma SameIdsAndNames(a: seq<ProcessRule>, b: seq<ProcessRule>)
    requires |a| == |b|
    requires forall i :: 0 <= i < |a| ==> a[i].id == b[i].id && a[i].processName == b[i].processName
    ensures NoneProtected(a) ==> NoneProtected(b)
    ensures IdsDistinct(a) ==> IdsDistinct(b)
  {
  }

  // ---------------------------------------------------------------------------
  // Gaming mode, by hand and automatic
  // ---------------------------------------------------------------------------

  /** `setGamingMode`: record the mode and switch the watchdog to it. */
  function SetGamingMode(app: App, enabled: bool): (c: Change)
    ensures c.after.isGamingModeEnabled == enabled && c.effects == [SwitchMode(enabled)]
    ensures c.after.(isGamingModeEnabled := app.isGamingModeEnabled) == app
  {
    Change(app.(isGamingModeEnabled := enabled), [SwitchMode(enabled)])
  }

  /** `setAutoGamingMode`: record the flag; turning it off also switches off a
      mode that the automatic rule switched on, and only such a mode. */
  function SetAutoGamingMode(app: App, enabled: bool): (c: Change)
    ensures c.after.isAutoGamingModeEnabled == enabled && c.after.notice == AutoModeSwitched(enabled)
    ensures !enabled && app.autoManagedGamingMode ==>
      !c.after.isGamingModeEnabled && !c.after.autoManagedGamingMode && c.effects == [SwitchMode(false)]
    ensures !(!enabled && app.autoManagedGamingMode) ==>
      && c.after.isGamingModeEnabled == app.isGamingModeEnabled
      && c.after.autoManagedGamingMode == app.autoManagedGamingMode
      && c.effects == []
    ensures c.after.(isGamingModeEnabled := app.isGamingModeEnabled, isAutoGamingModeEnabled := app.isAutoGamingModeEnabled,
                     autoManagedGamingMode := app.autoManagedGamingMode, notice := app.notice) == app
  {
    var flagged := app.(isAutoGamingModeEnabled := enabled);
    var c := if !enabled && app.autoManagedGamingMode then
        var off := SetGamingMode(flagged, false);
        Change(off.after.(autoManagedGamingMode := false), off.effects)
      else Change(flagged, []);
    Change(c.after.(notice := AutoModeSwitched(enabled)), c.effects)
  }

  /** Some usage in the snapshot is a game, as `isGame` decides. */
  ghost predicate GameIn(usages: seq<ProcessUsage>, isGame: string -> bool) {
    exists i :: 0 <= i < |usages| && isGame(usages[i].processName)
  }

  /** `usages.contains { ProcessCatalog.isGameProcess($0.processName) }`. */
  function AnyGame(usages: seq<ProcessUsage>, isGame: string -> bool): (b: bool)
    ensures b <==> GameIn(usages, isGame)
    decreases |usages|
  {
    if usages == [] then false
    else if isGame(usages[0].processName) then true
    else
      assert forall i :: 1 <= i < |usages| ==> usages[i] == usages[1..][i - 1];
      AnyGame(usages[1..], isGame)
  }

  /** `handleAutoGamingMode`: with the automatic rule on, a running game
      switches an off mode on and marks it as switched automatically; no game
      switches off only a mode so marked. A mode switched on by hand and not
      marked is never switched off here. */
  function HandleAutoGamingMode(app: App, usages: seq<ProcessUsage>, isGame: string -> bool): (c: Change)
    ensures !app.isAutoGamingModeEnabled ==> c == Change(app, [])
    ensures app.isAutoGamingModeEnabled && GameIn(usages, isGame) && !app.isGamingModeEnabled ==>
      && c.after.isGamingModeEnabled && c.after.autoManagedGamingMode
      && c.after.notice == GameDetected && c.effects == [SwitchMode(true)]
    ensures app.isAutoGamingModeEnabled && !GameIn(usages, isGame) && app.autoManagedGamingMode ==>
      && !c.after.isGamingModeEnabled && !c.after.autoManagedGamingMode
      && c.after.notice == GameClosed && c.effects == [SwitchMode(false)]
    ensures (GameIn(usages, isGame) && app.isGamingModeEnabled) || (!GameIn(usages, isGame) && !app.autoManagedGamingMode) ==>
      c == Change(app, [])
    ensures c.after.(isGamingModeEnabled := app.isGamingModeEnabled, autoManagedGamingMode := app.autoManagedGamingMode,
                     notice := app.notice) == app
  {
    if !app.isAutoGamingModeEnabled then Change(app, [])
    else
      var hasRunningGame := AnyGame(usages, isGame);
      if hasRunningGame && !app.isGamingModeEnabled then
        var on := SetGamingMode(app, true);
        Change(on.after.(autoManagedGamingMode := true, notice := GameDetected), on.effects)
      else if !hasRunningGame && app.autoManagedGamingMode then
        var off := SetGamingMode(app, false);
        Change(off.after.(autoManagedGamingMode := false, notice := GameClosed), off.effects)
      else Change(app, [])
  }

  /** The switch in the window, corrected so that a switch by hand takes the
      mode away from the automatic rule: `setGamingMode` followed by clearing
      `autoManagedGamingMode`. */
  function SwitchByHand(app: App, enabled: bool): (c: Change)
    ensures c.after.isGamingModeEnabled == enabled && !c.after.autoManagedGamingMode
    ensures c.effects == [SwitchMode(enabled)]
    ensures c.after.(isGamingModeEnabled := app.isGamingModeEnabled, autoManagedGamingMode := app.autoManagedGamingMode) == app
  {
    var s := SetGamingMode(app, enabled);
    Change(s.after.(autoManagedGamingMode := false), s.effects)
  }

  // ---------------------------------------------------------------------------
  // Recommendations
  // ---------------------------------------------------------------------------

  /** How many of the busiest usages get a recommendation. */
  const RecommendationCount: nat := 8

  /** Above this many bytes per second a process is worth a rule. */
  const HighTrafficRate: real := 300000.0

  const ProtectedNote: string := "Никогда не убивайте его автоматически. Он нужен для корректной работы игры."

  /** The recommendation for one usage. The reasons are tried in order:
      protected, already ruled (case ignored), high traffic, medium. */
  function Recommend(rules: seq<ProcessRule>, u: ProcessUsage): (item: RecommendationItem)
    ensures item.processName == u.processName
    ensures item.reason == ProtectedProcess <==> IsProtected(u.processName)
    ensures item.reason == AlreadyRuled <==> !IsProtected(u.processName) && Named(rules, u.processName)
    ensures item.reason == HighTraffic <==>
      !IsProtected(u.processName) && !Named(rules, u.processName) && u.TotalPerSecond() > HighTrafficRate
    ensures item.note == if IsProtected(u.processName) then ProtectedNote else Description(u.processName)
  {
    var p := u.processName;
    if IsProtected(p) then RecommendationItem(p, ProtectedProcess, ProtectedNote)
    else if HasRuleNamed(rules, p) then RecommendationItem(p, AlreadyRuled, Description(p))
    else if u.TotalPerSecond() > HighTrafficRate then RecommendationItem(p, HighTraffic, Description(p))
    else RecommendationItem(p, MediumActivity, Description(p))
  }

  /** `buildRecommendations`: one item for each of the first eight usages,
      in their order. */
  function BuildRecommendations(rules: seq<ProcessRule>, usages: seq<ProcessUsage>): (r: seq<RecommendationItem>)
    ensures |r| == Min(|usages|, RecommendationCount)
    ensures forall i :: 0 <= i < |r| ==> r[i] == Recommend(rules, usages[i])
  {
    seq(Min(|usages|, RecommendationCount), i requires 0 <= i < Min(|usages|, RecommendationCount) => Recommend(rules, usages[i]))
  }

  /** Once a rule is added, its process is recommended as already ruled,
      whatever case the sampler reports its name in. */
  lemma AddedIsRuled(app: App, newId: RuleId, u: ProcessUsage)
    requires |AddRule(app, newId).after.rules| == |app.rules| + 1
    requires SameIgnoringCase(u.processName, Trim(app.newRuleName))
    ensures Recommend(AddRule(app, newId).after.rules, u).reason == AlreadyRuled
  {
    var rules := AddRule(app, newId).after.rules;
    var name := rules[|app.rules|].processName;
    assert name == Trim(app.newRuleName);
    ProtectionIgnoresCase(u.processName, name);
    assert SameIgnoringCase(rules[|app.rules|].processName, u.processName);
  }

  /** A snapshot arrives: it is stored, recommendations are rebuilt from it,
      and the automatic rule looks at it. The rules stay; the only request
      is a mode switch, and only while the automatic rule is on. */
  function OnSnapshot(app: App, usages: seq<ProcessUsage>, isGame: string -> bool): (c: Change)
    ensures c.after.usages == usages && c.after.rules == app.rules
    ensures c.after.recommendations == BuildRecommendations(app.rules, usages)
    ensures c.effects == [] || c.effects == [SwitchMode(c.after.isGamingModeEnabled)]
    ensures c.effects == [] ==> c.after.isGamingModeEnabled == app.isGamingModeEnabled
    ensures !app.isAutoGamingModeEnabled ==> c.effects == [] && c.after.autoManagedGamingMode == app.autoManagedGamingMode
  {
    var seen := app.(usages := usages, recommendations := BuildRecommendations(app.rules, usages));
    HandleAutoGamingMode(seen, usages, isGame)
  }

  // ---------------------------------------------------------------------------
  // The action log
  // ---------------------------------------------------------------------------

  /** How many actions the window keeps. */
  const ActionLogCap: nat := 100

  /** The first `n` elements, or all of them when there are fewer. */
  function Take<T>(s: seq<T>, n: nat): (r: seq<T>)
    ensures |r| == Min(|s|, n) && r == s[..|r|]
  {
    if |s| <= n then s else s[..n]
  }

  function Reverse<T>(s: seq<T>): (r: seq<T>)
    ensures |r| == |s|
    decreases |s|
  {
    if s == [] then [] else Reverse(s[1..]) + [s[0]]
  }

  /** The watchdog reports an action: it goes first, and the log is cut
      back to its newest hundred entries. */
  function OnAction(app: App, log: ActionLog): (a: App)
    ensures |a.actionLogs| == Min(|app.actionLogs| + 1, ActionLogCap)
    ensures a.actionLogs[0] == log
    ensures a.actionLogs[1..] == Take(app.actionLogs, ActionLogCap - 1)
    ensures a == app.(actionLogs := a.actionLogs)
  {
    var logs := Take([log] + app.actionLogs, ActionLogCap);
    assert logs[1..] == Take(app.actionLogs, ActionLogCap - 1);
    app.(actionLogs := logs)
  }

  /** A run of reports, oldest first. */
  function OnActions(app: App, logs: seq<ActionLog>): App
    decreases |logs|
  {
    if logs == [] then app else OnActions(OnAction(app, logs[0]), logs[1..])
  }

  /** Cutting back twice is cutting back once. */
  lemma TakeAfterPrefix<T>(a: seq<T>, b: seq<T>, n: nat)
    ensures Take(a + Take(b, n), n) == Take(a + b, n)
  {
    if |b| > n {
      assert (a + b)[..n] == (a + b[..n])[..Min(|a| + n, n)];
    }
  }

  /** After any run of reports, a log within its cap holds the newest
      hundred actions of all it has seen, newest first. */
  lemma {:induction false} LogKeepsNewest(app: App, logs: seq<ActionLog>)
    requires |app.actionLogs| <= ActionLogCap
    ensures OnActions(app, logs).actionLogs == Take(Reverse(logs) + app.actionLogs, ActionLogCap)
    ensures OnActions(app, logs) == app.(actionLogs := OnActions(app, logs).actionLogs)
    decreases |logs|
  {
    if logs == [] {
      assert Reverse(logs) + app.actionLogs == app.actionLogs;
    } else {
      var next := OnAction(app, logs[0]);
      LogKeepsNewest(next, logs[1..]);
      TakeAfterPrefix(Reverse(logs[1..]), [logs[0]] + app.actionLogs, ActionLogCap);
      assert Reverse(logs[1..]) + ([logs[0]] + app.actionLogs) == Reverse(logs) + app.actionLogs;
    }
  }

  // ---------------------------------------------------------------------------
  // The log preview
  // ---------------------------------------------------------------------------

  /** How many of the last matching lines the preview shows. */
  const PreviewLineCap: nat := 120

  /** The lines that contain `token`, in order. */
  function Matching(lines: seq<string>, token: string): (r: seq<string>)
    ensures forall i :: 0 <= i < |r| ==> r[i] in lines && Contains(r[i], token)
    ensures forall l :: l in lines && Contains(l, token) ==> l in r
    decreases |lines|
  {
    if lines == [] then []
    else if Contains(lines[0], token) then [lines[0]] + Matching(lines[1..], token)
    else Matching(lines[1..], token)
  }

  /** The last `n` elements, or all of them when there are fewer. */
  function Last<T>(s: seq<T>, n: nat): (r: seq<T>)
    ensures |r| == Min(|s|, n) && r == s[|s| - |r|..]
  {
    if |s| <= n then s else s[|s| - n..]
  }

  /** The lines `refreshLogPreview` shows for the log file's text (`None` when
      it cannot be read) under a filter: the last 120 non-empty lines holding
      the filter's token. */
  function Preview(text: Option<string>, filter: LogViewFilter): (lines: seq<string>)
    ensures |lines| <= PreviewLineCap
    ensures text.None? ==> lines == []
    ensures text.Some? ==> forall i :: 0 <= i < |lines| ==>
      && lines[i] != [] && '\n' !in lines[i]
      && Contains(lines[i], FilterToken(filter))
      && lines[i] in SplitNonEmpty(text.value, '\n')
    ensures text.Some? && |Matching(SplitNonEmpty(text.value, '\n'), FilterToken(filter))| <= PreviewLineCap ==>
      forall l :: l in SplitNonEmpty(text.value, '\n') && Contains(l, FilterToken(filter)) ==> l in lines
  {
    match text
    case None => []
    case Some(t) =>
      var matching := Matching(SplitNonEmpty(t, '\n'), FilterToken(filter));
      var lines := Last(matching, PreviewLineCap);
      assert forall i :: 0 <= i < |lines| ==> lines[i] in matching;
      lines
  }

  /** The preview is the tail of the matching lines: the newest of them, as
      many as fit, in the file's order. */
  lemma PreviewIsTail(text: string, filter: LogViewFilter)
    ensures var m := Matching(SplitNonEmpty(text, '\n'), FilterToken(filter));
      var lines := Preview(Some(text), filter);
      |lines| == Min(|m|, PreviewLineCap) && lines == m[|m| - |lines|..]
  {
  }

  /** `refreshLogPreview`. */
  function RefreshLogPreview(app: App, text: Option<string>): (a: App)
    ensures a.logPreviewLines == Preview(text, app.logLevelFilter)
    ensures a == app.(logPreviewLines := a.logPreviewLines)
  {
    app.(logPreviewLines := Preview(text, app.logLevelFilter))
  }

  /** `setLogFilter`: choose the filter, then refresh. */
  function SetLogFilter(app: App, filter: LogViewFilter, text: Option<string>): (a: App)
    ensures a.logLevelFilter == filter && a.logPreviewLines == Preview(text, filter)
    ensures a == app.(logLevelFilter := filter, logPreviewLines := a.logPreviewLines)
  {
    RefreshLogPreview(app.(logLevelFilter := filter), text)
  }

  lemma {:induction false} MatchingAppend(xs: seq<string>, ys: seq<string>, token: string)
    ensures Matching(xs + ys, token) == Matching(xs, token) + Matching(ys, token)
    decreases |xs|
  {
    if xs == [] {
      assert xs + ys == ys;
    } else {
      assert (xs + ys)[0] == xs[0];
      assert (xs + ys)[1..] == xs[1..] + ys;
      MatchingAppend(xs[1..], ys, token);
    }
  }

  /** The line the logger has just written at a level is the last line the
      preview shows under that level's filter. */
  lemma NewestLineShown(before: string, timestamp: string, l: LogLevel, category: string, message: string)
    requires before == [] || before[|before| - 1] == '\n'
    requires '\n' !in timestamp && '\n' !in category
    ensures var lines := Preview(Some(before + LogLine(timestamp, l, category, message) + "\n"), FilterFor(l));
      lines != [] && lines[|lines| - 1] == LogLine(timestamp, l, category, message)
  {
    var line := LogLine(timestamp, l, category, message);
    var token := FilterToken(FilterFor(l));
    LineCarriesFilterToken(timestamp, l, category, message);
    LineHasNoBreak(timestamp, l, category, message);
    assert line != [];
    SplitNonEmptyAppended(before, line, '\n');
    MatchingAppend(SplitNonEmpty(before, '\n'), [line], token);
    assert Matching([line], token) == [line];
  }

  // ---------------------------------------------------------------------------
  // Loading and starting
  // ---------------------------------------------------------------------------

  /** `loadRules`, given what the store could decode (`None` when the file is
      missing or unreadable): a non-empty saved list is used as it is;
      otherwise the defaults are used and saved. The list is never empty. */
  function LoadRules(app: App, loaded: Option<seq<ProcessRule>>): (c: Change)
    ensures c.after.rules != []
    ensures loaded.Some? && loaded.value != [] ==> c.after.rules == loaded.value && c.effects == []
    ensures !(loaded.Some? && loaded.value != []) ==>
      c.after.rules == DefaultRules && c.effects == [SaveRules(DefaultRules)]
    ensures c.after == app.(rules := c.after.rules)
  {
    if loaded.Some? && loaded.value != [] then Change(app.(rules := loaded.value), [])
    else Change(app.(rules := DefaultRules), [SaveRules(DefaultRules)])
  }

  /** `start`: load the rules, hand them to the watchdog, fill the preview. */
  function Start(app: App, loaded: Option<seq<ProcessRule>>, text: Option<string>): (c: Change)
    ensures c.after.rules == LoadRules(app, loaded).after.rules
    ensures c.effects == LoadRules(app, loaded).effects + [ForwardRules(c.after.rules)]
    ensures c.after.logPreviewLines == Preview(text, app.logLevelFilter)
    ensures c.after == app.(rules := c.after.rules, logPreviewLines := c.after.logPreviewLines)
  {
    var l := LoadRules(app, loaded);
    Change(RefreshLogPreview(l.after, text), l.effects + [ForwardRules(l.after.rules)])
  }

  /** `stop`: switch the watchdog off. The app's own flag is left as it is. */
  function Stop(app: App): (c: Change)
    ensures c.after == app && c.effects == [SwitchMode(false)]
  {
    Change(app, [SwitchMode(false)])
  }

  /** Stopping a model in step with the rest of the app switches the
      watchdog off and touches neither the store nor the watchdog's rules,
      while the window's flag still says the mode is on: from a mode that
      was on, the two no longer agree. */
  lemma StopLeavesFlagOn(app: App, o: Outside)
    requires InSync(app, o)
    ensures var after := Deliver(o, Stop(app).effects);
      !after.switchedOn && after.stored == o.stored && after.forwarded == o.forwarded
    ensures Stop(app).after.isGamingModeEnabled == app.isGamingModeEnabled
    ensures app.isGamingModeEnabled ==> !InSync(Stop(app).after, Deliver(o, Stop(app).effects))
  {
    DeliverShort(o, SwitchMode(false), SwitchMode(false));
  }

  /** With no saved list to load, the rules start safe: the defaults name no
      protected process and have distinct ids. */
  lemma DefaultsAreSafe()
    ensures NoneProtected(DefaultRules) && NoProtectedTerminate(DefaultRules) && IdsDistinct(DefaultRules)
  {
    forall i | 0 <= i < |DefaultRules|
      ensures !IsProtected(DefaultRules[i].processName)
    {
      DefaultNameNotProtected(i);
    }
    DefaultRulesFlags();
  }

  // ---------------------------------------------------------------------------
  // Everything the user, the sampler and the watchdog can do to the model
  // ---------------------------------------------------------------------------

  datatype Event =
    | TypeName(name: string)
    | ChooseAction(action: RuleAction)
    | Add(newId: RuleId)
    | Remove(rule: ProcessRule)
    | Toggle(rule: ProcessRule, enabled: bool)
    | ChangeAction(rule: ProcessRule, action: RuleAction)
    | SwitchGaming(enabled: bool)
    | SwitchAuto(enabled: bool)
    | Snapshot(usages: seq<ProcessUsage>)
    | Reported(log: ActionLog)
    | LogTimer(text: Option<string>)
    | ChooseFilter(filter: LogViewFilter, text: Option<string>)

  /** One event. The gaming-mode switch in the window is `setGamingMode` as
      the program has it, or the corrected `SwitchByHand` when `corrected`
      is set. Whatever the event, the requests it makes come in one of the
      accounted shapes. */
  function Handle(app: App, e: Event, isGame: string -> bool, corrected: bool): (c: Change)
    ensures Accounted(app, c)
  {
    match e
    case TypeName(name) => Change(app.(newRuleName := name), [])
    case ChooseAction(action) => Change(app.(newRuleAction := action), [])
    case Add(newId) => AddRule(app, newId)
    case Remove(rule) => RemoveRule(app, rule)
    case Toggle(rule, enabled) => ToggleRule(app, rule, enabled)
    case ChangeAction(rule, action) => SetRuleAction(app, rule, action)
    case SwitchGaming(enabled) => if corrected then SwitchByHand(app, enabled) else SetGamingMode(app, enabled)
    case SwitchAuto(enabled) => SetAutoGamingMode(app, enabled)
    case Snapshot(usages) => OnSnapshot(app, usages, isGame)
    case Reported(log) => Change(OnAction(app, log), [])
    case LogTimer(text) => Change(RefreshLogPreview(app, text), [])
    case ChooseFilter(filter, text) => Change(SetLogFilter(app, filter, text), [])
  }

  /** A run of events, in order, with all the requests they make. Rules that
      end up different from the start were saved and forwarded, and a mode
      that ends up different was switched to. */
  function Replay(app: App, events: seq<Event>, isGame: string -> bool, corrected: bool): (c: Change)
    ensures c.after.rules != app.rules ==> SaveRules(c.after.rules) in c.effects && ForwardRules(c.after.rules) in c.effects
    ensures c.after.isGamingModeEnabled != app.isGamingModeEnabled ==> SwitchMode(c.after.isGamingModeEnabled) in c.effects
    decreases |events|
  {
    if events == [] then Change(app, [])
    else
      var first := Handle(app, events[0], isGame, corrected);
      var rest := Replay(first.after, events[1..], isGame, corrected);
      Change(rest.after, first.effects + rest.effects)
  }

  /** One event replayed is that event handled. */
  lemma ReplayOne(app: App, e: Event, isGame: string -> bool, corrected: bool)
    ensures Replay(app, [e], isGame, corrected) == Handle(app, e, isGame, corrected)
  {
    assert [e][1..] == [];
  }

  /** No event brings a protected name into the rules. */
  lemma HandleKeepsNoneProtected(app: App, e: Event, isGame: string -> bool, corrected: bool)
    requires NoneProtected(app.rules)
    ensures NoneProtected(Handle(app, e, isGame, corrected).after.rules)
  {
    match e
    case Add(newId) => AddKeepsRulesSafe(app, newId);
    case Remove(rule) => RemoveKeepsRulesSafe(app, rule);
    case Toggle(rule, enabled) => ToggleKeepsRulesSafe(app, rule, enabled);
    case ChangeAction(rule, action) => SetActionKeepsRulesSafe(app, rule, action);
    case _ =>
      assert Handle(app, e, isGame, corrected).after.rules == app.rules;
  }

  /** No run of events brings a protected name into the rules. */
  lemma {:induction false} ReplayKeepsNoneProtected(app: App, events: seq<Event>, isGame: string -> bool, corrected: bool)
    requires NoneProtected(app.rules)
    ensures NoneProtected(Replay(app, events, isGame, corrected).after.rules)
    decreases |events|
  {
    if events != [] {
      HandleKeepsNoneProtected(app, events[0], isGame, corrected);
      ReplayKeepsNoneProtected(Handle(app, events[0], isGame, corrected).after, events[1..], isGame, corrected);
    }
  }

  /** Started from the defaults, or from a saved list naming no protected
      process, no run of events ever gives a protected process a terminate
      rule, with the window's switch as written or corrected. */
  lemma NeverTerminatesProtected(autoFlag: bool, loaded: Option<seq<ProcessRule>>, text: Option<string>,
                                 events: seq<Event>, isGame: string -> bool, corrected: bool)
    requires loaded.Some? ==> NoneProtected(loaded.value)
    ensures NoProtectedTerminate(Replay(Start(Fresh(autoFlag), loaded, text).after, events, isGame, corrected).after.rules)
  {
    var started := Start(Fresh(autoFlag), loaded, text).after;
    DefaultsAreSafe();
    assert NoneProtected(started.rules);
    ReplayKeepsNoneProtected(started, events, isGame, corrected);
  }

  // ---------------------------------------------------------------------------
  // The store and the watchdog follow the model
  // ---------------------------------------------------------------------------

  /** What the rest of the app holds: the store's saved list (`None` when
      there is none to decode), the watchdog's rules and its mode. */
  datatype Outside = Outside(stored: Option<seq<ProcessRule>>, forwarded: seq<ProcessRule>, switchedOn: bool)

  /** The rest of the app after carrying out one request. */
  function Perform(o: Outside, e: Effect): Outside {
    match e
    case SaveRules(rules) => o.(stored := Some(rules))
    case ForwardRules(rules) => o.(forwarded := rules)
    case SwitchMode(enabled) => o.(switchedOn := enabled)
  }

  /** The rest of the app after carrying out a model's requests in order. */
  function Deliver(o: Outside, effects: seq<Effect>): Outside
    decreases |effects|
  {
    if effects == [] then o else Deliver(Perform(o, effects[0]), effects[1..])
  }

  lemma {:induction false} DeliverAppend(o: Outside, xs: seq<Effect>, ys: seq<Effect>)
    ensures Deliver(o, xs + ys) == Deliver(Deliver(o, xs), ys)
    decreases |xs|
  {
    if xs == [] {
      assert xs + ys == ys;
    } else {
      assert (xs + ys)[0] == xs[0];
      assert (xs + ys)[1..] == xs[1..] + ys;
      DeliverAppend(Perform(o, xs[0]), xs[1..], ys);
    }
  }

  /** Carrying out one or two requests. */
  lemma DeliverShort(o: Outside, a: Effect, b: Effect)
    ensures Deliver(o, [a]) == Perform(o, a)
    ensures Deliver(o, [a, b]) == Perform(Perform(o, a), b)
  {
    assert [a][1..] == [];
    assert [a, b][1..] == [b];
    assert Deliver(Perform(o, a), [b]) == Perform(Perform(o, a), b) by {
      assert [b][1..] == [];
    }
  }

  /** The store holds the model's rules, the watchdog enforces them, and the
      watchdog's mode is the model's. */
  ghost predicate InSync(app: App, o: Outside) {
    o.stored == Some(app.rules) && o.forwarded == app.rules && o.switchedOn == app.isGamingModeEnabled
  }

  /** The shapes a change's requests come in: none while the rules and the
      mode stay; save-and-forward of the new rules while the mode stays; a
      switch to the new mode while the rules stay. */
  ghost predicate Accounted(app: App, c: Change) {
    || (c.effects == [] && c.after.rules == app.rules && c.after.isGamingModeEnabled == app.isGamingModeEnabled)
    || (c.effects == Persist(c.after.rules) && c.after.isGamingModeEnabled == app.isGamingModeEnabled)
    || (c.effects == [SwitchMode(c.after.isGamingModeEnabled)] && c.after.rules == app.rules)
  }

  lemma AccountedKeepsSync(app: App, o: Outside, c: Change)
    requires InSync(app, o) && Accounted(app, c)
    ensures InSync(c.after, Deliver(o, c.effects))
  {
    if c.effects == Persist(c.after.rules) {
      DeliverShort(o, SaveRules(c.after.rules), ForwardRules(c.after.rules));
    } else if c.effects != [] {
      DeliverShort(o, SwitchMode(c.after.isGamingModeEnabled), SwitchMode(c.after.isGamingModeEnabled));
    }
  }

  /** Whatever happens, the store and the watchdog end up with the model's
      rules and the watchdog with the model's mode, with the window's switch
      as written or corrected. */
  lemma {:induction false} ReplayKeepsSync(app: App, o: Outside, events: seq<Event>, isGame: string -> bool, corrected: bool)
    requires InSync(app, o)
    ensures InSync(Replay(app, events, isGame, corrected).after, Deliver(o, Replay(app, events, isGame, corrected).effects))
    decreases |events|
  {
    if events != [] {
      var first := Handle(app, events[0], isGame, corrected);
      AccountedKeepsSync(app, o, first);
      var middle := Deliver(o, first.effects);
      ReplayKeepsSync(first.after, middle, events[1..], isGame, corrected);
      DeliverAppend(o, first.effects, Replay(first.after, events[1..], isGame, corrected).effects);
    }
  }

  /** Starting brings the store and the watchdog (off, with no rules) in line
      with the model. */
  lemma StartSyncs(autoFlag: bool, loaded: Option<seq<ProcessRule>>, text: Option<string>)
    ensures var c := Start(Fresh(autoFlag), loaded, text);
      InSync(c.after, Deliver(Outside(loaded, [], false), c.effects))
  {
    var c := Start(Fresh(autoFlag), loaded, text);
    var o := Outside(loaded, [], false);
    var rules := c.after.rules;
    DeliverShort(o, SaveRules(rules), ForwardRules(rules));
    if !(loaded.Some? && loaded.value != []) {
      assert c.effects == [SaveRules(rules), ForwardRules(rules)];
    }
  }

  // ---------------------------------------------------------------------------
  // A mode switched on by hand
  // ---------------------------------------------------------------------------

  /** The mode is on and the automatic rule does not own it. */
  ghost predicate OnByHand(app: App) {
    app.isGamingModeEnabled && !app.autoManagedGamingMode
  }

  /** Only switching off by hand ends a mode switched on by hand; nothing
      else asks the watchdog to switch off. */
  lemma HandleKeepsOnByHand(app: App, e: Event, isGame: string -> bool, corrected: bool)
    requires OnByHand(app) && e != SwitchGaming(false)
    ensures OnByHand(Handle(app, e, isGame, corrected).after)
    ensures SwitchMode(false) !in Handle(app, e, isGame, corrected).effects
  {
    match e
    case SwitchAuto(enabled) =>
      assert SetAutoGamingMode(app, enabled).effects == [];
    case Snapshot(usages) =>
      var seen := app.(usages := usages, recommendations := BuildRecommendations(app.rules, usages));
      assert HandleAutoGamingMode(seen, usages, isGame).effects == [] || app.isAutoGamingModeEnabled;
    case _ =>
  }

  /** A mode on and not owned by the automatic rule stays on through any run
      of events that does not switch it off by hand, whatever games come and
      go. */
  lemma {:induction false} OnByHandStaysOn(app: App, events: seq<Event>, isGame: string -> bool, corrected: bool)
    requires OnByHand(app)
    requires forall i :: 0 <= i < |events| ==> events[i] != SwitchGaming(false)
    ensures Replay(app, events, isGame, corrected).after.isGamingModeEnabled
    ensures SwitchMode(false) !in Replay(app, events, isGame, corrected).effects
    ensures OnByHand(Replay(app, events, isGame, corrected).after)
    decreases |events|
  {
    if events != [] {
      var first := Handle(app, events[0], isGame, corrected);
      HandleKeepsOnByHand(app, events[0], isGame, corrected);
      assert forall i :: 0 <= i < |events[1..]| ==> events[1..][i] == events[i + 1];
      OnByHandStaysOn(first.after, events[1..], isGame, corrected);
    }
  }

  /** With the corrected switch, switching on by hand puts the mode out of
      the automatic rule's reach: from then on only switching off by hand
      ends it. */
  lemma SwitchedOnByHandStaysOn(app: App, events: seq<Event>, isGame: string -> bool)
    requires forall i :: 0 <= i < |events| ==> events[i] != SwitchGaming(false)
    ensures Replay(app, [SwitchGaming(true)] + events, isGame, true).after.isGamingModeEnabled
    ensures SwitchMode(false) !in Replay(app, [SwitchGaming(true)] + events, isGame, true).effects
  {
    var all := [SwitchGaming(true)] + events;
    var first := Handle(app, SwitchGaming(true), isGame, true);
    assert all[0] == SwitchGaming(true) && all[1..] == events;
    OnByHandStaysOn(first.after, events, isGame, true);
  }

  /** As written, switching off and on again by hand leaves a mode the
      automatic rule had marked in its hands: the game's mode, switched off
      and on by hand, is switched off by the next snapshot without a game. */
  lemma SwitchedOnByHandCanEnd(isGame: string -> bool, game: ProcessUsage)
    requires isGame(game.processName)
    ensures var app := HandleAutoGamingMode(Fresh(true), [game], isGame).after;
      var hand := [SwitchGaming(false), SwitchGaming(true)];
      var mid := Replay(app, hand, isGame, false);
      var run := Replay(app, hand + [Snapshot([])], isGame, false);
      && mid.after.isGamingModeEnabled
      && !run.after.isGamingModeEnabled
      && run.effects == mid.effects + [SwitchMode(false)]
  {
    var app := HandleAutoGamingMode(Fresh(true), [game], isGame).after;
    assert GameIn([game], isGame) by { assert [game][0] == game; }
    assert app.autoManagedGamingMode && app.isGamingModeEnabled;
    var off := Handle(app, SwitchGaming(false), isGame, false);
    var on := Handle(off.after, SwitchGaming(true), isGame, false);
    assert on.after.autoManagedGamingMode && on.after.isGamingModeEnabled;
    var closed := Handle(on.after, Snapshot([]), isGame, false);
    assert !closed.after.isGamingModeEnabled && closed.effects == [SwitchMode(false)];
    var hand := [SwitchGaming(false), SwitchGaming(true)];
    assert hand[1..] == [SwitchGaming(true)];
    ReplayOne(off.after, SwitchGaming(true), isGame, false);
    var mid := Replay(app, hand, isGame, false);
    assert mid == Change(on.after, off.effects + on.effects);
    var all := hand + [Snapshot([])];
    assert all[0] == SwitchGaming(false) && all[1..] == [SwitchGaming(true), Snapshot([])];
    var rest := [SwitchGaming(true), Snapshot([])];
    assert rest[1..] == [Snapshot([])];
    ReplayOne(on.after, Snapshot([]), isGame, false);
    assert Replay(off.after, rest, isGame, false) == Change(closed.after, on.effects + closed.effects);
    assert Replay(app, all, isGame, false) == Change(closed.after, off.effects + (on.effects + closed.effects));
    assert off.effects + (on.effects + closed.effects) == (off.effects + on.effects) + closed.effects;
  }

  /** As written, the window's switch is `setGamingMode`, which leaves the
      automatic mark alone: the automatic rule switches a game's mode on, the
      user switches it off and on again by hand, and when the game closes the
      automatic rule switches the mode off. */
  lemma AutoRuleEndsHandSwitchedMode(isGame: string -> bool, game: ProcessUsage)
    requires isGame(game.processName)
    ensures var detected := HandleAutoGamingMode(Fresh(true), [game], isGame).after;
      var off := SetGamingMode(detected, false).after;
      var on := SetGamingMode(off, true).after;
      var closed := HandleAutoGamingMode(on, [], isGame);
      on.isGamingModeEnabled && !closed.after.isGamingModeEnabled && closed.effects == [SwitchMode(false)]
  {
    var detected := HandleAutoGamingMode(Fresh(true), [game], isGame).after;
    assert GameIn([game], isGame) by { assert [game][0] == game; }
    assert detected.autoManagedGamingMode;
  }

  /** With the corrected switch the same run keeps the mode on. */
  lemma HandSwitchedModeSurvivesGameEnd(isGame: string -> bool, game: ProcessUsage)
    requires isGame(game.processName)
    ensures var detected := HandleAutoGamingMode(Fresh(true), [game], isGame).after;
      var off := SwitchByHand(detected, false).after;
      var on := SwitchByHand(off, true).after;
      var closed := HandleAutoGamingMode(on, [], isGame);
      on.isGamingModeEnabled && closed.after.isGamingModeEnabled && closed.effects == []
  {
  }
}

=== FILE: catalog.dfy ===
/**
  The static process catalogue: the seven default rules, the descriptions
  shown next to a process, and the protection predicate that no rule can
  override.
 */
module ProcessCatalog {
  import opened Strings
  import opened Models

  /** The default rules, each an enabled pause rule marked as default. Their
      ids are fixed once per run, as a `static let` is. */
  const DefaultRules: seq<ProcessRule> := [
    NewRule(RuleId(0), "appstoreagent", Pause, true, true),
    NewRule(RuleId(1), "storedownloadd", Pause, true, true),
    NewRule(RuleId(2), "nsurlsessiond", Pause, true, true),
    NewRule(RuleId(3), "cloudd", Pause, true, true),
    NewRule(RuleId(4), "bird", Pause, true, true),
    NewRule(RuleId(5), "photolibraryd", Pause, true, true),
    NewRule(RuleId(6), "mobileassetd", Pause, true, true)
  ]

  const Descriptions: map<string, string> := map[
    "appstoreagent" := "Обновления и загрузки App Store.",
    "storedownloadd" := "Системный загрузчик обновлений и контента.",
    "nsurlsessiond" := "Фоновые сетевые загрузки приложений через URLSession.",
    "cloudd" := "Служба синхронизации iCloud.",
    "bird" := "Демон синхронизации файлов iCloud Drive.",
    "photolibraryd" := "Синхронизация и индексация медиатеки Фото.",
    "mobileassetd" := "Загрузка системных ассетов и пакетов данных Apple.",
    "softwareupdated" := "Служба системных обновлений macOS.",
    "RiotClientService" := "Служба лаунчера Riot.",
    "LeagueClient" := "Основной процесс клиента League of Legends.",
    "LeagueClientUx" := "Процесс интерфейса клиента League of Legends."
  ]

  const DescriptionFallback: string :=
    "Локального описания пока нет. Наблюдайте за процессом и решайте вручную."

  const ProtectedExactNames: set<string> := {
    "RiotClientServices",
    "RiotClientService",
    "Riot Client",
    "LeagueClient",
    "LeagueClientUx",
    "LeagueClientUx Helper",
    "League of Legends",
    "vgc",
    "vgk"
  }

  const ProtectedNameTokens: seq<string> := ["riot", "league", "vanguard", "valorant", "vgc", "vgk"]

  /** The catalogue's description of a process, or the fixed fallback text. */
  function Description(process: string): (d: string)
    ensures process in Descriptions ==> d == Descriptions[process]
    ensures process !in Descriptions ==> d == DescriptionFallback
  {
    if process in Descriptions then Descriptions[process] else DescriptionFallback
  }

  /** Some token occurs in the lowercased name. */
  ghost predicate TokenProtected(process: string) {
    exists i :: 0 <= i < |ProtectedNameTokens| && Occurs(Lower(process), ProtectedNameTokens[i])
  }

  /** `tokens.contains(where: { lower.contains($0) })`. */
  function AnyTokenIn(lower: string, tokens: seq<string>): (b: bool)
    ensures b <==> exists i :: 0 <= i < |tokens| && Occurs(lower, tokens[i])
    decreases |tokens|
  {
    if tokens == [] then false
    else
      var rest := AnyTokenIn(lower, tokens[1..]);
      assert forall i :: 1 <= i < |tokens| ==> tokens[i] == tokens[1..][i - 1];
      Contains(lower, tokens[0]) || rest
  }

  /** The protection predicate: an exact catalogue name, or a name whose
      lowercase form contains one of the tokens. */
  function IsProtected(process: string): (b: bool)
    ensures b <==> process in ProtectedExactNames || TokenProtected(process)
  {
    process in ProtectedExactNames || AnyTokenIn(Lower(process), ProtectedNameTokens)
  }

  lemma StartsWithToken(name: string, i: nat)
    requires i < |ProtectedNameTokens|
    requires ProtectedNameTokens[i] <= Lower(name)
    ensures TokenProtected(name)
  {
    assert ProtectedNameTokens[i] <= Lower(name)[0..];
  }

  /** Every exact name's lowercase form starts with a token. */
  lemma ExactNamesCarryToken(name: string)
    requires name in ProtectedExactNames
    ensures TokenProtected(name)
  {
    if name in {"RiotClientServices", "RiotClientService", "Riot Client"} {
      RiotNamesCarryToken(name);
    } else if name in {"vgc", "vgk"} {
      VanguardNamesCarryToken(name);
    } else {
      LeagueNamesCarryToken(name);
    }
  }

  lemma RiotNamesCarryToken(name: string)
    requires name in {"RiotClientServices", "RiotClientService", "Riot Client"}
    ensures TokenProtected(name)
  {
    if name == "RiotClientServices" {
      StartsWithToken("RiotClientServices", 0);
    } else if name == "RiotClientService" {
      StartsWithToken("RiotClientService", 0);
    } else {
      StartsWithToken("Riot Client", 0);
    }
  }

  lemma LeagueNamesCarryToken(name: string)
    requires name in {"LeagueClient", "LeagueClientUx", "LeagueClientUx Helper", "League of Legends"}
    ensures TokenProtected(name)
  {
    if name == "LeagueClient" {
      StartsWithToken("LeagueClient", 1);
    } else if name == "LeagueClientUx" {
      StartsWithToken("LeagueClientUx", 1);
    } else if name == "LeagueClientUx Helper" {
      StartsWithToken("LeagueClientUx Helper", 1);
    } else {
      StartsWithToken("League of Legends", 1);
    }
  }

  lemma VanguardNamesCarryToken(name: string)
    requires name in {"vgc", "vgk"}
    ensures TokenProtected(name)
  {
    if name == "vgc" {
      StartsWithToken("vgc", 4);
    } else {
      StartsWithToken("vgk", 5);
    }
  }

  /** The exact-name list adds nothing: protection is the token test alone. */
  lemma ProtectedIffToken(process: string)
    ensures IsProtected(process) <==> TokenProtected(process)
  {
    if process in ProtectedExactNames {
      ExactNamesCarryToken(process);
    }
  }

  /** Every name in the exact list is protected. */
  lemma ExactNamesProtected(name: string)
    requires name in ProtectedExactNames
    ensures IsProtected(name)
  {
  }

  /** Protection ignores case: two names that agree once lowercased are both
      protected or both unprotected. */
  lemma ProtectionIgnoresCase(p: string, q: string)
    requires SameIgnoringCase(p, q)
    ensures IsProtected(p) <==> IsProtected(q)
  {
    ProtectedIffToken(p);
    ProtectedIffToken(q);
  }

  /** Adding text before or after a protected name keeps it protected. */
  lemma ProtectionSurvivesContext(before: string, process: string, after: string)
    requires IsProtected(process)
    ensures IsProtected(before + process + after)
  {
    ProtectedIffToken(process);
    var i :| 0 <= i < |ProtectedNameTokens| && Occurs(Lower(process), ProtectedNameTokens[i]);
    LowerAppend(before + process, after);
    LowerAppend(before, process);
    OccursInContext(Lower(before), Lower(process), Lower(after), ProtectedNameTokens[i]);
    assert Lower(before + process + after) == Lower(before) + Lower(process) + Lower(after);
    ProtectedIffToken(before + process + after);
  }

  // ---------------------------------------------------------------------------
  // The default rules are not protected
  // ---------------------------------------------------------------------------

  lemma CharNeeded(hay: string, needle: string, k: nat)
    requires k < |needle| && needle[k] !in hay
    ensures !Occurs(hay, needle)
  {
    forall i | 0 <= i <= |hay|
      ensures !(needle <= hay[i..])
    {
      if i + k < |hay| {
        assert hay[i..][k] == hay[i + k];
      }
    }
  }

  lemma BigramNeeded(hay: string, needle: string)
    requires |needle| >= 2
    requires forall i :: 0 <= i < |hay| - 1 ==> !(hay[i] == needle[0] && hay[i + 1] == needle[1])
    ensures !Occurs(hay, needle)
  {
    forall i | 0 <= i <= |hay|
      ensures !(needle <= hay[i..])
    {
      if i + 1 < |hay| {
        assert hay[i..][0] == hay[i] && hay[i..][1] == hay[i + 1];
      }
    }
  }

  /** A lowercase name with no 'v', and without "riot" or "league", is not
      protected. */
  lemma NotProtectedWhen(name: string)
    requires forall i :: 0 <= i < |name| ==> !('A' <= name[i] <= 'Z')
    requires 'v' !in name
    requires !Occurs(name, "riot") && !Occurs(name, "league")
    requires name !in ProtectedExactNames
    ensures !IsProtected(name)
  {
    assert Lower(name) == name;
    forall i | 2 <= i < |ProtectedNameTokens|
      ensures !Occurs(name, ProtectedNameTokens[i])
    {
      CharNeeded(name, ProtectedNameTokens[i], 0);
    }
  }

  lemma AppstoreagentNotProtected()
    ensures !IsProtected("appstoreagent")
  {
    var name := "appstoreagent";
    CharNeeded(name, "riot", 1);
    CharNeeded(name, "league", 0);
    NotProtectedWhen(name);
  }

  lemma StoredownloaddNotProtected()
    ensures !IsProtected("storedownloadd")
  {
    var name := "storedownloadd";
    CharNeeded(name, "riot", 1);
    CharNeeded(name, "league", 3);
    NotProtectedWhen(name);
  }

  lemma NsurlsessiondNotProtected()
    ensures !IsProtected("nsurlsessiond")
  {
    var name := "nsurlsessiond";
    CharNeeded(name, "riot", 3);
    CharNeeded(name, "league", 3);
    NotProtectedWhen(name);
  }

  lemma ClouddNotProtected()
    ensures !IsProtected("cloudd")
  {
    var name := "cloudd";
    CharNeeded(name, "riot", 1);
    CharNeeded(name, "league", 3);
    NotProtectedWhen(name);
  }

  lemma BirdNotProtected()
    ensures !IsProtected("bird")
  {
    var name := "bird";
    CharNeeded(name, "riot", 2);
    CharNeeded(name, "league", 0);
    NotProtectedWhen(name);
  }

  lemma PhotolibrarydNotProtected()
    ensures !IsProtected("photolibraryd")
  {
    var name := "photolibraryd";
    BigramNeeded(name, "riot");
    CharNeeded(name, "league", 3);
    NotProtectedWhen(name);
  }

  lemma MobileassetdNotProtected()
    ensures !IsProtected("mobileassetd")
  {
    var name := "mobileassetd";
    CharNeeded(name, "riot", 0);
    CharNeeded(name, "league", 3);
    NotProtectedWhen(name);
  }

  /** A default rule's name is not protected. */
  lemma DefaultNameNotProtected(i: nat)
    requires i < |DefaultRules|
    ensures !IsProtected(DefaultRules[i].processName)
  {
    if i == 0 { AppstoreagentNotProtected(); }
    else if i == 1 { StoredownloaddNotProtected(); }
    else if i == 2 { NsurlsessiondNotProtected(); }
    else if i == 3 { ClouddNotProtected(); }
    else if i == 4 { BirdNotProtected(); }
    else if i == 5 { PhotolibrarydNotProtected(); }
    else { MobileassetdNotProtected(); }
  }

  /** The seven defaults are enabled pause rules marked as default, with
      distinct ids. */
  lemma DefaultRulesFlags()
    ensures |DefaultRules| == 7
    ensures forall i :: 0 <= i < |DefaultRules| ==>
      DefaultRules[i].action == Pause && DefaultRules[i].isEnabled && DefaultRules[i].isDefault
    ensures forall i, j :: 0 <= i < j < |DefaultRules| ==> DefaultRules[i].id != DefaultRules[j].id
  {
    forall i | 0 <= i < |DefaultRules|
      ensures DefaultRules[i].id == RuleId(i)
    {
    }
  }

  /** Every default rule has its own catalogue description. */
  lemma DefaultRulesDescribed(i: nat)
    requires i < |DefaultRules|
    ensures DefaultRules[i].processName in Descriptions
    ensures Description(DefaultRules[i].processName) != DescriptionFallback
  {
    var name := DefaultRules[i].processName;
    assert Descriptions[name] != DescriptionFallback by {
      assert |DescriptionFallback| > |Descriptions[name]|;
    }
  }
}

=== FILE: commands.dfy ===
/**
  The shell commands the services issue, and the oracle that answers them.
  A command runs through `/bin/zsh -lc`; the services only use the variant
  that turns every failure into an empty output, so a `Runner` is any total
  map from a command line to its standard output, with "" standing for
  failure.
 */
module Commands {

  type Runner = string -> string

  datatype Signal = STOP | TERM | CONT

  function SignalName(s: Signal): string {
    match s
    case STOP => "STOP"
    case TERM => "TERM"
    case CONT => "CONT"
  }

  datatype Invocation =
    | Pgrep(name: string)
    | Pkill(signal: Signal, name: string)
    | DefaultsRead(domain: string, key: string)
    | DefaultsWriteFalse(domain: string, key: string)
    | DefaultsDelete(domain: string, key: string)
    | DefaultsWriteBool(domain: string, key: string, flag: bool)
    | DefaultsWriteString(domain: string, key: string, value: string)

  /** The exact command line each invocation runs. The throttle's initial
      reads and writes leave the domain and key unquoted; its restore
      commands quote them. */
  function CommandLine(c: Invocation): string {
    match c
    case Pgrep(n) => "pgrep -x '" + n + "'"
    case Pkill(s, n) => "pkill -" + SignalName(s) + " -x '" + n + "'"
    case DefaultsRead(d, k) => "defaults read " + d + " " + k
    case DefaultsWriteFalse(d, k) => "defaults write " + d + " " + k + " -bool false"
    case DefaultsDelete(d, k) => "defaults delete '" + d + "' '" + k + "'"
    case DefaultsWriteBool(d, k, b) =>
      "defaults write '" + d + "' '" + k + "' -bool " + (if b then "true" else "false")
    case DefaultsWriteString(d, k, v) => "defaults write '" + d + "' '" + k + "' '" + v + "'"
  }

  /** What the runner answers for an invocation. */
  function Output(run: Runner, c: Invocation): string {
    run(CommandLine(c))
  }

  /** The sampler's one command. */
  const NettopCommand: string := "nettop -P -L 1 -n -x 2>/dev/null"
}

=== FILE: control.dfy ===
/**
  The enforcement watchdog. While gaming mode is on, a timer fires every
  second, and every enabled rule whose process is running and not protected
  has its action applied (SIGSTOP for pause, SIGTERM for terminate), at most
  once per process and action in any three seconds. Switching gaming mode on
  also throttles system updates; switching it off restores them and sends
  SIGCONT to every process an enabled pause rule names.

  The shell is a `Runner` per timer tick, and the clock is the `now` a tick
  happens at.
 */
module ProcessControl {
  import opened Optional
  import opened Strings
  import opened Commands
  import opened Models
  import opened ProcessCatalog
  import opened DefaultsDatabase
  import opened SystemThrottle

  // ---------------------------------------------------------------------------
  // The cooldown
  // ---------------------------------------------------------------------------

  /** Seconds during which a process and action that were acted on are left alone. */
  const CooldownSeconds: real := 3.0

  /** The cooldown table: when each process and action was last acted on. */
  type Cooldowns = map<string, real>

  /** The table's key: the process name, a colon, the action's raw value. */
  function CooldownKey(process: string, action: RuleAction): string {
    process + ":" + ActionRawValue(action)
  }

  function RuleKey(rule: ProcessRule): string {
    CooldownKey(rule.processName, rule.action)
  }

  function LogKey(a: ActionLog): string {
    CooldownKey(a.processName, a.action)
  }

  lemma RawValueHasNoColon(a: RuleAction)
    ensures ':' !in ActionRawValue(a)
  {
  }

  /** The last colon of a key ends the process name. */
  lemma KeySplits(p: string, a: RuleAction)
    ensures LastIndexOf(CooldownKey(p, a), ':') == Some(|p|)
    ensures CooldownKey(p, a)[..|p|] == p && CooldownKey(p, a)[|p| + 1..] == ActionRawValue(a)
  {
    RawValueHasNoColon(a);
    assert CooldownKey(p, a) == p + [':'] + ActionRawValue(a);
    LastIndexOfJoined(p, ':', ActionRawValue(a));
  }

  /** The key names the process and the action: names may hold colons, but
      the raw values do not, so the last colon separates the two. */
  lemma CooldownKeyInjective(p: string, a: RuleAction, q: string, b: RuleAction)
    ensures CooldownKey(p, a) == CooldownKey(q, b) <==> p == q && a == b
  {
    if CooldownKey(p, a) == CooldownKey(q, b) {
      KeySplits(p, a);
      KeySplits(q, b);
      ActionRawValueRoundTrip(a);
      ActionRawValueRoundTrip(b);
    }
  }

  /** The key is off cooldown at `now`: never acted on, or acted on at
      least three seconds earlier. A time ahead of `now` counts as recent. */
  predicate Allowed(table: Cooldowns, key: string, now: real) {
    key !in table || now - table[key] >= CooldownSeconds
  }

  /** `allowByCooldown`: whether to act on the process and action at `now`,
      and the table afterwards. */
  function AllowByCooldown(table: Cooldowns, process: string, action: RuleAction, now: real): (r: (bool, Cooldowns))
    ensures r.0 <==> Allowed(table, CooldownKey(process, action), now)
    ensures r.0 ==> r.1 == table[CooldownKey(process, action) := now]
    ensures !r.0 ==> r.1 == table
  {
    var key := CooldownKey(process, action);
    if key in table && now - table[key] < CooldownSeconds then (false, table)
    else (true, table[key := now])
  }

  /** After an allowed call at `now`, the same process and action are denied
      until three seconds have passed and allowed from then on; every other
      process and action is answered as before. */
  lemma CooldownWindow(table: Cooldowns, p: string, a: RuleAction, now: real, q: string, b: RuleAction, later: real)
    requires now <= later
    requires AllowByCooldown(table, p, a, now).0
    ensures p == q && a == b ==>
      (AllowByCooldown(AllowByCooldown(table, p, a, now).1, q, b, later).0 <==> later >= now + CooldownSeconds)
    ensures p != q || a != b ==>
      AllowByCooldown(AllowByCooldown(table, p, a, now).1, q, b, later).0 == AllowByCooldown(table, q, b, later).0
  {
    CooldownKeyInjective(p, a, q, b);
  }

  // ---------------------------------------------------------------------------
  // One rule
  // ---------------------------------------------------------------------------

  function SignalFor(a: RuleAction): Signal {
    match a
    case Pause => STOP
    case Terminate => TERM
  }

  /** `isProcessRunning`: `pgrep -x` printed something besides whitespace. */
  function IsRunning(run: Runner, name: string): (b: bool)
    ensures b <==> !AllWhitespace(Output(run, Pgrep(name)))
  {
    Trim(Output(run, Pgrep(name))) != []
  }

  /** The result an action records: the command's trimmed output, or
      "applied" when it printed nothing. */
  function Status(output: string): (s: string)
    ensures s != [] && EdgesTrimmed(s)
    ensures Trim(output) != [] ==> s == Trim(output)
    ensures Trim(output) == [] ==> s == "applied"
  {
    var result := Trim(output);
    if result == [] then "applied" else result
  }

  /** A rule's process may be acted on: it is not protected and is running. */
  predicate Candidate(rule: ProcessRule, run: Runner) {
    !IsProtected(rule.processName) && IsRunning(run, rule.processName)
  }

  /** A rule the watchdog acts on at `now`: enabled, a candidate, and off cooldown. */
  predicate Eligible(rule: ProcessRule, table: Cooldowns, run: Runner, now: real) {
    rule.isEnabled && Candidate(rule, run) && Allowed(table, RuleKey(rule), now)
  }

  /** What a pass of the watchdog leaves: the cooldown table, the commands
      run, and the actions reported, in order. */
  datatype Tick = Tick(coolDown: Cooldowns, issued: seq<Invocation>, actions: seq<ActionLog>)

  /** The body of the enforcement loop for one enabled rule: skip a
      protected name, ask `pgrep` whether it runs, consult the cooldown, then
      signal it and report the result. */
  function EnforceRule(rule: ProcessRule, table: Cooldowns, run: Runner, now: real): (t: Tick)
    ensures Candidate(rule, run) && Allowed(table, RuleKey(rule), now) ==>
      && t.coolDown == table[RuleKey(rule) := now]
      && t.actions == [ActionLog(now, rule.processName, rule.action,
                                 Status(Output(run, Pkill(SignalFor(rule.action), rule.processName))))]
    ensures !(Candidate(rule, run) && Allowed(table, RuleKey(rule), now)) ==> t.coolDown == table && t.actions == []
    ensures forall c :: c in t.issued && c.Pkill? ==>
      c == Pkill(SignalFor(rule.action), rule.processName) && !IsProtected(rule.processName)
  {
    var name := rule.processName;
    if IsProtected(name) then Tick(table, [], [])
    else if !IsRunning(run, name) then Tick(table, [Pgrep(name)], [])
    else
      var (allowed, after) := AllowByCooldown(table, name, rule.action, now);
      if !allowed then Tick(table, [Pgrep(name)], [])
      else
        var kill := Pkill(SignalFor(rule.action), name);
        Tick(after, [Pgrep(name), kill], [ActionLog(now, name, rule.action, Status(Output(run, kill)))])
  }

  // ---------------------------------------------------------------------------
  // A tick
  // ---------------------------------------------------------------------------

  /** `rules.filter { $0.isEnabled }`. */
  function ActiveRules(rules: seq<ProcessRule>): (r: seq<ProcessRule>)
    ensures forall x :: x in r <==> x in rules && x.isEnabled
    ensures |r| <= |rules|
    decreases |rules|
  {
    if rules == [] then []
    else if rules[0].isEnabled then [rules[0]] + ActiveRules(rules[1..])
    else ActiveRules(rules[1..])
  }

  /** Filtering keeps the order: the active rules of two lists joined are
      those of the first followed by those of the second. */
  lemma {:induction false} ActiveRulesAppend(xs: seq<ProcessRule>, ys: seq<ProcessRule>)
    ensures ActiveRules(xs + ys) == ActiveRules(xs) + ActiveRules(ys)
    decreases |xs|
  {
    if xs == [] {
      assert xs + ys == ys;
    } else {
      assert (xs + ys)[0] == xs[0];
      assert (xs + ys)[1..] == xs[1..] + ys;
      ActiveRulesAppend(xs[1..], ys);
    }
  }

  /** The enforcement loop over the active rules, in order, each seeing the
      table the earlier ones left. */
  function EnforceEach(rules: seq<ProcessRule>, table: Cooldowns, run: Runner, now: real): Tick
    decreases |rules|
  {
    if rules == [] then Tick(table, [], [])
    else
      var first := EnforceRule(rules[0], table, run, now);
      var rest := EnforceEach(rules[1..], first.coolDown, run, now);
      Tick(rest.coolDown, first.issued + rest.issued, first.actions + rest.actions)
  }

  /** `enforce()`: one pass of the watchdog over the enabled rules. */
  function Enforce(rules: seq<ProcessRule>, table: Cooldowns, run: Runner, now: real): (t: Tick)
    ensures forall a :: a in t.actions ==> a.date == now && a.result != []
    ensures |t.actions| <= |ActiveRules(rules)|
  {
    EnforceEachReports(ActiveRules(rules), table, run, now);
    EnforceEachCount(ActiveRules(rules), table, run, now);
    EnforceEach(ActiveRules(rules), table, run, now)
  }

  /** Some reported action is on this key. */
  ghost predicate Acted(actions: seq<ActionLog>, key: string) {
    exists a :: a in actions && LogKey(a) == key
  }

  /** Some rule with this key is eligible. */
  ghost predicate Wanted(rules: seq<ProcessRule>, table: Cooldowns, run: Runner, now: real, key: string) {
    exists r :: r in rules && RuleKey(r) == key && Eligible(r, table, run, now)
  }

  /** Two tables say the same about a key. */
  predicate SameAt(t1: Cooldowns, t2: Cooldowns, key: string) {
    (key in t1 <==> key in t2) && (key in t1 ==> t1[key] == t2[key])
  }

  /** Rules are eligible alike under tables that say the same about their key. */
  lemma WantedAlike(rules: seq<ProcessRule>, t1: Cooldowns, t2: Cooldowns, run: Runner, now: real, key: string)
    requires SameAt(t1, t2, key)
    ensures Wanted(rules, t1, run, now, key) <==> Wanted(rules, t2, run, now, key)
  {
    assert Allowed(t1, key, now) == Allowed(t2, key, now);
  }

  /** One enabled rule acts on a key exactly when it is eligible and has that
      key; the key is then stamped with `now`, otherwise left as it was. */
  lemma EnforceRuleOnKey(rule: ProcessRule, table: Cooldowns, run: Runner, now: real, key: string)
    requires rule.isEnabled
    ensures Acted(EnforceRule(rule, table, run, now).actions, key) <==> Eligible(rule, table, run, now) && RuleKey(rule) == key
    ensures Acted(EnforceRule(rule, table, run, now).actions, key) ==>
      key in EnforceRule(rule, table, run, now).coolDown && EnforceRule(rule, table, run, now).coolDown[key] == now
    ensures !Acted(EnforceRule(rule, table, run, now).actions, key) ==> SameAt(EnforceRule(rule, table, run, now).coolDown, table, key)
  {
    var t := EnforceRule(rule, table, run, now);
    if t.actions != [] {
      assert t.actions[0] in t.actions;
    }
  }

  /** A tick acts on a key exactly when some rule with that key is eligible
      at its start; the key is then stamped with `now`, otherwise it keeps
      its entry. */
  lemma {:induction false} EnforceEachOnKey(rules: seq<ProcessRule>, table: Cooldowns, run: Runner, now: real, key: string)
    requires forall r :: r in rules ==> r.isEnabled
    ensures Acted(EnforceEach(rules, table, run, now).actions, key) <==> Wanted(rules, table, run, now, key)
    ensures Acted(EnforceEach(rules, table, run, now).actions, key) ==>
      key in EnforceEach(rules, table, run, now).coolDown && EnforceEach(rules, table, run, now).coolDown[key] == now
    ensures !Acted(EnforceEach(rules, table, run, now).actions, key) ==> SameAt(EnforceEach(rules, table, run, now).coolDown, table, key)
    decreases |rules|
  {
    if rules != [] {
      var rule := rules[0];
      var tail := rules[1..];
      var first := EnforceRule(rule, table, run, now);
      var rest := EnforceEach(tail, first.coolDown, run, now);
      assert EnforceEach(rules, table, run, now) == Tick(rest.coolDown, first.issued + rest.issued, first.actions + rest.actions);
      assert forall r :: r in rules <==> r == rule || r in tail;
      EnforceRuleOnKey(rule, table, run, now, key);
      EnforceEachOnKey(tail, first.coolDown, run, now, key);
      assert Acted(first.actions + rest.actions, key) <==> Acted(first.actions, key) || Acted(rest.actions, key);
      if Acted(first.actions, key) {
        assert !Allowed(first.coolDown, key, now);
        assert !Wanted(tail, first.coolDown, run, now, key);
      } else {
        WantedAlike(tail, first.coolDown, table, run, now, key);
        assert Wanted(rules, table, run, now, key) <==> Wanted(tail, table, run, now, key);
      }
    }
  }

  /** No two reported actions share a key. */
  predicate ActionKeysDistinct(actions: seq<ActionLog>) {
    forall i, j :: 0 <= i < j < |actions| ==> LogKey(actions[i]) != LogKey(actions[j])
  }

  lemma DistinctAfterOne(xs: seq<ActionLog>, ys: seq<ActionLog>)
    requires |xs| <= 1 && ActionKeysDistinct(ys)
    requires xs != [] ==> !Acted(ys, LogKey(xs[0]))
    ensures ActionKeysDistinct(xs + ys)
  {
    var all := xs + ys;
    if xs != [] {
      forall i, j | 0 <= i < j < |all|
        ensures LogKey(all[i]) != LogKey(all[j])
      {
        assert all[j] == ys[j - 1];
        assert all[j] in ys;
        if i > 0 {
          assert all[i] == ys[i - 1];
        }
      }
    } else {
      assert all == ys;
    }
  }

  /** A tick never acts twice on the same process and action. */
  lemma {:induction false} EnforceEachOnce(rules: seq<ProcessRule>, table: Cooldowns, run: Runner, now: real)
    requires forall r :: r in rules ==> r.isEnabled
    ensures ActionKeysDistinct(EnforceEach(rules, table, run, now).actions)
    decreases |rules|
  {
    if rules != [] {
      var rule := rules[0];
      var tail := rules[1..];
      var first := EnforceRule(rule, table, run, now);
      var rest := EnforceEach(tail, first.coolDown, run, now);
      assert EnforceEach(rules, table, run, now).actions == first.actions + rest.actions;
      assert forall r :: r in tail ==> r in rules;
      EnforceEachOnce(tail, first.coolDown, run, now);
      if first.actions != [] {
        var key := LogKey(first.actions[0]);
        EnforceRuleOnKey(rule, table, run, now, key);
        assert first.actions[0] in first.actions;
        EnforceEachOnKey(tail, first.coolDown, run, now, key);
        assert !Allowed(first.coolDown, key, now);
      }
      DistinctAfterOne(first.actions, rest.actions);
    }
  }

  /** Every signal a tick sends is SIGSTOP or SIGTERM, to a process that is
      not protected and that an enabled rule names with that signal's action. */
  lemma {:induction false} EnforceEachSignals(rules: seq<ProcessRule>, table: Cooldowns, run: Runner, now: real)
    requires forall r :: r in rules ==> r.isEnabled
    ensures forall c :: c in EnforceEach(rules, table, run, now).issued && c.Pkill? ==>
      && c.signal != CONT && !IsProtected(c.name)
      && exists r :: r in rules && r.processName == c.name && SignalFor(r.action) == c.signal
    decreases |rules|
  {
    if rules != [] {
      var rule := rules[0];
      var tail := rules[1..];
      var first := EnforceRule(rule, table, run, now);
      EnforceEachSignals(tail, first.coolDown, run, now);
      assert forall r :: r in tail ==> r in rules;
      var all := EnforceEach(rules, table, run, now);
      assert all.issued == first.issued + EnforceEach(tail, first.coolDown, run, now).issued;
      forall c | c in all.issued && c.Pkill?
        ensures exists r :: r in rules && r.processName == c.name && SignalFor(r.action) == c.signal
      {
        if c in first.issued {
          assert rule in rules;
        }
      }
    }
  }

  /** A tick acts on a process and action exactly when an enabled rule names
      them, the process is running and not protected, and they are off
      cooldown; it acts at most once on each, stamps what it acts on with
      `now`, and leaves the rest of the table alone. */
  lemma EnforceActsExactly(rules: seq<ProcessRule>, table: Cooldowns, run: Runner, now: real, process: string, action: RuleAction)
    ensures var t := Enforce(rules, table, run, now);
      var key := CooldownKey(process, action);
      && ((exists a :: a in t.actions && a.processName == process && a.action == action) <==>
          (exists r :: r in rules && r.processName == process && r.action == action && Eligible(r, table, run, now)))
      && (Acted(t.actions, key) ==> key in t.coolDown && t.coolDown[key] == now)
      && (!Acted(t.actions, key) ==> (key in t.coolDown <==> key in table) && (key in table ==> t.coolDown[key] == table[key]))
  {
    var active := ActiveRules(rules);
    var key := CooldownKey(process, action);
    EnforceEachOnKey(active, table, run, now, key);
    var t := Enforce(rules, table, run, now);
    forall a | a in t.actions
      ensures LogKey(a) == key <==> a.processName == process && a.action == action
    {
      CooldownKeyInjective(a.processName, a.action, process, action);
    }
    forall r | r in rules
      ensures RuleKey(r) == key <==> r.processName == process && r.action == action
    {
      CooldownKeyInjective(r.processName, r.action, process, action);
    }
  }

  /** A tick acts on each process and action at most once. */
  lemma EnforceOnce(rules: seq<ProcessRule>, table: Cooldowns, run: Runner, now: real)
    ensures var actions := Enforce(rules, table, run, now).actions;
      forall i, j :: 0 <= i < j < |actions| ==>
        actions[i].processName != actions[j].processName || actions[i].action != actions[j].action
  {
    EnforceEachOnce(ActiveRules(rules), table, run, now);
    var actions := Enforce(rules, table, run, now).actions;
    assert ActionKeysDistinct(actions);
    forall i, j | 0 <= i < j < |actions|
      ensures actions[i].processName != actions[j].processName || actions[i].action != actions[j].action
    {
      assert LogKey(actions[i]) != LogKey(actions[j]);
    }
  }

  /** A tick never signals a protected process, never sends SIGCONT, and
      sends SIGSTOP only to a process an enabled pause rule names. */
  lemma EnforceSparesProtected(rules: seq<ProcessRule>, table: Cooldowns, run: Runner, now: real)
    ensures forall c :: c in Enforce(rules, table, run, now).issued && c.Pkill? ==>
      && c.signal != CONT && !IsProtected(c.name)
      && (c.signal == STOP ==> exists r :: r in rules && r.isEnabled && r.processName == c.name && r.action == Pause)
  {
    EnforceEachSignals(ActiveRules(rules), table, run, now);
  }

  /** Every reported action carries the tick's time and a non-empty result. */
  lemma {:induction false} EnforceEachReports(rules: seq<ProcessRule>, table: Cooldowns, run: Runner, now: real)
    ensures forall a :: a in EnforceEach(rules, table, run, now).actions ==> a.date == now && a.result != []
    decreases |rules|
  {
    if rules != [] {
      var first := EnforceRule(rules[0], table, run, now);
      EnforceEachReports(rules[1..], first.coolDown, run, now);
    }
  }

  /** Each rule reports at most one action per tick. */
  lemma {:induction false} EnforceEachCount(rules: seq<ProcessRule>, table: Cooldowns, run: Runner, now: real)
    ensures |EnforceEach(rules, table, run, now).actions| <= |rules|
    decreases |rules|
  {
    if rules != [] {
      var first := EnforceRule(rules[0], table, run, now);
      EnforceEachCount(rules[1..], first.coolDown, run, now);
    }
  }

  // ---------------------------------------------------------------------------
  // Resuming
  // ---------------------------------------------------------------------------

  /** `resumePaused()`: SIGCONT to every process an enabled pause rule
      names, in rule order. */
  function ResumeCommands(rules: seq<ProcessRule>): (cs: seq<Invocation>)
    ensures forall c :: c in cs ==> c.Pkill? && c.signal == CONT
    ensures forall n :: Pkill(CONT, n) in cs <==> exists r :: r in rules && r.isEnabled && r.action == Pause && r.processName == n
    decreases |rules|
  {
    if rules == [] then []
    else
      var rest := ResumeCommands(rules[1..]);
      assert forall r :: r in rules <==> r == rules[0] || r in rules[1..];
      if rules[0].isEnabled && rules[0].action == Pause then [Pkill(CONT, rules[0].processName)] + rest
      else rest
  }

  /** Every process a tick stops is one that resuming under the same rules
      continues. */
  lemma StoppedAreResumed(rules: seq<ProcessRule>, table: Cooldowns, run: Runner, now: real, name: string)
    requires Pkill(STOP, name) in Enforce(rules, table, run, now).issued
    ensures Pkill(CONT, name) in ResumeCommands(rules)
  {
    EnforceSparesProtected(rules, table, run, now);
    var c := Pkill(STOP, name);
    assert c.Pkill? && c.signal == STOP;
  }

  // ---------------------------------------------------------------------------
  // The watchdog
  // ---------------------------------------------------------------------------

  /** The watchdog's state: gaming mode, whether the timer exists, the
      rules, the cooldown table, and the throttle's backup file on disk. */
  datatype Watchdog = Watchdog(
    isEnabled: bool,
    timerRunning: bool,
    rules: seq<ProcessRule>,
    coolDown: Cooldowns,
    backup: BackupFile)

  /** A freshly created service: off, no timer, no rules, an empty table. */
  function Initial(backup: BackupFile): Watchdog {
    Watchdog(false, false, [], map[], backup)
  }

  /** A fresh service is off with its timer stopped, so its timer firing
      does nothing. */
  lemma FreshWatchdogIdle(backup: BackupFile, run: Runner, now: real)
    ensures TimerMatchesMode(Initial(backup))
    ensures TimerFires(Initial(backup), run, now) == Step(Initial(backup), [], [])
  {
  }

  /** An operation's effect: the state after it, the commands it ran and the
      actions it reported. */
  datatype Step = Step(after: Watchdog, issued: seq<Invocation>, actions: seq<ActionLog>)

  /** What switching off needs to know: the order the backup's entries come in. */
  ghost predicate CanSwitch(w: Watchdog, enabled: bool, order: seq<string>) {
    !enabled && w.isEnabled && w.backup.Saved? ==> IsEnumeration(order, w.backup.entries)
  }

  /** `setEnabled`: nothing when the mode is unchanged; switching on
      throttles system updates, then starts the timer; switching off stops
      the timer, restores the settings, then resumes paused processes. */
  function SetEnabled(w: Watchdog, enabled: bool, run: Runner, saved: bool, order: seq<string>, removed: bool): (s: Step)
    requires CanSwitch(w, enabled, order)
    ensures s.actions == [] && s.after.rules == w.rules && s.after.coolDown == w.coolDown
    ensures s.after.isEnabled == enabled && s.after.timerRunning == (if enabled == w.isEnabled then w.timerRunning else enabled)
    ensures enabled == w.isEnabled ==> s == Step(w, [], [])
    ensures enabled != w.isEnabled && enabled ==> s.issued == Enable(w.backup, run, saved).issued
    ensures enabled != w.isEnabled && !enabled ==>
      s.issued == Disable(w.backup, order, removed).issued + ResumeCommands(w.rules)
  {
    if enabled == w.isEnabled then Step(w, [], [])
    else if enabled then
      var on := Enable(w.backup, run, saved);
      Step(w.(isEnabled := true, timerRunning := true, backup := on.file), on.issued, [])
    else
      var off := Disable(w.backup, order, removed);
      Step(w.(isEnabled := false, timerRunning := false, backup := off.file), off.issued + ResumeCommands(w.rules), [])
  }

  /** `updateRules`: the rules are replaced, nothing else changes. */
  function UpdateRules(w: Watchdog, rules: seq<ProcessRule>): (s: Step)
    ensures s.after.rules == rules && s.after.(rules := w.rules) == w
    ensures s.issued == [] && s.actions == []
  {
    Step(w.(rules := rules), [], [])
  }

  /** The timer firing at `now`: a pass of `enforce()` if the timer exists. */
  function TimerFires(w: Watchdog, run: Runner, now: real): (s: Step)
    ensures !w.timerRunning ==> s == Step(w, [], [])
    ensures s.after == w.(coolDown := s.after.coolDown)
  {
    if !w.timerRunning then Step(w, [], [])
    else
      var t := Enforce(w.rules, w.coolDown, run, now);
      Step(w.(coolDown := t.coolDown), t.issued, t.actions)
  }

  /** Whatever can happen to the watchdog. */
  datatype Event =
    | Switch(enabled: bool, run: Runner, saved: bool, order: seq<string>, removed: bool)
    | NewRules(rules: seq<ProcessRule>)
    | Fire(run: Runner, now: real)

  ghost predicate Permitted(w: Watchdog, e: Event) {
    e.Switch? ==> CanSwitch(w, e.enabled, e.order)
  }

  function Handle(w: Watchdog, e: Event): Step
    requires Permitted(w, e)
  {
    match e
    case Switch(enabled, run, saved, order, removed) => SetEnabled(w, enabled, run, saved, order, removed)
    case NewRules(rules) => UpdateRules(w, rules)
    case Fire(run, now) => TimerFires(w, run, now)
  }

  /** A sequence of events each permitted in the state the earlier ones left. */
  ghost predicate PermittedTrace(w: Watchdog, events: seq<Event>)
    decreases |events|
  {
    events == [] || (Permitted(w, events[0]) && PermittedTrace(Handle(w, events[0]).after, events[1..]))
  }

  function Replay(w: Watchdog, events: seq<Event>): Watchdog
    requires PermittedTrace(w, events)
    decreases |events|
  {
    if events == [] then w else Replay(Handle(w, events[0]).after, events[1..])
  }

  /** The timer exists exactly while gaming mode is on. */
  predicate TimerMatchesMode(w: Watchdog) {
    w.timerRunning == w.isEnabled
  }

  /** Every operation keeps the timer in step with the mode. */
  lemma HandleKeepsTimer(w: Watchdog, e: Event)
    requires TimerMatchesMode(w) && Permitted(w, e)
    ensures TimerMatchesMode(Handle(w, e).after)
  {
  }

  /** From a fresh service, whatever happens, the timer runs exactly while
      gaming mode is on. */
  lemma {:induction false} ReplayKeepsTimer(w: Watchdog, events: seq<Event>)
    requires TimerMatchesMode(w) && PermittedTrace(w, events)
    ensures TimerMatchesMode(Replay(w, events))
    decreases |events|
  {
    if events != [] {
      HandleKeepsTimer(w, events[0]);
      ReplayKeepsTimer(Handle(w, events[0]).after, events[1..]);
    }
  }

  /** With gaming mode off, the timer firing does nothing at all. */
  lemma OffMeansIdle(w: Watchdog, run: Runner, now: real)
    requires TimerMatchesMode(w) && !w.isEnabled
    ensures TimerFires(w, run, now) == Step(w, [], [])
  {
  }

  /** Two passes less than three seconds apart never act on the same process
      and action, even if the rules change in between. */
  lemma NoRepeatWithinCooldown(w: Watchdog, run: Runner, now: real, rules: seq<ProcessRule>, run2: Runner, later: real,
                               process: string, action: RuleAction)
    requires now <= later < now + CooldownSeconds
    ensures var first := TimerFires(w, run, now);
      var second := TimerFires(UpdateRules(first.after, rules).after, run2, later);
      !((exists a :: a in first.actions && a.processName == process && a.action == action) &&
        (exists a :: a in second.actions && a.processName == process && a.action == action))
  {
    var first := TimerFires(w, run, now);
    var mid := UpdateRules(first.after, rules).after;
    if w.timerRunning && mid.timerRunning {
      var key := CooldownKey(process, action);
      EnforceActsExactly(w.rules, w.coolDown, run, now, process, action);
      EnforceActsExactly(mid.rules, mid.coolDown, run2, later, process, action);
      if exists a :: a in first.actions && a.processName == process && a.action == action {
        var a :| a in first.actions && a.processName == process && a.action == action;
        assert LogKey(a) == key;
        assert mid.coolDown[key] == now;
        forall r | r in rules && r.processName == process && r.action == action
          ensures !Eligible(r, mid.coolDown, run2, later)
        {
          assert RuleKey(r) == key;
        }
      }
    }
  }

  /** SIGCONT changes no setting. */
  lemma ResumeLeavesSettings(db: Database, rules: seq<ProcessRule>, a: Address)
    ensures Lookup(ApplyAll(db, ResumeCommands(rules)), a) == Lookup(db, a)
  {
    var cs := ResumeCommands(rules);
    forall i | 0 <= i < |cs|
      ensures Target(cs[i]) != Some(a)
    {
      assert cs[i] in cs;
    }
    ApplyAllElsewhere(db, cs, a);
  }

  /** Switching gaming mode on and then off puts back every throttled
      setting whose value survives the backup, whatever the settings hold in
      between, whatever order the backup is read back in, and whatever the
      rules are by then. */
  lemma SwitchOnOffRestores(w: Watchdog, db: Database, run: Runner, rules: seq<ProcessRule>,
                            between: Database, order: seq<string>, removed: bool, i: nat)
    requires !w.isEnabled
    requires AnswersReads(run, db, Addresses(Settings))
    requires IsEnumeration(order, Backup(run, Settings))
    requires i < |Settings| && Restorable(Lookup(db, AddressOf(Settings[i])))
    ensures var on := SetEnabled(w, true, run, true, [], removed).after;
      var off := SetEnabled(UpdateRules(on, rules).after, false, run, true, order, removed);
      Lookup(ApplyAll(between, off.issued), AddressOf(Settings[i])) == Lookup(db, AddressOf(Settings[i]))
  {
    var on := SetEnabled(w, true, run, true, [], removed).after;
    assert on.backup == Saved(Backup(run, Settings));
    var mid := UpdateRules(on, rules).after;
    var restore := Disable(mid.backup, order, removed).issued;
    RestoreUndoesEnable(db, between, run, order, i);
    ApplyAllAppend(between, restore, ResumeCommands(rules));
    ResumeLeavesSettings(ApplyAll(between, restore), rules, AddressOf(Settings[i]));
  }
}

=== FILE: defaults.dfy ===
/**
  The user-defaults database the throttle reads and rewrites, reduced to what
  the throttle's commands do to it: a key holds a boolean, a text or a value
  an untyped write parsed as a property list; `read` prints it, `write` sets
  it and `delete` removes it. This is a model of the `defaults` tool, against
  which the throttle's round trip is stated. Integers, reals and dates are
  not modelled, and a parsed value is not taken apart.
 */
module DefaultsDatabase {
  import opened Optional
  import opened Commands

  /** A stored value. `Parsed(source)` is whatever an untyped write made of
      the text `source` when it reads as an old-style property list other
      than a plain word: an array, a dictionary, data, or the string a
      quoted text denotes. */
  datatype Value = Flag(on: bool) | Text(text: string) | Parsed(source: string)

  /** A (domain, key) address. */
  type Address = (string, string)

  type Database = map<Address, Value>

  function Lookup(db: Database, a: Address): Option<Value> {
    if a in db then Some(db[a]) else None
  }

  /** What `defaults read <domain> <key>` prints: 1 or 0 for a boolean, the
      text for a text, each followed by a line break; nothing for an absent
      key, since the command then fails. A parsed value is printed as the
      text it was parsed from. */
  function ReadOutput(v: Option<Value>): string {
    match v
    case None => ""
    case Some(Flag(b)) => (if b then "1" else "0") + "\n"
    case Some(Text(t)) => t + "\n"
    case Some(Parsed(source)) => source + "\n"
  }

  /** Text an untyped `defaults write` parses as a structured property list:
      it opens an array, a dictionary, data or a quoted string. */
  predicate PlistShaped(v: string) {
    v != [] && (v[0] == '(' || v[0] == '{' || v[0] == '<' || v[0] == '"')
  }

  /** What an untyped `defaults write <domain> <key> <v>` stores: the text
      itself, unless it reads as a structured property list. */
  function StringWrite(v: string): (r: Value)
    ensures r == Text(v) <==> !PlistShaped(v)
    ensures r.Text? || r == Parsed(v)
  {
    if PlistShaped(v) then Parsed(v) else Text(v)
  }

  /** The runner answers each read of these addresses as the database would. */
  ghost predicate AnswersReads(run: Runner, db: Database, addresses: seq<Address>) {
    forall i :: 0 <= i < |addresses| ==>
      Output(run, DefaultsRead(addresses[i].0, addresses[i].1)) == ReadOutput(Lookup(db, addresses[i]))
  }

  /** The address an invocation changes, if it changes one. */
  function Target(c: Invocation): Option<Address> {
    match c
    case DefaultsWriteFalse(d, k) => Some((d, k))
    case DefaultsDelete(d, k) => Some((d, k))
    case DefaultsWriteBool(d, k, _) => Some((d, k))
    case DefaultsWriteString(d, k, _) => Some((d, k))
    case _ => None
  }

  /** What a changing invocation leaves at its address. */
  function Written(c: Invocation): Option<Value>
    requires Target(c).Some?
  {
    match c
    case DefaultsWriteFalse(_, _) => Some(Flag(false))
    case DefaultsDelete(_, _) => None
    case DefaultsWriteBool(_, _, b) => Some(Flag(b))
    case DefaultsWriteString(_, _, v) => Some(StringWrite(v))
  }

  /** The database after one invocation. */
  function Apply(db: Database, c: Invocation): (r: Database)
    ensures forall a :: Some(a) != Target(c) ==> Lookup(r, a) == Lookup(db, a)
    ensures Target(c).Some? ==> Lookup(r, Target(c).value) == Written(c)
  {
    match Target(c)
    case None => db
    case Some(a) =>
      match Written(c)
      case None => db - {a}
      case Some(v) => db[a := v]
  }

  /** The database after a sequence of invocations, in order. */
  function ApplyAll(db: Database, cs: seq<Invocation>): Database
    decreases |cs|
  {
    if cs == [] then db else ApplyAll(Apply(db, cs[0]), cs[1..])
  }

  /** Invocations that do not change an address leave it as it was. */
  lemma {:induction false} ApplyAllElsewhere(db: Database, cs: seq<Invocation>, a: Address)
    requires forall i :: 0 <= i < |cs| ==> Target(cs[i]) != Some(a)
    ensures Lookup(ApplyAll(db, cs), a) == Lookup(db, a)
    decreases |cs|
  {
    if cs != [] {
      assert forall i :: 0 <= i < |cs[1..]| ==> cs[1..][i] == cs[i + 1];
      ApplyAllElsewhere(Apply(db, cs[0]), cs[1..], a);
    }
  }

  /** Running two sequences one after the other is running their concatenation. */
  lemma {:induction false} ApplyAllAppend(db: Database, xs: seq<Invocation>, ys: seq<Invocation>)
    ensures ApplyAll(db, xs + ys) == ApplyAll(ApplyAll(db, xs), ys)
    decreases |xs|
  {
    if xs == [] {
      assert xs + ys == ys;
    } else {
      assert (xs + ys)[0] == xs[0];
      assert (xs + ys)[1..] == xs[1..] + ys;
      ApplyAllAppend(Apply(db, xs[0]), xs[1..], ys);
    }
  }

  /** An address ends up with what the last invocation changing it wrote. */
  lemma LastWriteWins(db: Database, cs: seq<Invocation>, k: nat, a: Address)
    requires k < |cs| && Target(cs[k]) == Some(a)
    requires forall j :: k < j < |cs| ==> Target(cs[j]) != Some(a)
    ensures Lookup(ApplyAll(db, cs), a) == Written(cs[k])
  {
    var upTo := cs[..k + 1];
    var after := cs[k + 1..];
    assert cs == upTo + after;
    ApplyAllAppend(db, upTo, after);
    assert forall j :: 0 <= j < |after| ==> after[j] == cs[k + 1 + j];
    ApplyAllElsewhere(ApplyAll(db, upTo), after, a);
    assert upTo == cs[..k] + [cs[k]];
    ApplyAllAppend(db, cs[..k], [cs[k]]);
    assert [cs[k]][1..] == [];
  }
}

=== FILE: models.dfy ===
/**
  The records shared by the services and the app model: rule actions, log
  filters, rules, usage samples, recommendations and action-log entries.
 */
module Models {
  import opened Optional
  import opened Strings

  // ---------------------------------------------------------------------------
  // Rule actions
  // ---------------------------------------------------------------------------

  datatype RuleAction = Pause | Terminate

  /** The raw value the action is stored under (and written to rules.json). */
  function ActionRawValue(a: RuleAction): string {
    match a
    case Pause => "pause"
    case Terminate => "terminate"
  }

  /** The label shown for the action. */
  function ActionTitle(a: RuleAction): string {
    match a
    case Pause => "Пауза"
    case Terminate => "Завершить"
  }

  /** Decoding a raw value, as `RuleAction(rawValue:)` does. */
  function ActionFromRawValue(s: string): (r: Option<RuleAction>)
    ensures r.Some? ==> ActionRawValue(r.value) == s
  {
    if s == "pause" then Some(Pause)
    else if s == "terminate" then Some(Terminate)
    else None
  }

  /** Every action decodes back from its raw value, and the two actions have
      distinct titles. */
  lemma ActionRawValueRoundTrip(a: RuleAction)
    ensures ActionFromRawValue(ActionRawValue(a)) == Some(a)
    ensures ActionTitle(a) == ActionTitle(Pause) <==> a == Pause
  {
    assert "terminate" != "pause" by { assert |"terminate"| != |"pause"|; }
    assert "Завершить" != "Пауза" by { assert |"Завершить"| != |"Пауза"|; }
  }

  // ---------------------------------------------------------------------------
  // Log filters
  // ---------------------------------------------------------------------------

  datatype LogViewFilter = InfoFilter | DebugFilter | WarningFilter | ErrorFilter

  function FilterTitle(f: LogViewFilter): string {
    match f
    case InfoFilter => "INFO"
    case DebugFilter => "DEBUG"
    case WarningFilter => "WARN"
    case ErrorFilter => "ERROR"
  }

  /** The text a log line must contain to pass the filter. */
  function FilterToken(f: LogViewFilter): (t: string)
    ensures |t| == |FilterTitle(f)| + 2
    ensures t[0] == '[' && t[|t| - 1] == ']' && t[1..|t| - 1] == FilterTitle(f)
  {
    "[" + FilterTitle(f) + "]"
  }

  // ---------------------------------------------------------------------------
  // Rules
  // ---------------------------------------------------------------------------

  /** A rule's `UUID`, kept opaque: only equality is ever asked of it. */
  datatype RuleId = RuleId(value: nat)

  datatype ProcessRule = ProcessRule(
    id: RuleId,
    processName: string,
    action: RuleAction,
    isEnabled: bool,
    isDefault: bool)

  /** `ProcessRule.init`, whose flags default to enabled and not default. */
  function NewRule(id: RuleId, processName: string, action: RuleAction,
                   isEnabled: bool := true, isDefault: bool := false): (r: ProcessRule)
    ensures r.id == id && r.processName == processName && r.action == action
    ensures r.isEnabled == isEnabled && r.isDefault == isDefault
  {
    ProcessRule(id, processName, action, isEnabled, isDefault)
  }

  /** A rule built without explicit flags is enabled and is not a default one. */
  lemma NewRuleDefaults(id: RuleId, processName: string, action: RuleAction)
    ensures NewRule(id, processName, action).isEnabled
    ensures !NewRule(id, processName, action).isDefault
  {
  }

  // ---------------------------------------------------------------------------
  // Usage samples
  // ---------------------------------------------------------------------------

  datatype ProcessUsage = ProcessUsage(
    pid: int,
    processName: string,
    bytesInPerSecond: real,
    bytesOutPerSecond: real,
    timestamp: real)
  {
    /** The combined rate the snapshot is ordered by. */
    function TotalPerSecond(): real {
      bytesInPerSecond + bytesOutPerSecond
    }
  }

  /** A usage's `id`: the process name, a dash, then the pid. */
  function UsageId(u: ProcessUsage): string {
    u.processName + "-" + ShowInt(u.pid)
  }

  /** Reads a usage id back into its name and pid: the name is everything
      before the last dash. */
  function SplitUsageId(id: string): Option<(string, int)> {
    match LastIndexOf(id, '-')
    case None => None
    case Some(i) =>
      match ParseInt(id[i + 1..])
      case None => None
      case Some(pid) => Some((id[..i], pid))
  }

  /** For a non-negative pid the id determines the name and the pid, so two
      usages with the same id are the same process. */
  lemma UsageIdRoundTrip(u: ProcessUsage)
    requires 0 <= u.pid <= Int64Max
    ensures SplitUsageId(UsageId(u)) == Some((u.processName, u.pid))
  {
    var id := UsageId(u);
    var n := u.processName;
    assert AllDigits(ShowInt(u.pid));
    assert id == n + "-" + ShowInt(u.pid);
    var i := |n|;
    assert id[i + 1..] == ShowInt(u.pid);
    LastIndexOfJoined(n, '-', ShowInt(u.pid));
    ParseShowInt(u.pid);
    assert id[..i] == n;
  }

  // ---------------------------------------------------------------------------
  // Recommendations and the action log
  // ---------------------------------------------------------------------------

  /** Why a busy process is listed, in the order the app checks them. */
  datatype Reason = ProtectedProcess | AlreadyRuled | HighTraffic | MediumActivity

  function ReasonText(r: Reason): string {
    match r
    case ProtectedProcess => "Защищенный игровой/безопасностный процесс."
    case AlreadyRuled => "Уже контролируется вашими правилами."
    case HighTraffic => "Высокий сетевой трафик прямо сейчас. Стоит добавить в авто-контроль."
    case MediumActivity => "Средняя активность. Наблюдайте во время матча."
  }

  /** The four reason texts differ, so a reason stands for its text. */
  lemma ReasonTextDistinct(a: Reason, b: Reason)
    ensures ReasonText(a) == ReasonText(b) <==> a == b
  {
    if ReasonText(a) == ReasonText(b) {
      assert ReasonText(a)[0] == ReasonText(b)[0];
    }
  }

  datatype RecommendationItem = RecommendationItem(processName: string, reason: Reason, note: string)

  /** One applied enforcement action, as the watchdog reports it. */
  datatype ActionLog = ActionLog(date: real, processName: string, action: RuleAction, result: string)
}

=== FILE: monitor.dfy ===
/**
  The usage sampler. Each tick reads the text `nettop` prints, parses it
  into per-process cumulative byte counters, turns those into rates against
  the counters seen on earlier ticks, drops the entries at or below the
  noise floor and orders the rest by combined rate, largest first.
 */
module NetworkMonitor {
  import opened Optional
  import opened Strings
  import opened Models

  /** One accepted `nettop` row: cumulative bytes in and out of a process. */
  datatype Row = Row(pid: int, process: string, bytesIn: nat, bytesOut: nat)

  /** Combined rates at or below this many bytes per second are not reported. */
  const NoiseFloor: real := 64.0

  // ---------------------------------------------------------------------------
  // Parsing
  // ---------------------------------------------------------------------------

  /** `Double(field) ?? 0` on a byte column: a run of decimal digits, with an
      optional '+', reads as its value; anything else reads as 0. */
  function ParseCounter(field: string): (n: nat)
    ensures field != [] && AllDigits(field) ==> n == DigitsValue(field)
    ensures |field| > 1 && field[0] == '+' && AllDigits(field[1..]) ==> n == DigitsValue(field[1..])
    ensures field == [] || field == "+" ==> n == 0
    ensures field != [] && field[0] != '+' && !IsDigit(field[0]) ==> n == 0
    ensures (exists i :: 0 < i < |field| && !IsDigit(field[i])) ==> n == 0
  {
    var body := if |field| > 0 && field[0] == '+' then field[1..] else field;
    assert forall i :: 0 < i < |field| && field[0] == '+' ==> field[i] == body[i - 1];
    if body != [] && AllDigits(body) then DigitsValue(body) else 0
  }

  lemma ParseCounterRoundTrip(n: nat)
    ensures ParseCounter(ShowNat(n)) == n
  {
    ShowNatRoundTrip(n);
  }

  /** Splits `name.pid` at the last dot into a trimmed name and a trimmed,
      parsed pid; a missing dot or an unparseable pid gives -1. */
  function SplitProcess(input: string): (r: (string, int))
    ensures '.' !in input ==> r == (input, -1)
    ensures r.1 != -1 ==> '.' in input
  {
    match LastIndexOf(input, '.')
    case None => (input, -1)
    case Some(dot) =>
      (Trim(input[..dot]), ParseInt(Trim(input[dot + 1..])).GetOr(-1))
  }

  /** With a dot in the field, the name is the trimmed text before the last
      dot and the pid the text after it, trimmed and parsed; text that is not
      a 64-bit integer gives -1. */
  lemma SplitProcessAtLastDot(input: string, dot: nat)
    requires dot < |input| && input[dot] == '.' && '.' !in input[dot + 1..]
    ensures SplitProcess(input).0 == Trim(input[..dot])
    ensures ParseInt(Trim(input[dot + 1..])).None? ==> SplitProcess(input).1 == -1
    ensures ParseInt(Trim(input[dot + 1..])).Some? ==> SplitProcess(input).1 == ParseInt(Trim(input[dot + 1..])).value
  {
    LastIndexOfIsLast(input, '.', dot);
  }

  /** Splitting undoes `name + "." + pid`: the name comes back trimmed and
      the pid exactly, since a rendered pid holds no dot. */
  lemma SplitProcessRoundTrip(name: string, pid: int)
    requires Int64Min <= pid <= Int64Max
    ensures SplitProcess(name + "." + ShowInt(pid)) == (Trim(name), pid)
  {
    var digits := ShowInt(pid);
    var s := name + "." + digits;
    ShowIntHasNo(pid, '.');
    LastIndexOfJoined(name, '.', digits);
    assert LastIndexOf(s, '.') == Some(|name|);
    assert s[..|name|] == name;
    assert s[|name| + 1..] == digits;
    ShowIntTrimmed(pid);
    ParseShowInt(pid);
    assert ParseInt(Trim(digits)) == Some(pid);
  }

  /** One line of `nettop` output, as `parse(raw:)` reads it: the header
      line, rows with five columns or fewer, rows with an empty process
      column, rows whose byte columns are both 0, and rows without a positive
      pid give nothing. */
  function ParseLine(line: string): (r: Option<Row>)
    ensures r.Some? ==> r.value.pid > 0 && (r.value.bytesIn > 0 || r.value.bytesOut > 0)
    ensures "time," <= line ==> r.None?
    ensures |Split(line, ',')| <= 5 ==> r.None?
    ensures |Split(line, ',')| > 5 && Trim(Split(line, ',')[1]) == [] ==> r.None?
    ensures |Split(line, ',')| > 5 && ParseCounter(Split(line, ',')[4]) == 0 && ParseCounter(Split(line, ',')[5]) == 0 ==> r.None?
    ensures |Split(line, ',')| > 5 && Trim(Split(line, ',')[1]) != [] && SplitProcess(Trim(Split(line, ',')[1])).1 <= 0 ==> r.None?
    ensures r.Some? ==>
      var cols := Split(line, ',');
      |cols| > 5 && !("time," <= line) &&
      (r.value.process, r.value.pid) == SplitProcess(Trim(cols[1])) &&
      r.value.bytesIn == ParseCounter(cols[4]) && r.value.bytesOut == ParseCounter(cols[5])
  {
    if "time," <= line then None
    else
      var cols := Split(line, ',');
      if |cols| <= 5 then None
      else
        var procField := Trim(cols[1]);
        if procField == [] then None
        else
          var bytesIn := ParseCounter(cols[4]);
          var bytesOut := ParseCounter(cols[5]);
          if !(bytesIn > 0 || bytesOut > 0) then None
          else
            var (name, pid) := SplitProcess(procField);
            if pid <= 0 then None
            else Some(Row(pid, name, bytesIn, bytesOut))
  }

  /** The accepted rows of a sequence of lines, in order. */
  function ParseLines(lines: seq<string>): (rows: seq<Row>)
    ensures |rows| <= |lines|
    ensures forall i :: 0 <= i < |rows| ==> rows[i].pid > 0 && (rows[i].bytesIn > 0 || rows[i].bytesOut > 0)
  {
    CompactMap(ParseLine, lines)
  }

  /** Lines are parsed one at a time: a line yields its own row or nothing. */
  lemma ParseOneLine(line: string)
    ensures ParseLines([line]) == if ParseLine(line).Some? then [ParseLine(line).value] else []
  {
    CompactMapOne(ParseLine, line);
  }

  /** Parsing two runs of lines one after the other gives the rows of the
      first followed by the rows of the second. */
  lemma ParseLinesAppend(xs: seq<string>, ys: seq<string>)
    ensures ParseLines(xs + ys) == ParseLines(xs) + ParseLines(ys)
  {
    CompactMapAppend(ParseLine, xs, ys);
  }

  /** `parse(raw:)`: the non-empty lines of the output, parsed in order;
      every row comes from one line of the output. */
  function Parse(raw: string): (rows: seq<Row>)
    ensures |rows| <= |SplitNonEmpty(raw, '\n')|
    ensures forall i :: 0 <= i < |rows| ==> rows[i].pid > 0 && (rows[i].bytesIn > 0 || rows[i].bytesOut > 0)
  {
    ParseLines(SplitNonEmpty(raw, '\n'))
  }

  /** Every parsed row is the parse of one non-empty line of the output. */
  lemma ParsedRowsComeFromLines(raw: string)
    ensures forall row :: row in Parse(raw) ==> exists line :: line in SplitNonEmpty(raw, '\n') && ParseLine(line) == Some(row)
  {
    CompactMapFrom(ParseLine, SplitNonEmpty(raw, '\n'));
  }

  /** A `nettop` data row rendered from its fields: time, `name.pid`, two
      further columns, then bytes in and bytes out. */
  function RenderRow(time: string, row: Row, c2: string, c3: string): string {
    Join([time, row.process + "." + ShowInt(row.pid), c2, c3, ShowNat(row.bytesIn), ShowNat(row.bytesOut)], ',')
  }

  /** The columns of a rendered row are the fields it was rendered from. */
  lemma RenderedRowColumns(time: string, row: Row, c2: string, c3: string)
    requires ',' !in time && ',' !in row.process && ',' !in c2 && ',' !in c3
    ensures Split(RenderRow(time, row, c2, c3), ',') ==
      [time, row.process + "." + ShowInt(row.pid), c2, c3, ShowNat(row.bytesIn), ShowNat(row.bytesOut)]
  {
    var proc := row.process + "." + ShowInt(row.pid);
    var parts := [time, proc, c2, c3, ShowNat(row.bytesIn), ShowNat(row.bytesOut)];
    ShowIntHasNo(row.pid, ',');
    assert ',' !in ShowNat(row.bytesIn) && ',' !in ShowNat(row.bytesOut);
    assert ',' !in proc;
    SplitJoin(parts, ',');
  }

  /** A line whose first column is not "time" is not the header. */
  lemma NotHeader(time: string, rest: string)
    requires ',' !in time && time != "time"
    ensures !("time," <= time + [','] + rest)
  {
    var line := time + [','] + rest;
    if |time| >= 5 {
      assert line[4] == time[4];
    } else {
      assert line[|time|] == ',';
      assert |time| == 4 ==> line[..4] == time;
    }
  }

  /** `name.pid` has no surrounding whitespace when the name has none. */
  lemma ProcFieldTrimmed(name: string, pid: int)
    requires EdgesTrimmed(name) && pid >= 0
    ensures EdgesTrimmed(name + "." + ShowInt(pid))
  {
    var proc := name + "." + ShowInt(pid);
    assert IsDigit(proc[|proc| - 1]);
    if name == [] { assert proc[0] == '.'; } else { assert proc[0] == name[0]; }
  }

  /** Parsing reads back a rendered row: the pid and both counters exactly,
      and the name as written when it has no surrounding whitespace. */
  lemma ParseRenderedRow(time: string, row: Row, c2: string, c3: string)
    requires ',' !in time && ',' !in row.process && ',' !in c2 && ',' !in c3
    requires time != "time"
    requires EdgesTrimmed(row.process)
    requires 0 < row.pid <= Int64Max
    requires row.bytesIn > 0 || row.bytesOut > 0
    ensures ParseLine(RenderRow(time, row, c2, c3)) == Some(row)
  {
    var line := RenderRow(time, row, c2, c3);
    var proc := row.process + "." + ShowInt(row.pid);
    var cols := Split(line, ',');
    RenderedRowColumns(time, row, c2, c3);
    assert line == time + [','] + Join(cols[1..], ',');
    NotHeader(time, Join(cols[1..], ','));
    ProcFieldTrimmed(row.process, row.pid);
    assert Trim(cols[1]) == proc;
    SplitProcessRoundTrip(row.process, row.pid);
    assert SplitProcess(proc) == (row.process, row.pid);
    ParseCounterRoundTrip(row.bytesIn);
    ParseCounterRoundTrip(row.bytesOut);
    assert !("time," <= line);
    assert |cols| == 6;
    assert ParseCounter(cols[4]) == row.bytesIn;
    assert ParseCounter(cols[5]) == row.bytesOut;
  }

  // ---------------------------------------------------------------------------
  // Rates
  // ---------------------------------------------------------------------------

  datatype Counters = Counters(bytesIn: nat, bytesOut: nat)

  /** The sampler's state between ticks: the last totals seen per pid and
      the time of the previous tick. */
  datatype Monitor = Monitor(previousTotals: map<int, Counters>, lastDate: real)

  /** The sampler as constructed at `now`: no totals seen yet. */
  function NewMonitor(now: real): Monitor {
    Monitor(map[], now)
  }

  /** The totals last seen for a pid, (0, 0) for a pid never seen. */
  function Previous(totals: map<int, Counters>, pid: int): (c: Counters)
    ensures pid !in totals ==> c == Counters(0, 0)
    ensures pid in totals ==> c == totals[pid]
  {
    if pid in totals then totals[pid] else Counters(0, 0)
  }

  /** The seconds the rates are taken over: the time since the previous
      tick, but never less than one second. */
  function Elapsed(lastDate: real, now: real): (delta: real)
    ensures delta >= 1.0 && delta >= now - lastDate
    ensures delta == 1.0 || delta == now - lastDate
  {
    if now - lastDate > 1.0 then now - lastDate else 1.0
  }

  /** `max(0, current - previous) / delta`: the growth of a counter per
      second, 0 when the counter went backwards. */
  function Rate(current: nat, previous: nat, delta: real): (r: real)
    requires delta >= 1.0
    ensures r >= 0.0
    ensures current >= previous ==> r * delta == (current - previous) as real
    ensures current <= previous ==> r == 0.0
  {
    (if current > previous then (current - previous) as real else 0.0) / delta
  }

  /** The totals after a tick: each row in turn overwrites its pid's entry. */
  function Absorb(totals: map<int, Counters>, rows: seq<Row>): map<int, Counters>
    decreases |rows|
  {
    if rows == [] then totals
    else Absorb(totals[rows[0].pid := Counters(rows[0].bytesIn, rows[0].bytesOut)], rows[1..])
  }

  /** After a tick a pid is known when it was known before or appears in a
      row; the last row with a pid decides its totals, and a pid absent from
      the rows keeps the totals it had. */
  lemma AbsorbKeepsLastTotals(totals: map<int, Counters>, rows: seq<Row>)
    ensures var r := Absorb(totals, rows);
      && (forall pid :: pid in r <==> pid in totals || exists i :: 0 <= i < |rows| && rows[i].pid == pid)
      && (forall i :: 0 <= i < |rows| && (forall j :: i < j < |rows| ==> rows[j].pid != rows[i].pid) ==>
            r[rows[i].pid] == Counters(rows[i].bytesIn, rows[i].bytesOut))
      && (forall pid :: pid in totals && (forall i :: 0 <= i < |rows| ==> rows[i].pid != pid) ==>
            r[pid] == totals[pid])
  {
    AbsorbKnows(totals, rows);
    AbsorbLastWins(totals, rows);
    AbsorbElsewhere(totals, rows);
  }

  lemma {:induction false} AbsorbKnows(totals: map<int, Counters>, rows: seq<Row>)
    ensures forall pid :: pid in Absorb(totals, rows) <==>
      pid in totals || exists i :: 0 <= i < |rows| && rows[i].pid == pid
    decreases |rows|
  {
    if rows != [] {
      AbsorbKnows(totals[rows[0].pid := Counters(rows[0].bytesIn, rows[0].bytesOut)], rows[1..]);
      assert forall i :: 1 <= i < |rows| ==> rows[i] == rows[1..][i - 1];
    }
  }

  lemma {:induction false} AbsorbLastWins(totals: map<int, Counters>, rows: seq<Row>)
    ensures forall i :: 0 <= i < |rows| && (forall j :: i < j < |rows| ==> rows[j].pid != rows[i].pid) ==>
      rows[i].pid in Absorb(totals, rows) &&
      Absorb(totals, rows)[rows[i].pid] == Counters(rows[i].bytesIn, rows[i].bytesOut)
    decreases |rows|
  {
    if rows != [] {
      var next := totals[rows[0].pid := Counters(rows[0].bytesIn, rows[0].bytesOut)];
      var tail := rows[1..];
      AbsorbLastWins(next, tail);
      AbsorbElsewhere(next, tail);
      forall i | 0 <= i < |rows| && (forall j :: i < j < |rows| ==> rows[j].pid != rows[i].pid)
        ensures rows[i].pid in Absorb(totals, rows)
        ensures Absorb(totals, rows)[rows[i].pid] == Counters(rows[i].bytesIn, rows[i].bytesOut)
      {
        if i == 0 {
          forall j | 0 <= j < |tail| ensures tail[j].pid != rows[0].pid {
            assert tail[j] == rows[j + 1];
          }
        } else {
          assert tail[i - 1] == rows[i];
          forall j | i - 1 < j < |tail| ensures tail[j].pid != tail[i - 1].pid {
            assert tail[j] == rows[j + 1];
          }
        }
      }
    }
  }

  lemma {:induction false} AbsorbElsewhere(totals: map<int, Counters>, rows: seq<Row>)
    ensures forall pid :: pid in totals && (forall i :: 0 <= i < |rows| ==> rows[i].pid != pid) ==>
      pid in Absorb(totals, rows) && Absorb(totals, rows)[pid] == totals[pid]
    decreases |rows|
  {
    if rows != [] {
      AbsorbElsewhere(totals[rows[0].pid := Counters(rows[0].bytesIn, rows[0].bytesOut)], rows[1..]);
      assert forall i :: 1 <= i < |rows| ==> rows[i] == rows[1..][i - 1];
    }
  }

  /** Absorbing the first `i` rows is absorbing the first row, then the next
      `i - 1`. */
  lemma AbsorbPrefixes(totals: map<int, Counters>, rows: seq<Row>)
    requires rows != []
    ensures forall i :: 1 <= i <= |rows| ==>
      Absorb(totals, rows[..i]) ==
      Absorb(totals[rows[0].pid := Counters(rows[0].bytesIn, rows[0].bytesOut)], rows[1..][..i - 1])
  {
    forall i | 1 <= i <= |rows|
      ensures Absorb(totals, rows[..i]) ==
        Absorb(totals[rows[0].pid := Counters(rows[0].bytesIn, rows[0].bytesOut)], rows[1..][..i - 1])
    {
      assert rows[..i][0] == rows[0];
      assert rows[..i][1..] == rows[1..][..i - 1];
    }
  }

  /** The usage a row yields given the totals seen before it. */
  function UsageOf(row: Row, previous: Counters, delta: real, now: real): (u: ProcessUsage)
    requires delta >= 1.0
  {
    ProcessUsage(row.pid, row.process, Rate(row.bytesIn, previous.bytesIn, delta),
                 Rate(row.bytesOut, previous.bytesOut, delta), now)
  }

  /** The rate pass of a tick, before the noise floor: one usage per row,
      each measured against the totals left by the prior tick and the rows
      before it in this one; also the totals the tick leaves behind. */
  function Derive(totals: map<int, Counters>, rows: seq<Row>, delta: real, now: real)
    : (r: (map<int, Counters>, seq<ProcessUsage>))
    requires delta >= 1.0
    ensures r.0 == Absorb(totals, rows)
    ensures |r.1| == |rows|
    ensures forall i :: 0 <= i < |rows| ==>
      r.1[i] == UsageOf(rows[i], Previous(Absorb(totals, rows[..i]), rows[i].pid), delta, now)
    decreases |rows|
  {
    if rows == [] then (totals, [])
    else
      var row := rows[0];
      var u := UsageOf(row, Previous(totals, row.pid), delta, now);
      var next := totals[row.pid := Counters(row.bytesIn, row.bytesOut)];
      var rest := Derive(next, rows[1..], delta, now);
      AbsorbPrefixes(totals, rows);
      assert rows[..0] == [];
      (rest.0, [u] + rest.1)
  }

  /** The usages above the noise floor, in order. */
  function AboveFloor(us: seq<ProcessUsage>): (r: seq<ProcessUsage>)
    ensures multiset(r) <= multiset(us)
    ensures forall u :: u in r <==> u in us && u.TotalPerSecond() > NoiseFloor
    decreases |us|
  {
    if us == [] then []
    else
      var rest := AboveFloor(us[1..]);
      assert us == [us[0]] + us[1..];
      if us[0].TotalPerSecond() > NoiseFloor then [us[0]] + rest else rest
  }

  // ---------------------------------------------------------------------------
  // Ordering
  // ---------------------------------------------------------------------------

  ghost predicate SortedByTotal(us: seq<ProcessUsage>) {
    forall i, j :: 0 <= i < j < |us| ==> us[i].TotalPerSecond() >= us[j].TotalPerSecond()
  }

  function Insert(u: ProcessUsage, sorted: seq<ProcessUsage>): (r: seq<ProcessUsage>)
    requires SortedByTotal(sorted)
    ensures SortedByTotal(r)
    ensures multiset(r) == multiset(sorted) + multiset{u}
    ensures |r| > 0 && (r[0] == u || (|sorted| > 0 && r[0] == sorted[0]))
    decreases |sorted|
  {
    if sorted == [] || u.TotalPerSecond() >= sorted[0].TotalPerSecond() then [u] + sorted
    else
      var rest := Insert(u, sorted[1..]);
      assert sorted == [sorted[0]] + sorted[1..];
      InsertBelowHead(u, sorted, rest);
      [sorted[0]] + rest
  }

  /** What inserting below the head yields stays at or under the head. */
  lemma InsertBelowHead(u: ProcessUsage, sorted: seq<ProcessUsage>, rest: seq<ProcessUsage>)
    requires SortedByTotal(sorted) && sorted != []
    requires u.TotalPerSecond() < sorted[0].TotalPerSecond()
    requires SortedByTotal(rest) && multiset(rest) == multiset(sorted[1..]) + multiset{u}
    ensures SortedByTotal([sorted[0]] + rest)
  {
    var r := [sorted[0]] + rest;
    forall j | 1 <= j < |r| ensures r[0].TotalPerSecond() >= r[j].TotalPerSecond() {
      assert r[j] == rest[j - 1];
      assert r[j] in multiset(rest);
      if r[j] != u {
        assert r[j] in multiset(sorted[1..]);
        var k :| 0 <= k < |sorted[1..]| && sorted[1..][k] == r[j];
        assert sorted[k + 1] == r[j];
      }
    }
  }

  /** `sorted { $0.totalPerSecond > $1.totalPerSecond }`: the same usages,
      largest combined rate first. */
  function SortByTotal(us: seq<ProcessUsage>): (r: seq<ProcessUsage>)
    ensures SortedByTotal(r)
    ensures multiset(r) == multiset(us)
    decreases |us|
  {
    if us == [] then []
    else
      assert us == [us[0]] + us[1..];
      Insert(us[0], SortByTotal(us[1..]))
  }

  // ---------------------------------------------------------------------------
  // A tick
  // ---------------------------------------------------------------------------

  /** The result of one sampling tick: the sampler's next state and the
      snapshot handed to the app. */
  datatype Tick = Tick(monitor: Monitor, snapshot: seq<ProcessUsage>)

  /** Two sequences with the same multiset have the same members and length. */
  lemma SameMultiset(a: seq<ProcessUsage>, b: seq<ProcessUsage>)
    requires multiset(a) == multiset(b)
    ensures |a| == |b|
    ensures forall u :: u in a <==> u in b
  {
    assert |a| == |multiset(a)|;
    assert |b| == |multiset(b)|;
    forall u ensures u in a <==> u in b {
      assert u in a <==> u in multiset(a);
      assert u in b <==> u in multiset(b);
    }
  }

  /** A sub-multiset is no longer. */
  lemma SubMultisetShorter(a: seq<ProcessUsage>, b: seq<ProcessUsage>)
    requires multiset(a) <= multiset(b)
    ensures |a| <= |b|
  {
    assert |a| == |multiset(a)|;
    assert |b| == |multiset(b)|;
    assert multiset(b) == multiset(a) + (multiset(b) - multiset(a));
  }

  /** What `collect()` does with the parsed rows at `now`: derive rates over
      the elapsed time, keep the usages above the noise floor, largest first,
      and remember every row's totals. */
  function CollectRows(m: Monitor, rows: seq<Row>, now: real): (t: Tick)
    ensures t.monitor.lastDate == now
    ensures t.monitor.previousTotals == Absorb(m.previousTotals, rows)
    ensures SortedByTotal(t.snapshot)
    ensures |t.snapshot| <= |rows|
    ensures forall u :: u in t.snapshot ==> u.TotalPerSecond() > NoiseFloor && u.timestamp == now
    ensures forall u :: u in t.snapshot ==> u.bytesInPerSecond >= 0.0 && u.bytesOutPerSecond >= 0.0
  {
    var delta := Elapsed(m.lastDate, now);
    var derived := Derive(m.previousTotals, rows, delta, now);
    var kept := AboveFloor(derived.1);
    var snapshot := SortByTotal(kept);
    SameMultiset(snapshot, kept);
    SubMultisetShorter(kept, derived.1);
    assert forall u :: u in derived.1 ==> u.timestamp == now && u.bytesInPerSecond >= 0.0 && u.bytesOutPerSecond >= 0.0 by {
      forall u | u in derived.1
        ensures u.timestamp == now && u.bytesInPerSecond >= 0.0 && u.bytesOutPerSecond >= 0.0
      {
        var i :| 0 <= i < |derived.1| && derived.1[i] == u;
      }
    }
    Tick(Monitor(derived.0, now), snapshot)
  }

  /** `collect()`: parse the `nettop` output read at `now`, derive rates over
      the elapsed time, keep the usages above the noise floor, largest
      first, and remember every parsed row's totals. */
  function Collect(m: Monitor, raw: string, now: real): (t: Tick)
    ensures t.monitor.lastDate == now
    ensures t.monitor.previousTotals == Absorb(m.previousTotals, Parse(raw))
    ensures SortedByTotal(t.snapshot)
    ensures |t.snapshot| <= |Parse(raw)|
    ensures forall u :: u in t.snapshot ==> u.TotalPerSecond() > NoiseFloor && u.timestamp == now
    ensures forall u :: u in t.snapshot ==> u.bytesInPerSecond >= 0.0 && u.bytesOutPerSecond >= 0.0
  {
    CollectRows(m, Parse(raw), now)
  }

  /** A usage is in the snapshot exactly when the rate pass produced it and
      its combined rate is above the noise floor; every derived usage above
      the floor is reported as many times as it was derived. */
  lemma SnapshotIsAboveFloor(m: Monitor, raw: string, now: real)
    ensures var derived := Derive(m.previousTotals, Parse(raw), Elapsed(m.lastDate, now), now).1;
      && multiset(Collect(m, raw, now).snapshot) == multiset(AboveFloor(derived))
      && forall u :: u in Collect(m, raw, now).snapshot <==> u in derived && u.TotalPerSecond() > NoiseFloor
  {
    var derived := Derive(m.previousTotals, Parse(raw), Elapsed(m.lastDate, now), now).1;
    var snapshot := Collect(m, raw, now).snapshot;
    forall u ensures u in snapshot <==> u in AboveFloor(derived) {
      assert u in snapshot <==> u in multiset(snapshot);
    }
  }

  /** Rows for other pids leave a pid's previous totals alone. */
  lemma {:induction false} AbsorbOthers(totals: map<int, Counters>, rows: seq<Row>, pid: int)
    requires forall i :: 0 <= i < |rows| ==> rows[i].pid != pid
    ensures Previous(Absorb(totals, rows), pid) == Previous(totals, pid)
    decreases |rows|
  {
    if rows != [] {
      var next := totals[rows[0].pid := Counters(rows[0].bytesIn, rows[0].bytesOut)];
      assert forall i :: 0 <= i < |rows[1..]| ==> rows[1..][i] == rows[i + 1];
      AbsorbOthers(next, rows[1..], pid);
    }
  }

  /** The first row of a pid in a tick is measured against the totals the
      previous tick left for it. */
  lemma FirstRowAgainstPreviousTick(totals: map<int, Counters>, rows: seq<Row>, delta: real, now: real, i: nat)
    requires delta >= 1.0
    requires i < |rows|
    requires forall j :: 0 <= j < i ==> rows[j].pid != rows[i].pid
    ensures Derive(totals, rows, delta, now).1[i] == UsageOf(rows[i], Previous(totals, rows[i].pid), delta, now)
  {
    var before := rows[..i];
    assert forall j :: 0 <= j < |before| ==> before[j] == rows[j];
    AbsorbOthers(totals, before, rows[i].pid);
  }

  /** The rate of a pid seen on the previous tick and once in this one is
      its counters' growth divided by the elapsed time, and 0 for a counter
      that went backwards. */
  lemma RateAgainstPreviousTick(m: Monitor, raw: string, now: real, i: nat)
    requires i < |Parse(raw)|
    requires forall j :: 0 <= j < i ==> Parse(raw)[j].pid != Parse(raw)[i].pid
    ensures var row := Parse(raw)[i];
      var prev := Previous(m.previousTotals, row.pid);
      var u := Derive(m.previousTotals, Parse(raw), Elapsed(m.lastDate, now), now).1[i];
      && u.bytesInPerSecond == Rate(row.bytesIn, prev.bytesIn, Elapsed(m.lastDate, now))
      && u.bytesOutPerSecond == Rate(row.bytesOut, prev.bytesOut, Elapsed(m.lastDate, now))
  {
    FirstRowAgainstPreviousTick(m.previousTotals, Parse(raw), Elapsed(m.lastDate, now), now, i);
  }

  /** On the first tick of a fresh sampler every pid counts from zero: its
      rate is its whole counter over the time since the sampler was made. */
  lemma FreshMonitorRatesFromZero(created: real, raw: string, now: real, i: nat)
    requires i < |Parse(raw)|
    requires forall j :: 0 <= j < i ==> Parse(raw)[j].pid != Parse(raw)[i].pid
    ensures var m := NewMonitor(created);
      var row := Parse(raw)[i];
      var u := Derive(m.previousTotals, Parse(raw), Elapsed(created, now), now).1[i];
      && u.bytesInPerSecond == Rate(row.bytesIn, 0, Elapsed(created, now))
      && u.bytesOutPerSecond == Rate(row.bytesOut, 0, Elapsed(created, now))
  {
    RateAgainstPreviousTick(NewMonitor(created), raw, now, i);
  }
}

=== FILE: optional.dfy ===
/** Swift's `Optional`: a value that may be absent. */
module Optional {

  datatype Option<+T> = None | Some(value: T) {

    /** Swift's `x ?? default`. */
    function GetOr(default: T): T {
      match this
      case Some(v) => v
      case None => default
    }
  }

  /** The values present in `xs`, in order: Swift's `compactMap` over a
      closure that already ran. */
  function Somes<T>(xs: seq<Option<T>>): (r: seq<T>)
    ensures |r| <= |xs|
    ensures forall i :: 0 <= i < |r| ==> exists j :: 0 <= j < |xs| && xs[j] == Some(r[i])
    ensures forall j :: 0 <= j < |xs| && xs[j].Some? ==> xs[j].value in r
    decreases |xs|
  {
    if xs == [] then []
    else
      var rest := Somes(xs[1..]);
      assert forall j :: 1 <= j < |xs| ==> xs[j] == xs[1..][j - 1];
      match xs[0]
      case None => rest
      case Some(v) =>
        var r := [v] + rest;
        assert forall i :: 1 <= i < |r| ==> r[i] == rest[i - 1];
        r
  }

  /** Collecting two runs one after the other collects each in turn. */
  lemma {:induction false} SomesAppend<T>(xs: seq<Option<T>>, ys: seq<Option<T>>)
    ensures Somes(xs + ys) == Somes(xs) + Somes(ys)
    decreases |xs|
  {
    if xs == [] {
      assert xs + ys == ys;
    } else {
      assert (xs + ys)[0] == xs[0];
      assert (xs + ys)[1..] == xs[1..] + ys;
      SomesAppend(xs[1..], ys);
    }
  }

  /** `f` applied to each element of `xs`, in order. */
  function MapAll<A, B>(f: A -> B, xs: seq<A>): (r: seq<B>)
    ensures |r| == |xs|
    ensures forall j :: 0 <= j < |xs| ==> r[j] == f(xs[j])
  {
    seq(|xs|, j requires 0 <= j < |xs| => f(xs[j]))
  }

  /** Swift's `compactMap`: the values `f` gives for the elements of `xs`,
      in order, with the absent ones dropped. */
  function CompactMap<A, B>(f: A -> Option<B>, xs: seq<A>): (r: seq<B>)
    ensures |r| <= |xs|
    ensures forall i :: 0 <= i < |r| ==> exists j :: 0 <= j < |xs| && f(xs[j]) == Some(r[i])
  {
    Somes(MapAll(f, xs))
  }

  /** Mapping two runs one after the other maps each in turn. */
  lemma CompactMapAppend<A, B>(f: A -> Option<B>, xs: seq<A>, ys: seq<A>)
    ensures CompactMap(f, xs + ys) == CompactMap(f, xs) + CompactMap(f, ys)
  {
    assert MapAll(f, xs + ys) == MapAll(f, xs) + MapAll(f, ys);
    SomesAppend(MapAll(f, xs), MapAll(f, ys));
  }

  /** One element gives its own value or nothing. */
  lemma CompactMapOne<A, B>(f: A -> Option<B>, x: A)
    ensures CompactMap(f, [x]) == if f(x).Some? then [f(x).value] else []
  {
    assert MapAll(f, [x]) == [f(x)];
    assert MapAll(f, [x])[1..] == [];
  }

  /** Every value collected is the value of some element. */
  lemma CompactMapFrom<A, B>(f: A -> Option<B>, xs: seq<A>)
    ensures forall b :: b in CompactMap(f, xs) ==> exists x :: x in xs && f(x) == Some(b)
  {
    forall b | b in CompactMap(f, xs)
      ensures exists x :: x in xs && f(x) == Some(b)
    {
      var i :| 0 <= i < |CompactMap(f, xs)| && CompactMap(f, xs)[i] == b;
      var j :| 0 <= j < |xs| && f(xs[j]) == Some(b);
      assert xs[j] in xs;
    }
  }
}

=== FILE: strings.dfy ===
/**
  The Foundation string operations the watchdog relies on, over `string`
  (a sequence of Unicode scalar values):

  - `trimmingCharacters(in: .whitespacesAndNewlines)`
  - `lowercased()` and `caseInsensitiveCompare` (ASCII letters only)
  - `contains(_:)` for substrings
  - `split(separator:omittingEmptySubsequences:)` on one character
  - `components(separatedBy:)` on a string separator
  - `lastIndex(of:)`
  - `Int(_: String)` and the decimal rendering of integers
 */
module Strings {
  import opened Optional

  // ---------------------------------------------------------------------------
  // Whitespace and trimming
  // ---------------------------------------------------------------------------

  /** Membership in `CharacterSet.whitespacesAndNewlines`: the Unicode
      separators (Zs, Zl, Zp), the controls U+0009 to U+000D, and U+0085. */
  predicate IsWhitespace(c: char) {
    || c == ' '
    || ('\t' <= c <= '\r')
    || c == '\U{85}'
    || c == '\U{A0}'
    || c == '\U{1680}'
    || ('\U{2000}' <= c <= '\U{200A}')
    || c == '\U{2028}'
    || c == '\U{2029}'
    || c == '\U{202F}'
    || c == '\U{205F}'
    || c == '\U{3000}'
  }

  predicate AllWhitespace(s: string) {
    forall i :: 0 <= i < |s| ==> IsWhitespace(s[i])
  }

  /** Neither end of `s` is whitespace (vacuously true of ""). */
  predicate EdgesTrimmed(s: string) {
    s == [] || (!IsWhitespace(s[0]) && !IsWhitespace(s[|s| - 1]))
  }

  /** How many whitespace characters `s` starts with. */
  function Leading(s: string): (n: nat)
    ensures n <= |s|
    ensures forall i :: 0 <= i < n ==> IsWhitespace(s[i])
    ensures n < |s| ==> !IsWhitespace(s[n])
    decreases |s|
  {
    if s != [] && IsWhitespace(s[0]) then
      var n := 1 + Leading(s[1..]);
      assert forall i :: 1 <= i < n ==> s[i] == s[1..][i - 1];
      n
    else 0
  }

  /** How many whitespace characters `s` ends with. */
  function Trailing(s: string): (n: nat)
    ensures n <= |s|
    ensures forall i :: |s| - n <= i < |s| ==> IsWhitespace(s[i])
    ensures n < |s| ==> !IsWhitespace(s[|s| - n - 1])
    decreases |s|
  {
    if s != [] && IsWhitespace(s[|s| - 1]) then
      var n := 1 + Trailing(s[..|s| - 1]);
      assert forall i :: |s| - n <= i < |s| - 1 ==> s[i] == s[..|s| - 1][i];
      n
    else 0
  }

  /** Foundation's `trimmingCharacters(in: .whitespacesAndNewlines)`: what
      lies between the leading and the trailing whitespace. */
  function Trim(s: string): (r: string)
    ensures EdgesTrimmed(r)
    ensures r == [] <==> AllWhitespace(s)
    ensures EdgesTrimmed(s) ==> r == s
    ensures |r| <= |s|
    ensures !AllWhitespace(s) ==> Leading(s) + Trailing(s) < |s| && r == s[Leading(s)..|s| - Trailing(s)]
  {
    var a := Leading(s);
    if a == |s| then []
    else
      var b := Trailing(s);
      assert a < |s| - b by {
        assert !IsWhitespace(s[a]);
      }
      var r := s[a..|s| - b];
      assert r[0] == s[a] && r[|r| - 1] == s[|s| - b - 1];
      assert s != [] && !IsWhitespace(s[0]) ==> a == 0;
      assert s != [] && !IsWhitespace(s[|s| - 1]) ==> b == 0;
      r
  }

  /** Trimming a line of output drops its line break and nothing else, when
      the line's text has no surrounding whitespace. */
  lemma TrimDropsLineBreak(t: string)
    requires EdgesTrimmed(t)
    ensures Trim(t + "\n") == t
  {
    var s := t + "\n";
    assert IsWhitespace(s[|s| - 1]);
    if t != [] {
      assert s[0] == t[0] && s[|s| - 2] == t[|t| - 1];
      assert Leading(s) == 0;
      assert Trailing(s) == 1;
      assert s[0..|s| - 1] == t;
    } else {
      assert Leading(s) == 1;
    }
  }

  lemma TrimIdempotent(s: string)
    ensures Trim(Trim(s)) == Trim(s)
  {
  }

  // ---------------------------------------------------------------------------
  // Case
  // ---------------------------------------------------------------------------

  function LowerChar(c: char): char {
    if 'A' <= c <= 'Z' then (c as int - 'A' as int + 'a' as int) as char else c
  }

  /** `lowercased()`, restricted to the ASCII letters. */
  function Lower(s: string): (r: string)
    ensures |r| == |s|
    ensures forall i :: 0 <= i < |s| ==> r[i] == LowerChar(s[i])
  {
    seq(|s|, i requires 0 <= i < |s| => LowerChar(s[i]))
  }

  lemma LowerAppend(a: string, b: string)
    ensures Lower(a + b) == Lower(a) + Lower(b)
  {
  }

  /** `a.caseInsensitiveCompare(b) == .orderedSame`. */
  predicate SameIgnoringCase(a: string, b: string) {
    Lower(a) == Lower(b)
  }

  // ---------------------------------------------------------------------------
  // Substrings
  // ---------------------------------------------------------------------------

  /** `needle` appears in `hay` at some position. */
  ghost predicate Occurs(hay: string, needle: string) {
    exists i :: 0 <= i <= |hay| && needle <= hay[i..]
  }

  /** `hay.contains(needle)`: a left-to-right scan for an occurrence. */
  function Contains(hay: string, needle: string): (b: bool)
    ensures b <==> Occurs(hay, needle)
    decreases |hay|
  {
    if needle <= hay then
      assert needle <= hay[0..];
      true
    else if hay == [] then
      false
    else
      var rest := Contains(hay[1..], needle);
      assert Occurs(hay[1..], needle) ==> Occurs(hay, needle) by {
        if Occurs(hay[1..], needle) {
          var i :| 0 <= i <= |hay[1..]| && needle <= hay[1..][i..];
          assert hay[1..][i..] == hay[i + 1..];
        }
      }
      assert Occurs(hay, needle) ==> Occurs(hay[1..], needle) by {
        if Occurs(hay, needle) {
          var i :| 0 <= i <= |hay| && needle <= hay[i..];
          assert i != 0;
          assert hay[1..][i - 1..] == hay[i..];
        }
      }
      rest
  }

  /** A text that contains `needle` still does after anything is added around it. */
  lemma OccursInContext(a: string, hay: string, b: string, needle: string)
    requires Occurs(hay, needle)
    ensures Occurs(a + hay + b, needle)
  {
    var i :| 0 <= i <= |hay| && needle <= hay[i..];
    var s := a + hay + b;
    assert s[|a| + i..] == hay[i..] + b;
  }

  // ---------------------------------------------------------------------------
  // Character search and splitting on one character
  // ---------------------------------------------------------------------------

  /** `lastIndex(of:)`: the last position of `c` in `s`. */
  function LastIndexOf(s: string, c: char): (r: Option<nat>)
    ensures r.None? <==> c !in s
    ensures r.Some? ==> r.value < |s| && s[r.value] == c && c !in s[r.value + 1..]
    decreases |s|
  {
    if s == [] then None
    else if s[|s| - 1] == c then Some(|s| - 1)
    else
      var r := LastIndexOf(s[..|s| - 1], c);
      assert r.Some? ==> s[r.value + 1..] == s[..|s| - 1][r.value + 1..] + [s[|s| - 1]];
      assert r.None? ==> s == s[..|s| - 1] + [s[|s| - 1]];
      r
  }

  /** The position `lastIndex(of:)` finds is the only one with no `c` after it. */
  lemma LastIndexOfIsLast(s: string, c: char, k: nat)
    requires k < |s| && s[k] == c && c !in s[k + 1..]
    ensures LastIndexOf(s, c) == Some(k)
  {
    assert c in s;
  }

  lemma {:induction false} LastIndexOfJoined(a: string, c: char, b: string)
    requires c !in b
    ensures LastIndexOf(a + [c] + b, c) == Some(|a|)
    decreases |b|
  {
    var s := a + [c] + b;
    if b == [] {
      assert s[|s| - 1] == c;
    } else {
      assert s[|s| - 1] == b[|b| - 1];
      assert s[..|s| - 1] == a + [c] + b[..|b| - 1];
      LastIndexOfJoined(a, c, b[..|b| - 1]);
    }
  }

  /** The parts of a split, put back together with the separator between them. */
  function Join(parts: seq<string>, sep: char): string
    decreases |parts|
  {
    if parts == [] then []
    else if |parts| == 1 then parts[0]
    else parts[0] + [sep] + Join(parts[1..], sep)
  }

  /** Joining takes the last part off as well as the first. */
  lemma {:induction false} JoinLast(parts: seq<string>, sep: char)
    requires |parts| >= 2
    ensures Join(parts, sep) == Join(parts[..|parts| - 1], sep) + [sep] + parts[|parts| - 1]
    decreases |parts|
  {
    var n := |parts|;
    var init := parts[..n - 1];
    assert init[0] == parts[0];
    if n == 2 {
      assert parts[1..] == [parts[1]];
      assert init == [parts[0]];
    } else {
      JoinLast(parts[1..], sep);
      assert parts[1..][..n - 2] == init[1..];
      assert parts[1..][n - 2] == parts[n - 1];
    }
  }

  /** `s.split(separator: sep, omittingEmptySubsequences: false)`: every
      separator ends one part, so empty parts are kept. The parts are taken
      off from the end. */
  function Split(s: string, sep: char): (parts: seq<string>)
    ensures |parts| > 0
    ensures forall i :: 0 <= i < |parts| ==> sep !in parts[i]
    decreases |s|
  {
    match LastIndexOf(s, sep)
    case None => [s]
    case Some(i) => Split(s[..i], sep) + [s[i + 1..]]
  }

  /** Splitting a text with a final separator: the parts before it, then
      what follows it. */
  lemma SplitLast(a: string, sep: char, b: string)
    requires sep !in b
    ensures Split(a + [sep] + b, sep) == Split(a, sep) + [b]
  {
    var s := a + [sep] + b;
    LastIndexOfJoined(a, sep, b);
    assert s[..|a|] == a;
    assert s[|a| + 1..] == b;
  }

  /** Splitting undoes joining whenever no part holds the separator. */
  lemma {:induction false} SplitJoin(parts: seq<string>, sep: char)
    requires |parts| > 0
    requires forall i :: 0 <= i < |parts| ==> sep !in parts[i]
    ensures Split(Join(parts, sep), sep) == parts
    decreases |parts|
  {
    var n := |parts|;
    if n == 1 {
      assert Join(parts, sep) == parts[0];
    } else {
      var init := parts[..n - 1];
      JoinLast(parts, sep);
      SplitLast(Join(init, sep), sep, parts[n - 1]);
      SplitJoin(init, sep);
      assert parts == init + [parts[n - 1]];
    }
  }

  /** Joining the parts of a split gives back the text. */
  lemma {:induction false} JoinSplit(s: string, sep: char)
    ensures Join(Split(s, sep), sep) == s
    decreases |s|
  {
    match LastIndexOf(s, sep)
    case None =>
    case Some(i) =>
      var init := Split(s[..i], sep);
      var parts := init + [s[i + 1..]];
      assert parts[..|parts| - 1] == init;
      JoinLast(parts, sep);
      JoinSplit(s[..i], sep);
      assert s == s[..i] + [sep] + s[i + 1..];
  }

  /** The non-empty elements of `parts`, in order. */
  function NonEmpty(parts: seq<string>): (r: seq<string>)
    ensures forall i :: 0 <= i < |r| ==> r[i] != [] && r[i] in parts
    ensures forall p :: p in parts && p != [] ==> p in r
    decreases |parts|
  {
    if parts == [] then []
    else if parts[0] == [] then NonEmpty(parts[1..])
    else [parts[0]] + NonEmpty(parts[1..])
  }

  /** `s.split(separator: sep)`: like `Split`, with the empty parts dropped. */
  function SplitNonEmpty(s: string, sep: char): (parts: seq<string>)
    ensures forall i :: 0 <= i < |parts| ==> parts[i] != [] && sep !in parts[i]
  {
    NonEmpty(Split(s, sep))
  }

  /** The parts kept are exactly the non-empty parts of the full split. */
  lemma SplitNonEmptyParts(s: string, sep: char)
    ensures forall p :: p in SplitNonEmpty(s, sep) <==> p != [] && p in Split(s, sep)
  {
    assert SplitNonEmpty(s, sep) == NonEmpty(Split(s, sep));
  }

  /** Dropping the empty parts of two lists joined is dropping them from each. */
  lemma {:induction false} NonEmptyAppend(xs: seq<string>, ys: seq<string>)
    ensures NonEmpty(xs + ys) == NonEmpty(xs) + NonEmpty(ys)
    decreases |xs|
  {
    if xs == [] {
      assert xs + ys == ys;
    } else {
      assert (xs + ys)[0] == xs[0];
      assert (xs + ys)[1..] == xs[1..] + ys;
      NonEmptyAppend(xs[1..], ys);
    }
  }

  /** A piece ended by `sep`, written after text that is empty or ends with
      `sep`, becomes the last non-empty part. */
  lemma SplitNonEmptyAppended(before: string, piece: string, sep: char)
    requires before == [] || before[|before| - 1] == sep
    requires piece != [] && sep !in piece
    ensures SplitNonEmpty(before + piece + [sep], sep) == SplitNonEmpty(before, sep) + [piece]
  {
    if before == [] {
      FirstPiece(piece, sep);
      assert before + piece + [sep] == piece + [sep];
    } else {
      var head := before[..|before| - 1];
      assert before == head + [sep] + [];
      assert before + piece + [sep] == head + [sep] + piece + [sep];
      PieceAfterSeparator(head, piece, sep);
    }
  }

  /** The case of `SplitNonEmptyAppended` where nothing comes first. */
  lemma FirstPiece(piece: string, sep: char)
    requires piece != [] && sep !in piece
    ensures SplitNonEmpty(piece + [sep], sep) == SplitNonEmpty([], sep) + [piece]
  {
    assert piece + [sep] == piece + [sep] + [];
    SplitLast(piece, sep, []);
    assert Split(piece, sep) == [piece];
    assert Split([], sep) == [[]];
    NonEmptyAppend([piece], [[]]);
  }

  /** The case of `SplitNonEmptyAppended` where some text comes first. */
  lemma PieceAfterSeparator(head: string, piece: string, sep: char)
    requires piece != [] && sep !in piece
    ensures SplitNonEmpty(head + [sep] + piece + [sep], sep) == SplitNonEmpty(head + [sep] + [], sep) + [piece]
  {
    SplitsAroundPiece(head, piece, sep);
    NonEmptyBeforeEmpty(Split(head, sep), piece);
  }

  lemma SplitsAroundPiece(head: string, piece: string, sep: char)
    requires sep !in piece
    ensures Split(head + [sep] + piece + [sep], sep) == Split(head, sep) + [piece] + [[]]
    ensures Split(head + [sep] + [], sep) == Split(head, sep) + [[]]
  {
    assert head + [sep] + piece + [sep] == (head + [sep] + piece) + [sep] + [];
    SplitLast(head + [sep] + piece, sep, []);
    SplitLast(head, sep, piece);
    SplitLast(head, sep, []);
  }

  lemma NonEmptyBeforeEmpty(xs: seq<string>, piece: string)
    requires piece != []
    ensures NonEmpty(xs + [piece] + [[]]) == NonEmpty(xs + [[]]) + [piece]
  {
    NonEmptyAppend(xs + [piece], [[]]);
    NonEmptyAppend(xs, [piece]);
    NonEmptyAppend(xs, [[]]);
  }

  // ---------------------------------------------------------------------------
  // Splitting on a string separator
  // ---------------------------------------------------------------------------

  /** The first position at which `sep` starts in `s`. */
  function FindFirst(s: string, sep: string): (r: Option<nat>)
    requires |sep| > 0
    ensures r.None? ==> forall j :: 0 <= j <= |s| ==> !(sep <= s[j..])
    ensures r.Some? ==> r.value + |sep| <= |s| && sep <= s[r.value..]
    ensures r.Some? ==> forall j :: 0 <= j < r.value ==> !(sep <= s[j..])
    decreases |s|
  {
    if sep <= s then Some(0)
    else if s == [] then None
    else
      var r := FindFirst(s[1..], sep);
      assert forall j :: 1 <= j <= |s| ==> s[j..] == s[1..][j - 1..];
      match r
      case None => None
      case Some(i) => Some(i + 1)
  }

  /** The parts of `components(separatedBy:)`, put back together with the
      separator string between them. */
  function JoinOn(parts: seq<string>, sep: string): string
    decreases |parts|
  {
    if parts == [] then []
    else if |parts| == 1 then parts[0]
    else parts[0] + sep + JoinOn(parts[1..], sep)
  }

  /** Text that ends before the first occurrence of `sep` holds none. */
  lemma ClearBeforeFirst(s: string, sep: string, i: nat)
    requires |sep| > 0 && i <= |s|
    requires forall j :: 0 <= j < i ==> !(sep <= s[j..])
    ensures !Occurs(s[..i], sep)
  {
    forall j | 0 <= j <= i
      ensures !(sep <= s[..i][j..])
    {
      if j < i {
        assert !(sep <= s[j..]);
        assert s[..i][j..] <= s[j..];
      }
    }
  }

  /** Foundation's `components(separatedBy:)`: the text between successive
      non-overlapping occurrences of `sep`, scanning from the left. */
  function Components(s: string, sep: string): (parts: seq<string>)
    requires |sep| > 0
    ensures |parts| > 0
    decreases |s|
  {
    match FindFirst(s, sep)
    case None => [s]
    case Some(i) => [s[..i]] + Components(s[i + |sep|..], sep)
  }

  /** The parts, joined back with the separator, give the text back. */
  lemma {:induction false} ComponentsRejoin(s: string, sep: string)
    requires |sep| > 0
    ensures JoinOn(Components(s, sep), sep) == s
    decreases |s|
  {
    match FindFirst(s, sep)
    case None =>
    case Some(i) =>
      var rest := Components(s[i + |sep|..], sep);
      var parts := Components(s, sep);
      assert parts == [s[..i]] + rest;
      assert parts[1..] == rest;
      ComponentsRejoin(s[i + |sep|..], sep);
      CutAround(s, i, sep);
  }

  /** A text is what comes before an occurrence, the occurrence, and what
      comes after it. */
  lemma CutAround(s: string, i: nat, sep: string)
    requires i + |sep| <= |s| && sep <= s[i..]
    ensures s == s[..i] + sep + s[i + |sep|..]
  {
    assert s[i..i + |sep|] == sep;
    assert s == s[..i] + s[i..i + |sep|] + s[i + |sep|..];
  }

  /** No part holds the separator. */
  ghost predicate NoneHolds(parts: seq<string>, sep: string) {
    forall k :: 0 <= k < |parts| ==> !Occurs(parts[k], sep)
  }

  /** No part of `components(separatedBy:)` holds the separator. */
  lemma {:induction false} ComponentsClear(s: string, sep: string)
    requires |sep| > 0
    ensures NoneHolds(Components(s, sep), sep)
    decreases |s|
  {
    match FindFirst(s, sep)
    case None =>
      assert Components(s, sep) == [s];
      ClearBeforeFirst(s, sep, |s|);
      assert s[..|s|] == s;
      ClearCons(s, [], sep);
      assert [s] + [] == [s];
    case Some(i) =>
      var rest := Components(s[i + |sep|..], sep);
      var parts := Components(s, sep);
      assert parts == [s[..i]] + rest;
      ComponentsClear(s[i + |sep|..], sep);
      ClearBeforeFirst(s, sep, i);
      ClearCons(s[..i], rest, sep);
  }

  lemma ClearCons(head: string, rest: seq<string>, sep: string)
    requires !Occurs(head, sep) && NoneHolds(rest, sep)
    ensures NoneHolds([head] + rest, sep)
  {
    forall k | 0 <= k < |[head] + rest|
      ensures !Occurs(([head] + rest)[k], sep)
    {
      if k > 0 {
        assert ([head] + rest)[k] == rest[k - 1];
      }
    }
  }

  /** Two pieces joined by a separator split back into exactly those two
      pieces, provided neither piece contains the separator's first character. */
  lemma ComponentsOfPair(a: string, sep: string, b: string)
    requires |sep| > 0
    requires sep[0] !in a && sep[0] !in b
    ensures Components(a + sep + b, sep) == [a, b]
  {
    var s := a + sep + b;
    assert sep <= s[|a|..];
    var first := FindFirst(s, sep);
    assert first.Some?;
    var v := first.value;
    assert v <= |a|;
    assert s[v] == s[v..][0] == sep[0];
    assert forall k :: 0 <= k < |a| ==> s[k] == a[k];
    assert v == |a|;
    assert s[..|a|] == a;
    assert s[|a| + |sep|..] == b;
    forall j | 0 <= j <= |b|
      ensures !(sep <= b[j..])
    {
      if j < |b| {
        assert b[j..][0] == b[j];
      }
    }
  }

  // ---------------------------------------------------------------------------
  // Decimal numbers
  // ---------------------------------------------------------------------------

  predicate IsDigit(c: char) {
    '0' <= c <= '9'
  }

  predicate AllDigits(s: string) {
    forall i :: 0 <= i < |s| ==> IsDigit(s[i])
  }

  /** The value of a string of decimal digits ("" reads as 0). */
  function DigitsValue(s: string): nat
    requires AllDigits(s)
    decreases |s|
  {
    if s == [] then 0
    else 10 * DigitsValue(s[..|s| - 1]) + (s[|s| - 1] as int - '0' as int)
  }

  function DigitChar(d: nat): (c: char)
    requires d < 10
    ensures IsDigit(c)
  {
    ('0' as int + d) as char
  }

  /** The decimal rendering of a natural number, as Swift's string
      interpolation writes it: no sign, no leading zeros. */
  function ShowNat(n: nat): (r: string)
    ensures |r| > 0 && AllDigits(r)
    decreases n
  {
    if n < 10 then [DigitChar(n)] else ShowNat(n / 10) + [DigitChar(n % 10)]
  }

  lemma {:induction false} ShowNatRoundTrip(n: nat)
    ensures DigitsValue(ShowNat(n)) == n
    decreases n
  {
    if n >= 10 {
      var s := ShowNat(n);
      ShowNatRoundTrip(n / 10);
      assert s[..|s| - 1] == ShowNat(n / 10);
    }
  }

  const Int64Min: int := -0x8000_0000_0000_0000
  const Int64Max: int := 0x7FFF_FFFF_FFFF_FFFF

  /** Swift's `Int(_: String)`: an optional sign followed by at least one
      ASCII digit and nothing else, with a value that fits in 64 bits. */
  function ParseInt(s: string): (r: Option<int>)
    ensures r.Some? ==> Int64Min <= r.value <= Int64Max
    ensures r.Some? ==> s != [] && (IsDigit(s[0]) || s[0] == '+' || s[0] == '-')
    ensures s != [] && AllDigits(s) ==>
      r == if DigitsValue(s) <= Int64Max then Some(DigitsValue(s)) else None
    ensures |s| > 1 && s[0] == '+' && AllDigits(s[1..]) ==>
      r == if DigitsValue(s[1..]) <= Int64Max then Some(DigitsValue(s[1..])) else None
    ensures |s| > 1 && s[0] == '-' && AllDigits(s[1..]) ==>
      var m: int := DigitsValue(s[1..]);
      r == if m <= -Int64Min then Some(-m) else None
    ensures s == [] || s == "+" || s == "-" ==> r.None?
    ensures (exists i :: 0 < i < |s| && !IsDigit(s[i])) ==> r.None?
  {
    var signed := |s| > 0 && (s[0] == '+' || s[0] == '-');
    var body := if signed then s[1..] else s;
    assert forall i :: 0 < i < |s| && signed ==> s[i] == body[i - 1];
    if body == [] || !AllDigits(body) then None
    else
      var magnitude: int := DigitsValue(body);
      var v: int := if signed && s[0] == '-' then -magnitude else magnitude;
      if Int64Min <= v <= Int64Max then Some(v) else None
  }

  /** The decimal rendering of an integer, with a leading '-' when negative. */
  function ShowInt(n: int): string {
    if n < 0 then "-" + ShowNat(-n) else ShowNat(n)
  }

  /** Parsing reads back every 64-bit integer that rendering writes. */
  lemma ParseShowInt(n: int)
    requires Int64Min <= n <= Int64Max
    ensures ParseInt(ShowInt(n)) == Some(n)
  {
    if n < 0 {
      ShowNatRoundTrip(-n);
      assert ShowInt(n)[1..] == ShowNat(-n);
    } else {
      ShowNatRoundTrip(n);
    }
  }

  /** A rendered integer has no surrounding whitespace, so trimming keeps it. */
  lemma ShowIntTrimmed(n: int)
    ensures Trim(ShowInt(n)) == ShowInt(n)
  {
    var t := ShowInt(n);
    var d := if n < 0 then ShowNat(-n) else ShowNat(n);
    assert t[|t| - 1] == d[|d| - 1];
    assert IsDigit(t[0]) || t[0] == '-';
    assert EdgesTrimmed(t);
  }

  lemma ShowIntHasNo(n: int, c: char)
    requires c != '-' && !IsDigit(c)
    ensures c !in ShowInt(n)
  {
    if n < 0 {
      assert forall i :: 1 <= i < |ShowInt(n)| ==> ShowInt(n)[i] == ShowNat(-n)[i - 1];
    }
  }
}

=== FILE: throttle.dfy ===
/**
  The system throttle: while the watchdog is on, six software-update
  settings are switched off, and their earlier values are kept in a backup
  file so that switching the watchdog off can put them back.

  The backup and the restore are stated for any list of settings whose
  domains and keys hold no ':' and whose addresses are distinct; the six
  fixed settings are shown to be such a list at the end.
 */
module SystemThrottle {
  import opened Optional
  import opened Strings
  import opened Commands
  import opened DefaultsDatabase

  datatype Setting = Setting(domain: string, key: string)

  /** The backup value recorded for a setting the read found nothing for. */
  const MissingMarker: string := "__MISSING__"

  const CompositeSeparator: string := "::"

  function AddressOf(s: Setting): Address {
    (s.domain, s.key)
  }

  function Addresses(settings: seq<Setting>): (r: seq<Address>)
    ensures |r| == |settings|
    ensures forall i :: 0 <= i < |settings| ==> r[i] == AddressOf(settings[i])
  {
    seq(|settings|, i requires 0 <= i < |settings| => AddressOf(settings[i]))
  }

  /** The backup file's key for a setting: `domain::key`. */
  function Composite(s: Setting): string {
    s.domain + CompositeSeparator + s.key
  }

  predicate FreeOfColon(s: string) {
    ':' !in s
  }

  /** Settings the throttle can back up and restore faithfully: no ':' in a
      domain or key, and no address listed twice. */
  ghost predicate WellFormed(settings: seq<Setting>) {
    && (forall i :: 0 <= i < |settings| ==> FreeOfColon(settings[i].domain) && FreeOfColon(settings[i].key))
    && (forall i, j :: 0 <= i < j < |settings| ==> AddressOf(settings[i]) != AddressOf(settings[j]))
  }

  /** A composite key splits back into its domain and key. */
  lemma CompositeSplits(s: Setting)
    requires FreeOfColon(s.domain) && FreeOfColon(s.key)
    ensures Components(Composite(s), CompositeSeparator) == [s.domain, s.key]
  {
    ComponentsOfPair(s.domain, CompositeSeparator, s.key);
  }

  /** Distinct settings have distinct composite keys. */
  lemma CompositesDistinct(settings: seq<Setting>)
    requires WellFormed(settings)
    ensures forall i, j :: 0 <= i < j < |settings| ==> Composite(settings[i]) != Composite(settings[j])
  {
    forall i, j | 0 <= i < j < |settings|
      ensures Composite(settings[i]) != Composite(settings[j])
    {
      CompositeSplits(settings[i]);
      CompositeSplits(settings[j]);
    }
  }

  // ---------------------------------------------------------------------------
  // Enabling
  // ---------------------------------------------------------------------------

  /** The trimmed output of a read, or the marker when that is empty. */
  function BackupValue(output: string): (v: string)
    ensures Trim(output) != [] ==> v == Trim(output)
    ensures Trim(output) == [] ==> v == MissingMarker
  {
    var value := Trim(output);
    if value == [] then MissingMarker else value
  }

  /** The backup entry of one setting: what reading it printed, trimmed. */
  function EntryOf(run: Runner, s: Setting): string {
    BackupValue(Output(run, DefaultsRead(s.domain, s.key)))
  }

  /** A dictionary filled from key/value pairs in order, a later pair
      overwriting an earlier one with the same key. */
  function Fill<K, V>(pairs: seq<(K, V)>): map<K, V>
    decreases |pairs|
  {
    if pairs == [] then map[] else Fill(pairs[..|pairs| - 1])[pairs[|pairs| - 1].0 := pairs[|pairs| - 1].1]
  }

  /** Pairs with distinct keys fill a dictionary holding exactly those
      keys, each with its pair's value. */
  lemma {:induction false} FillHolds<K, V>(pairs: seq<(K, V)>)
    requires forall i, j :: 0 <= i < j < |pairs| ==> pairs[i].0 != pairs[j].0
    ensures forall i :: 0 <= i < |pairs| ==> pairs[i].0 in Fill(pairs) && Fill(pairs)[pairs[i].0] == pairs[i].1
    decreases |pairs|
  {
    if pairs != [] {
      var init := pairs[..|pairs| - 1];
      assert forall i :: 0 <= i < |init| ==> init[i] == pairs[i];
      FillHolds(init);
    }
  }

  /** Every key of the filled dictionary comes from some pair. */
  lemma {:induction false} FillKeys<K, V>(pairs: seq<(K, V)>)
    ensures forall k :: k in Fill(pairs) ==> exists i :: 0 <= i < |pairs| && pairs[i].0 == k
    decreases |pairs|
  {
    if pairs != [] {
      var init := pairs[..|pairs| - 1];
      var last := pairs[|pairs| - 1];
      assert forall i :: 0 <= i < |init| ==> init[i] == pairs[i];
      FillKeys(init);
      assert Fill(pairs) == Fill(init)[last.0 := last.1];
      forall k | k in Fill(pairs)
        ensures exists i :: 0 <= i < |pairs| && pairs[i].0 == k
      {
        if k != last.0 {
          var i :| 0 <= i < |init| && init[i].0 == k;
          assert pairs[i].0 == k;
        }
      }
    }
  }

  /** `k` is the composite key of one of the settings. */
  ghost predicate IsKeyOf(k: string, settings: seq<Setting>) {
    exists n :: 0 <= n < |settings| && k == Composite(settings[n])
  }

  function BackupPairs(run: Runner, settings: seq<Setting>): (r: seq<(string, string)>)
    ensures |r| == |settings|
    ensures forall i :: 0 <= i < |settings| ==> r[i] == (Composite(settings[i]), EntryOf(run, settings[i]))
  {
    seq(|settings|, i requires 0 <= i < |settings| => (Composite(settings[i]), EntryOf(run, settings[i])))
  }

  /** The backup dictionary `enable()` builds: each setting's composite key
      with its entry, filled in visiting order. It holds no key that is not
      a setting's composite. */
  function Backup(run: Runner, settings: seq<Setting>): (r: map<string, string>)
    ensures forall k :: k in r ==> IsKeyOf(k, settings)
  {
    PairKeysOnly(run, settings);
    Fill(BackupPairs(run, settings))
  }

  /** The backup holds an entry for every setting: the entry recorded for it. */
  lemma BackupCovers(run: Runner, settings: seq<Setting>)
    requires WellFormed(settings)
    ensures forall i :: 0 <= i < |settings| ==>
      Composite(settings[i]) in Backup(run, settings) && Backup(run, settings)[Composite(settings[i])] == EntryOf(run, settings[i])
  {
    var pairs := BackupPairs(run, settings);
    CompositesDistinct(settings);
    assert forall i, j :: 0 <= i < j < |pairs| ==> pairs[i].0 != pairs[j].0;
    FillHolds(pairs);
  }

  /** The pairs the backup is filled from carry only the settings' composites. */
  lemma PairKeysOnly(run: Runner, settings: seq<Setting>)
    ensures forall k :: k in Fill(BackupPairs(run, settings)) ==> IsKeyOf(k, settings)
  {
    var pairs := BackupPairs(run, settings);
    FillKeys(pairs);
    forall k | k in Fill(pairs)
      ensures IsKeyOf(k, settings)
    {
      var i :| 0 <= i < |pairs| && pairs[i].0 == k;
      assert k == Composite(settings[i]);
    }
  }

  function ReadCommands(settings: seq<Setting>): (r: seq<Invocation>)
    ensures |r| == |settings|
    ensures forall i :: 0 <= i < |settings| ==> r[i] == DefaultsRead(settings[i].domain, settings[i].key)
  {
    seq(|settings|, i requires 0 <= i < |settings| => DefaultsRead(settings[i].domain, settings[i].key))
  }

  function SwitchOffCommands(settings: seq<Setting>): (r: seq<Invocation>)
    ensures |r| == |settings|
    ensures forall i :: 0 <= i < |settings| ==> r[i] == DefaultsWriteFalse(settings[i].domain, settings[i].key)
  {
    seq(|settings|, i requires 0 <= i < |settings| => DefaultsWriteFalse(settings[i].domain, settings[i].key))
  }

  /** The commands `enable()` runs leave every setting off: each
      setting's write is the last one at its address. */
  lemma EnableCommandsSwitchOff(db: Database, settings: seq<Setting>, i: nat)
    requires WellFormed(settings) && i < |settings|
    ensures Lookup(ApplyAll(db, ReadCommands(settings) + SwitchOffCommands(settings)), AddressOf(settings[i])) == Some(Flag(false))
  {
    var writes := SwitchOffCommands(settings);
    var cs := ReadCommands(settings) + writes;
    var n := |settings|;
    assert cs[n + i] == writes[i];
    forall j | n + i < j < |cs|
      ensures Target(cs[j]) != Some(AddressOf(settings[i]))
    {
      assert cs[j] == writes[j - n];
    }
    LastWriteWins(db, cs, n + i, AddressOf(settings[i]));
  }

  /** The commands `enable()` runs leave every address that is not a
      setting's as it was: the reads change nothing. */
  lemma EnableCommandsElsewhere(db: Database, settings: seq<Setting>, a: Address)
    requires a !in Addresses(settings)
    ensures Lookup(ApplyAll(db, ReadCommands(settings) + SwitchOffCommands(settings)), a) == Lookup(db, a)
  {
    var writes := SwitchOffCommands(settings);
    var cs := ReadCommands(settings) + writes;
    var n := |settings|;
    forall j | 0 <= j < |cs|
      ensures Target(cs[j]) != Some(a)
    {
      if j >= n {
        assert cs[j] == writes[j - n];
        assert Addresses(settings)[j - n] == AddressOf(settings[j - n]);
      }
    }
    ApplyAllElsewhere(db, cs, a);
  }

  // ---------------------------------------------------------------------------
  // Disabling
  // ---------------------------------------------------------------------------

  /** The value restoring a backup entry leaves at its address: none for
      the missing marker, a boolean for the four boolean spellings, what an
      untyped write makes of the text otherwise. */
  function RestoredValue(entry: string): Option<Value> {
    if entry == MissingMarker then None
    else if entry == "1" || entry == "true" then Some(Flag(true))
    else if entry == "0" || entry == "false" then Some(Flag(false))
    else Some(StringWrite(entry))
  }

  /** The command that restores one backup entry: a missing value is
      deleted, 1/0/true/false is written back as a boolean, anything else as
      a string; a key that does not split into exactly a domain and a key is
      skipped. */
  function RestoreCommand(composite: string, value: string): (c: Option<Invocation>)
    ensures c.Some? <==> |Components(composite, CompositeSeparator)| == 2
    ensures c.Some? ==> Target(c.value) == Some((Components(composite, CompositeSeparator)[0], Components(composite, CompositeSeparator)[1]))
    ensures c.Some? ==> Written(c.value) == RestoredValue(value)
  {
    var pieces := Components(composite, CompositeSeparator);
    if |pieces| != 2 then None
    else
      var domain := pieces[0];
      var key := pieces[1];
      if value == MissingMarker then Some(DefaultsDelete(domain, key))
      else if value == "1" || value == "0" || value == "true" || value == "false" then
        Some(DefaultsWriteBool(domain, key, value == "1" || value == "true"))
      else Some(DefaultsWriteString(domain, key, value))
  }

  /** `order` lists the keys of `entries`, each once: the order a dictionary
      happens to enumerate them in. */
  ghost predicate IsEnumeration(order: seq<string>, entries: map<string, string>) {
    && (forall k :: k in order <==> k in entries)
    && (forall i, j :: 0 <= i < j < |order| ==> order[i] != order[j])
  }

  /** The restore commands for the keys in `order`, skipped keys left out. */
  function RestoreCommands(entries: map<string, string>, order: seq<string>): (cs: seq<Invocation>)
    requires forall k :: k in order ==> k in entries
    ensures |cs| <= |order|
    decreases |order|
  {
    if order == [] then []
    else
      var rest := RestoreCommands(entries, order[1..]);
      match RestoreCommand(order[0], entries[order[0]])
      case None => rest
      case Some(c) => [c] + rest
  }

  /** The backup file: absent, present but not decodable as a string
      dictionary, or a saved dictionary. */
  datatype BackupFile = NoBackup | Unreadable | Saved(entries: map<string, string>)

  /** What an operation leaves behind: the backup file and the commands it ran. */
  datatype Outcome = Outcome(file: BackupFile, issued: seq<Invocation>)

  /** `disable()`: with no readable backup, nothing happens; otherwise every
      entry is restored, in dictionary order, and the file is removed
      (unless the removal fails, which leaves it in place). */
  function Disable(file: BackupFile, order: seq<string>, removed: bool): (o: Outcome)
    requires file.Saved? ==> IsEnumeration(order, file.entries)
    ensures !file.Saved? ==> o == Outcome(file, [])
    ensures file.Saved? ==> o.file == (if removed then NoBackup else file)
    ensures file.Saved? ==> |o.issued| <= |file.entries|
  {
    if !file.Saved? then Outcome(file, [])
    else
      assert |order| == |file.entries| by {
        var keys := set i | 0 <= i < |order| :: order[i];
        assert keys == file.entries.Keys;
        DistinctCardinality(order);
      }
      Outcome(if removed then NoBackup else file, RestoreCommands(file.entries, order))
  }

  lemma {:induction false} DistinctCardinality(order: seq<string>)
    requires forall i, j :: 0 <= i < j < |order| ==> order[i] != order[j]
    ensures |set i | 0 <= i < |order| :: order[i]| == |order|
    decreases |order|
  {
    if order != [] {
      var init := order[..|order| - 1];
      DistinctCardinality(init);
      var last := order[|order| - 1];
      var s := set i | 0 <= i < |init| :: init[i];
      assert (set i | 0 <= i < |order| :: order[i]) == s + {last};
      assert last !in s;
    }
  }

  // ---------------------------------------------------------------------------
  // The round trip
  // ---------------------------------------------------------------------------

  /** The settings' values that survive a backup and a restore unchanged:
      absent, a boolean, or a text with no surrounding whitespace that is
      neither the missing marker nor a boolean spelling nor shaped like a
      structured property list. */
  predicate Restorable(v: Option<Value>) {
    match v
    case None => true
    case Some(Flag(_)) => true
    case Some(Text(t)) =>
      && t != [] && EdgesTrimmed(t) && !PlistShaped(t)
      && t != MissingMarker && t != "1" && t != "0" && t != "true" && t != "false"
    case Some(Parsed(_)) => false
  }

  /** A value that survives is read, backed up and restored unchanged. */
  lemma BackupRestoresValue(v: Option<Value>)
    requires Restorable(v)
    ensures RestoredValue(BackupValue(ReadOutput(v))) == v
  {
    match v
    case None =>
    case Some(Flag(b)) =>
      var digit := if b then "1" else "0";
      TrimDropsLineBreak(digit);
    case Some(Text(t)) =>
      TrimDropsLineBreak(t);
    case Some(Parsed(_)) =>
  }

  /** A text setting that spells a boolean does not survive: it comes back
      as a boolean. */
  lemma TextSpellingTrueComesBackAsFlag()
    ensures RestoredValue(BackupValue(ReadOutput(Some(Text("true"))))) == Some(Flag(true))
  {
    TrimDropsLineBreak("true");
  }

  /** A text setting shaped like a structured property list does not
      survive: the untyped write parses it, so "(a)" comes back as an
      array. */
  lemma PlistTextComesBackParsed(t: string)
    requires t != [] && EdgesTrimmed(t) && PlistShaped(t)
    ensures RestoredValue(BackupValue(ReadOutput(Some(Text(t))))) == Some(Parsed(t))
    ensures !Restorable(Some(Text(t)))
  {
    TrimDropsLineBreak(t);
  }

  /** A blank text setting does not survive either: it is taken for a
      missing one and deleted. */
  lemma BlankTextIsDeleted()
    ensures RestoredValue(BackupValue(ReadOutput(Some(Text(""))))) == None
  {
    TrimDropsLineBreak("");
  }

  /** The database after the first of the restore commands for `order`. */
  function RestoreStep(db: Database, entries: map<string, string>, order: seq<string>): Database
    requires order != [] && order[0] in entries
  {
    match RestoreCommand(order[0], entries[order[0]])
    case None => db
    case Some(c) => Apply(db, c)
  }

  /** The first key of `order`, a setting's composite, restores that
      setting and nothing else; the rest of the commands follow. */
  lemma FirstRestore(db: Database, settings: seq<Setting>, entries: map<string, string>, order: seq<string>, n: nat)
    requires forall k :: k in order ==> k in entries
    requires order != [] && n < |settings| && order[0] == Composite(settings[n])
    requires FreeOfColon(settings[n].domain) && FreeOfColon(settings[n].key)
    ensures ApplyAll(db, RestoreCommands(entries, order))
      == ApplyAll(RestoreStep(db, entries, order), RestoreCommands(entries, order[1..]))
    ensures Lookup(RestoreStep(db, entries, order), AddressOf(settings[n])) == RestoredValue(entries[order[0]])
    ensures forall a :: a != AddressOf(settings[n]) ==> Lookup(RestoreStep(db, entries, order), a) == Lookup(db, a)
  {
    CompositeSplits(settings[n]);
    var first := RestoreCommand(order[0], entries[order[0]]);
    assert first.Some? && Target(first.value) == Some(AddressOf(settings[n]));
    var rest := RestoreCommands(entries, order[1..]);
    assert RestoreCommands(entries, order) == [first.value] + rest;
    ApplyAllAppend(db, [first.value], rest);
    assert ApplyAll(db, [first.value]) == ApplyAll(Apply(db, first.value), []);
  }

  /** Restoring entries whose keys are the settings' composites sets each
      listed setting to what its entry restores, and leaves each setting not
      listed alone. */
  lemma {:induction false} RestoreCommandsAt(db: Database, settings: seq<Setting>, entries: map<string, string>,
                                             order: seq<string>, i: nat)
    requires WellFormed(settings) && i < |settings|
    requires forall k :: k in order ==> k in entries
    requires forall j :: 0 <= j < |order| ==> IsKeyOf(order[j], settings)
    requires forall j, k :: 0 <= j < k < |order| ==> order[j] != order[k]
    ensures Composite(settings[i]) !in order ==>
      Lookup(ApplyAll(db, RestoreCommands(entries, order)), AddressOf(settings[i])) == Lookup(db, AddressOf(settings[i]))
    ensures Composite(settings[i]) in order ==>
      Lookup(ApplyAll(db, RestoreCommands(entries, order)), AddressOf(settings[i])) == RestoredValue(entries[Composite(settings[i])])
    decreases |order|
  {
    if order != [] {
      assert IsKeyOf(order[0], settings);
      var n :| 0 <= n < |settings| && order[0] == Composite(settings[n]);
      FirstRestore(db, settings, entries, order, n);
      var tail := order[1..];
      assert forall j :: 0 <= j < |tail| ==> tail[j] == order[j + 1];
      RestoreCommandsAt(RestoreStep(db, entries, order), settings, entries, tail, i);
      if n == i {
        assert Composite(settings[i]) !in tail;
      } else {
        assert AddressOf(settings[n]) != AddressOf(settings[i]) by {
          if n < i {} else {}
        }
        CompositesDistinct(settings);
        assert Composite(settings[i]) in order <==> Composite(settings[i]) in tail;
      }
    }
  }

  /** What restoring needs to put a setting back to `v`: the entries are
      enumerated in `order`, every key is a setting's composite, and the
      setting's entry restores `v`. */
  ghost predicate RestoresTo(settings: seq<Setting>, entries: map<string, string>, order: seq<string>, i: nat, v: Option<Value>) {
    && WellFormed(settings) && i < |settings|
    && IsEnumeration(order, entries)
    && (forall j :: 0 <= j < |order| ==> IsKeyOf(order[j], settings))
    && Composite(settings[i]) in entries
    && RestoredValue(entries[Composite(settings[i])]) == v
  }

  /** Restoring entries set up so puts the setting back to `v`. */
  lemma RestoreFromBackup(between: Database, settings: seq<Setting>, entries: map<string, string>,
                          order: seq<string>, i: nat, v: Option<Value>)
    requires RestoresTo(settings, entries, order, i, v)
    ensures Lookup(ApplyAll(between, RestoreCommands(entries, order)), AddressOf(settings[i])) == v
  {
    RestoreCommandsAt(between, settings, entries, order, i);
  }

  /** The backup taken from a database holds, for each setting, the
      backup value of what the database held for it. */
  lemma BackupEntryIsRead(db: Database, run: Runner, settings: seq<Setting>, i: nat)
    requires WellFormed(settings) && i < |settings|
    requires AnswersReads(run, db, Addresses(settings))
    ensures Composite(settings[i]) in Backup(run, settings)
    ensures Backup(run, settings)[Composite(settings[i])] == BackupValue(ReadOutput(Lookup(db, AddressOf(settings[i]))))
  {
    BackupCovers(run, settings);
    var a := Addresses(settings)[i];
    assert Output(run, DefaultsRead(a.0, a.1)) == ReadOutput(Lookup(db, a));
  }

  /** The backup's entry for a setting whose value survives restores that value. */
  lemma BackupEntryRestores(db: Database, run: Runner, settings: seq<Setting>, i: nat)
    requires WellFormed(settings) && i < |settings|
    requires AnswersReads(run, db, Addresses(settings))
    requires Restorable(Lookup(db, AddressOf(settings[i])))
    ensures Composite(settings[i]) in Backup(run, settings)
    ensures RestoredValue(Backup(run, settings)[Composite(settings[i])]) == Lookup(db, AddressOf(settings[i]))
  {
    BackupEntryIsRead(db, run, settings, i);
    BackupRestoresValue(Lookup(db, AddressOf(settings[i])));
  }

  /** Entries keyed only by the settings' composites, enumerated in
      `order`, are set up to put a setting back to what its entry restores. */
  lemma EntriesRestoreTo(settings: seq<Setting>, entries: map<string, string>, order: seq<string>, i: nat)
    requires WellFormed(settings) && i < |settings|
    requires IsEnumeration(order, entries)
    requires forall k :: k in entries ==> IsKeyOf(k, settings)
    requires Composite(settings[i]) in entries
    ensures RestoresTo(settings, entries, order, i, RestoredValue(entries[Composite(settings[i])]))
  {
    forall j | 0 <= j < |order|
      ensures IsKeyOf(order[j], settings)
    {
      assert order[j] in entries;
    }
  }

  /** Restoring a backup of the settings, in any enumeration order, sets
      each setting to what its entry restores. */
  lemma RestoreBackup(between: Database, run: Runner, settings: seq<Setting>, order: seq<string>, i: nat)
    requires WellFormed(settings) && i < |settings|
    requires IsEnumeration(order, Backup(run, settings))
    requires Composite(settings[i]) in Backup(run, settings)
    ensures Lookup(ApplyAll(between, RestoreCommands(Backup(run, settings), order)), AddressOf(settings[i]))
      == RestoredValue(Backup(run, settings)[Composite(settings[i])])
  {
    var entries := Backup(run, settings);
    EntriesRestoreTo(settings, entries, order, i);
    RestoreFromBackup(between, settings, entries, order, i, RestoredValue(entries[Composite(settings[i])]));
  }

  // ---------------------------------------------------------------------------
  // The six settings
  // ---------------------------------------------------------------------------

  const Commerce: string := "com.apple.commerce"
  const SoftwareUpdate: string := "com.apple.SoftwareUpdate"

  /** The settings the throttle switches off, in the order it visits them. */
  const Settings: seq<Setting> := [
    Setting(Commerce, "AutoUpdate"),
    Setting(Commerce, "AutoUpdateRestartRequired"),
    Setting(SoftwareUpdate, "AutomaticCheckEnabled"),
    Setting(SoftwareUpdate, "AutomaticDownload"),
    Setting(SoftwareUpdate, "ConfigDataInstall"),
    Setting(SoftwareUpdate, "CriticalUpdateInstall")
  ]

  lemma DomainsFreeOfColon()
    ensures FreeOfColon(Commerce) && FreeOfColon(SoftwareUpdate)
  {
  }

  lemma FirstKeysFreeOfColon()
    ensures FreeOfColon("AutoUpdate") && FreeOfColon("AutoUpdateRestartRequired") && FreeOfColon("AutomaticCheckEnabled")
  {
  }

  lemma LastKeysFreeOfColon()
    ensures FreeOfColon("AutomaticDownload") && FreeOfColon("ConfigDataInstall") && FreeOfColon("CriticalUpdateInstall")
  {
  }

  lemma KeyFreeOfColon(i: nat)
    requires i < |Settings|
    ensures FreeOfColon(Settings[i].key)
  {
    FirstKeysFreeOfColon();
    LastKeysFreeOfColon();
  }

  /** The keys' lengths and first letters, which tell them apart. */
  lemma KeyShape(i: nat)
    requires i < |Settings|
    ensures |Settings[i].key| == [10, 25, 21, 17, 17, 21][i]
    ensures |Settings[i].key| > 0 && Settings[i].key[0] == "AAAACC"[i]
  {
  }

  lemma KeysDistinct(i: nat, j: nat)
    requires i < j < |Settings|
    ensures Settings[i].key != Settings[j].key
  {
    KeyShape(i);
    KeyShape(j);
    var lengths := [10, 25, 21, 17, 17, 21];
    var initials := "AAAACC";
    assert lengths[i] != lengths[j] || initials[i] != initials[j];
  }

  /** The six settings have colon-free names and six different addresses. */
  lemma SettingsWellFormed()
    ensures WellFormed(Settings)
  {
    forall i | 0 <= i < |Settings|
      ensures FreeOfColon(Settings[i].domain) && FreeOfColon(Settings[i].key)
    {
      DomainsFreeOfColon();
      KeyFreeOfColon(i);
      assert Settings[i].domain == (if i < 2 then Commerce else SoftwareUpdate);
    }
    forall i, j | 0 <= i < j < |Settings|
      ensures AddressOf(Settings[i]) != AddressOf(Settings[j])
    {
      KeysDistinct(i, j);
    }
  }

  /** `enable()`: read every setting into a fresh backup, save it over any
      earlier one (unless the write fails, which leaves the file as it was),
      then switch every setting off. */
  function Enable(file: BackupFile, run: Runner, saved: bool): (o: Outcome)
    ensures o.file == (if saved then Saved(Backup(run, Settings)) else file)
    ensures o.issued == ReadCommands(Settings) + SwitchOffCommands(Settings)
  {
    Outcome(if saved then Saved(Backup(run, Settings)) else file, ReadCommands(Settings) + SwitchOffCommands(Settings))
  }

  /** After `enable()` every setting reads as off, and no other address changed. */
  lemma EnableSwitchesOff(db: Database, file: BackupFile, run: Runner, saved: bool, a: Address)
    ensures a in Addresses(Settings) ==> Lookup(ApplyAll(db, Enable(file, run, saved).issued), a) == Some(Flag(false))
    ensures a !in Addresses(Settings) ==> Lookup(ApplyAll(db, Enable(file, run, saved).issued), a) == Lookup(db, a)
  {
    if a in Addresses(Settings) {
      var i :| 0 <= i < |Settings| && Addresses(Settings)[i] == a;
      SettingsWellFormed();
      EnableCommandsSwitchOff(db, Settings, i);
    } else {
      EnableCommandsElsewhere(db, Settings, a);
    }
  }

  /** The backup `enable()` saves holds, for each setting, the trimmed
      output of reading it, and no key that is not a setting's. */
  lemma EnableRecordsReads(db: Database, run: Runner, i: nat)
    requires AnswersReads(run, db, Addresses(Settings))
    requires i < |Settings|
    ensures Composite(Settings[i]) in Enable(NoBackup, run, true).file.entries
    ensures Enable(NoBackup, run, true).file.entries[Composite(Settings[i])]
      == BackupValue(ReadOutput(Lookup(db, AddressOf(Settings[i]))))
    ensures forall k :: k in Enable(NoBackup, run, true).file.entries ==> IsKeyOf(k, Settings)
  {
    SettingsWellFormed();
    BackupCovers(run, Settings);
    assert Addresses(Settings)[i] == AddressOf(Settings[i]);
  }

  /** Switching the throttle off after switching it on puts back every
      setting whose value survives the backup, whatever order the backup's
      entries are visited in and whatever the settings hold by then. */
  lemma RestoreUndoesEnable(db: Database, between: Database, run: Runner, order: seq<string>, i: nat)
    requires AnswersReads(run, db, Addresses(Settings))
    requires IsEnumeration(order, Enable(NoBackup, run, true).file.entries)
    requires i < |Settings| && Restorable(Lookup(db, AddressOf(Settings[i])))
    ensures Lookup(ApplyAll(between, Disable(Enable(NoBackup, run, true).file, order, true).issued), AddressOf(Settings[i]))
      == Lookup(db, AddressOf(Settings[i]))
  {
    SettingsWellFormed();
    BackupEntryRestores(db, run, Settings, i);
    RestoreBackup(between, run, Settings, order, i);
  }
}
